=== FILE: README.md ===
# Django ORM exercises, modelled in Dafny

This project models the logic behind a set of Django ORM exercises:

- heroes that spend and recharge energy;
- products with a discounted proxy;
- media records with per-kind validators;
- custom model fields (student IDs, masked credit cards);
- hotel rooms and reservations with an overlap rule;
- user messages;
- a zoo with keepers and a display proxy;
- the query functions of several `caller.py` scripts: artifacts, cars, tasks, hotel rooms, game characters, artworks, laptops, chess players, meals, dungeons, workouts, authors and books, artists and songs, products and reviews, drivers and licences, car registrations, students, and the exam's publishers, authors and books.

Every database table is a `seq` of immutable records:

- `filter(...).update(...)` is a conditional map over the table (`Tables.UpdateWhere`);
- `.delete()` is a filter (`Tables.Filter`);
- `order_by` is a stable sort (`Tables.SortBy`) or an arg-max (`Tables.FirstBy`, `Tables.TopBy`) under an explicit strict order that includes the tie-break;
- `Case(When ...)` is a total or partial function;
- `objects.get` is `RelationExercises.GetUnique`, which reports DoesNotExist and MultipleObjectsReturned.

Exceptions the code can raise are `Result` errors named after the Python exception (`Wrappers.ErrorKind`).

Values are represented as follows:

- Dates are proleptic day numbers counted like Python's `date.toordinal()` (`Dates`). `timedelta` arithmetic outside years 1..9999 raises OverflowError, and `str(date)` is ISO formatting.
- Two-place decimals that are only added or multiplied by integers are integer cents. Decimals multiplied by decimal rates are exact `real`s.
- Ratings printed with one decimal place are integer tenths.
- Strings compare by code point. That is the order Python's `sorted` uses. For `order_by`, it is the order of a database using the "C" collation, such as PostgreSQL created with `LC_COLLATE=C` (see "## Left out").

The shared modules are:

- `Wrappers`: Option, Result and error kinds.
- `Text`: digits and integer parsing/printing, `str.split`/`str.replace`, case-insensitive containment, and lexicographic order.
- `Dates`: the calendar.
- `Tables`: the generic table operations, with their proofs (a stable insertion sort, filters that keep order, ids and multiplicities).

## Model

Paths are relative to the repository root.

| member | source | states |
|---|---|---|
| AdvancedModels.UseAbility | Advanced_Django_Model_Techniques_Exercises/main_app/models.py:150-159 | with too little energy the hero is unchanged and gets the "required energy" message; otherwise energy drops by the cost but never below MIN_ENERGY = 1, and the success message is returned |
| AdvancedModels.PlainHeroUse | Advanced_Django_Model_Techniques_Exercises/main_app/models.py:130-159 | the base hero costs 0 and returns empty messages; an exhausted one (energy 0) is lifted to 1 |
| AdvancedModels.SwingFromBuildings | Advanced_Django_Model_Techniques_Exercises/main_app/models.py:162-181 | the spider hero behaves as use_ability with cost 80: below 80 nothing changes and the web-fluid message is returned; above 80, 80 is spent; exactly 80 leaves 1 |
| AdvancedModels.RunAtSuperSpeed | Advanced_Django_Model_Techniques_Exercises/main_app/models.py:184-204 | the flash hero behaves as use_ability with cost 65: below 65 nothing changes and the speed-force message is returned; above 65, 65 is spent; exactly 65 leaves 1 |
| AdvancedModels.RechargeEnergy | Advanced_Django_Model_Techniques_Exercises/main_app/mixins.py:1-10 | recharge gives min(energy + amount, 100), within [0, MAX_ENERGY]; below the cap exactly `amount` is added; no other field changes; the save raises IntegrityError iff energy + amount < 0, since `energy` is a PositiveIntegerField |
| AdvancedModels.RechargeHasNoFloor | Advanced_Django_Model_Techniques_Exercises/main_app/mixins.py:5-10 | a negative amount lowers the energy with no floor but the database's at 0: down to 0 it is stored as is, below MIN_ENERGY; further down the save is refused |
| AdvancedModels.EnergyStaysInRange | Advanced_Django_Model_Techniques_Exercises/main_app/models.py:150-159 | any sequence of ability uses and non-negative recharges keeps energy within [1, 100] and leaves name and kind alone |
| AdvancedModels.CalculateTax | Advanced_Django_Model_Techniques_Exercises/main_app/models.py:101-102 | tax on a positive price is positive and below a tenth of the price |
| AdvancedModels.CalculateShippingCost | Advanced_Django_Model_Techniques_Exercises/main_app/models.py:105-106 | shipping for a non-negative weight lies between 1x and 2x the weight |
| AdvancedModels.ProductRates | Advanced_Django_Model_Techniques_Exercises/main_app/models.py:92-116 | the product charges 0.08 tax and 2.00 per unit of weight; the discounted proxy 0.05 and 1.50 |
| AdvancedModels.DiscountedIsCheaper | Advanced_Django_Model_Techniques_Exercises/main_app/models.py:113-116 | for a positive price and weight the discounted proxy charges strictly less tax and shipping |
| AdvancedModels.CalculatePriceWithoutDiscount | Advanced_Django_Model_Techniques_Exercises/main_app/models.py:122-123 | the undiscounted price divided by 1.2 is the stored price, and exceeds it for a positive price |
| AdvancedModels.FormatProductName | Advanced_Django_Model_Techniques_Exercises/main_app/models.py:109-127 | the label is "Product: " or "Discounted Product: " by class, and always ends with the name |
| AdvancedModels.ProductLabelsDiffer | Advanced_Django_Model_Techniques_Exercises/main_app/models.py:109-127 | the two classes never label the same product alike |
| AdvancedModels.CharFieldErrors | Advanced_Django_Model_Techniques_Exercises/main_app/models.py:50-62 | a required character field has no error iff it is non-blank and within its min and max length; a non-blank value that is too short gets exactly the custom min-length message |
| AdvancedModels.DetailErrors | Advanced_Django_Model_Techniques_Exercises/main_app/models.py:50-89 | the per-kind fields are error-free iff author is 5..100, ISBN 6..20 and unused, director 8..100, artist 9..100 characters |
| AdvancedModels.FullCleanMedia | Advanced_Django_Model_Techniques_Exercises/main_app/models.py:33-89 | full_clean passes iff every field bound holds (MediaFieldsValid), and it reports each custom min-length message when that field is non-empty but too short |
| AdvancedModels.MediaOrderIsStrict | Advanced_Django_Model_Techniques_Exercises/main_app/models.py:36 | newest-first-then-title is a strict order |
| AdvancedModels.OrderedMedia | Advanced_Django_Model_Techniques_Exercises/main_app/models.py:34-36 | the default ordering is a permutation with created_at descending and, within a timestamp, titles ascending |
| InheritanceModels.ValidateStudentId | Models_Inheritance_And_Customization_Exercises/main_app/models.py:108-118 | an int passes unchanged; text passes iff it parses as an integer, else ValueError "Invalid input for student ID"; None is a TypeError that is not caught |
| InheritanceModels.StudentIdPrepValue | Models_Inheritance_And_Customization_Exercises/main_app/models.py:120-126 | accepts exactly the coerced IDs above zero and returns them unchanged; a coerced ID <= 0 is a ValidationError; a coercion error passes through |
| InheritanceModels.StudentIdRoundTrip | Models_Inheritance_And_Customization_Exercises/main_app/models.py:110-126 | a positive ID survives the field both as a number and as its decimal text |
| InheritanceModels.ValidateCardNumber | Models_Inheritance_And_Customization_Exercises/main_app/models.py:139-150 | accepts exactly the strings of 16 ASCII digits and returns them unchanged; otherwise the non-string, non-digit and wrong-length errors apply in that order |
| InheritanceModels.MaskCardNumber | Models_Inheritance_And_Customization_Exercises/main_app/models.py:134-157 | masking succeeds iff validation does, and yields "****-****-****-" plus the last four digits, 19 characters = max_length |
| InheritanceModels.MaskIsNotIdempotent | Models_Inheritance_And_Customization_Exercises/main_app/models.py:144-157 | masking a masked number fails at the digits check |
| InheritanceModels.CleanRoom | Models_Inheritance_And_Customization_Exercises/main_app/models.py:180-182 | a room is refused iff total_guests > capacity, with the capacity message; a full room passes |
| InheritanceModels.SaveRoom | Models_Inheritance_And_Customization_Exercises/main_app/models.py:175-188 | a save succeeds iff clean passes and no other room holds the `unique=True` number; over capacity is the ValidationError, a taken number the IntegrityError; on success the row replaces the one with its id (or is added) and "Room {number} created successfully" is reported |
| InheritanceModels.SaveRoomReplacesById | Models_Inheritance_And_Customization_Exercises/main_app/models.py:185-188 | saving keeps ids unique, and saving a room whose id is stored leaves the table size unchanged |
| InheritanceModels.SavedNumbersStayUnique | Models_Inheritance_And_Customization_Exercises/main_app/models.py:175-188 | successful saves keep room numbers unique across rows |
| InheritanceModels.SavedRoomsFit | Models_Inheritance_And_Customization_Exercises/main_app/models.py:180-188 | saves keep every stored room within capacity |
| InheritanceModels.CalculateTotalCost | Models_Inheritance_And_Customization_Exercises/main_app/models.py:209-214 | a stay of at least one night costs at least one night's price, and one night costs exactly that |
| InheritanceModels.CostIsAdditive | Models_Inheritance_And_Customization_Exercises/main_app/models.py:209-214 | splitting a stay on any day splits its cost exactly, so no rounding is ever needed |
| InheritanceModels.GetOverlappingReservations | Models_Inheritance_And_Customization_Exercises/main_app/models.py:217-222 | returns exactly the rows of the same room with end >= start of the interval and start <= its end |
| InheritanceModels.OverlapMeansSharedDay | Models_Inheritance_And_Customization_Exercises/main_app/models.py:217-222 | for well-formed stays the overlap test holds iff the two share a calendar day |
| InheritanceModels.TouchingDatesOverlap | Models_Inheritance_And_Customization_Exercises/main_app/models.py:217-222 | a stay ending on the day another interval begins counts as overlapping |
| InheritanceModels.IsAvailableAsWritten | Models_Inheritance_And_Customization_Exercises/main_app/models.py:225-228 | as written, `is_available` is False for every reservation and table |
| InheritanceModels.AvailabilityAsWrittenIgnoresRows | Models_Inheritance_And_Customization_Exercises/main_app/models.py:225-228 | even with no overlapping rows at all, the written check reports the room as taken |
| InheritanceModels.IsAvailableIffNoOverlapping | Models_Inheritance_And_Customization_Exercises/main_app/models.py:217-228 | the intended availability holds iff the overlap query is empty |
| InheritanceModels.CleanReservation | Models_Inheritance_And_Customization_Exercises/main_app/models.py:225-236 | clean raises the ValidationError iff start >= end; otherwise, because `is_available` is always False, it returns "Room {number} cannot be reserved" for every reservation |
| InheritanceModels.CleanReservationIntended | Models_Inheritance_And_Customization_Exercises/main_app/models.py:217-236 | with `exists()` called, clean raises iff start >= end and otherwise returns "Room {number} cannot be reserved" exactly when the overlap query finds a row |
| InheritanceModels.CleanVersionsDifferOnFreeRooms | Models_Inheritance_And_Customization_Exercises/main_app/models.py:225-236 | for a well-formed stay the written and the intended clean differ exactly when no row overlaps |
| Tables.StoreById | Models_Inheritance_And_Customization_Exercises/main_app/models.py:238-241 | a save stores the row, replacing the row with its id in place when there is one and appending otherwise; every row with another id stays |
| InheritanceModels.SaveReservation | Models_Inheritance_And_Customization_Exercises/main_app/models.py:238-241 | a save succeeds iff start < end (availability never blocks it), stores the row, and reports "{type} reservation for room {number}" |
| InheritanceModels.ExtendingStoredReservationAlwaysFails | Models_Inheritance_And_Customization_Exercises/main_app/models.py:251-261 | as written, a stored well-formed reservation can never be extended |
| InheritanceModels.ExtendReservationAsWritten | Models_Inheritance_And_Customization_Exercises/main_app/models.py:251-261 | as written, extending succeeds iff the new end is a valid date after the start and the overlap query, which includes the reservation itself, is empty; the longer stay is then stored and reported |
| InheritanceModels.ExtendReservation | Models_Inheritance_And_Customization_Exercises/main_app/models.py:251-261 | with the reservation itself left out of the overlap query, extending succeeds iff the new end is a valid date after the start and no other row overlaps; the longer stay is stored and reported |
| InheritanceModels.FreeOfOthersIffNoOtherOverlapping | Models_Inheritance_And_Customization_Exercises/main_app/models.py:251-256 | the extension is free iff the overlap query without the reservation itself is empty |
| InheritanceModels.ExtensionKeepsOtherRows | Models_Inheritance_And_Customization_Exercises/main_app/models.py:251-261 | a successful extension stores the longer stay and keeps every other row, adding none |
| InheritanceModels.ExtendAloneSucceeds | Models_Inheritance_And_Customization_Exercises/main_app/models.py:251-261 | a reservation alone in its table can be extended by any non-negative number of days that keeps a valid end date |
| InheritanceModels.NewMessage | Models_Inheritance_And_Customization_Exercises/main_app/models.py:66-79 | a new message starts unread |
| InheritanceModels.MarkAsRead | Models_Inheritance_And_Customization_Exercises/main_app/models.py:82-83 | mark_as_read sets is_read and nothing else |
| InheritanceModels.ReplyToMessage | Models_Inheritance_And_Customization_Exercises/main_app/models.py:86-94 | a reply swaps sender and receiver, carries the new content, starts unread, and is appended |
| InheritanceModels.ForwardMessage | Models_Inheritance_And_Customization_Exercises/main_app/models.py:97-105 | a forward is sent by the original receiver to the new receiver with the same content, unread, and is appended |
| InheritanceModels.ReplyToReplyRestoresDirection | Models_Inheritance_And_Customization_Exercises/main_app/models.py:86-94 | replying to a reply restores the original direction |
| DataOperations.RenameArtifact | Data_Operations_In_Django_With_Queries_Exercises/caller.py:44-47 | the name becomes the new name iff the artifact is magical and older than 250; no other field changes |
| DataOperations.RenameIsIdempotent | Data_Operations_In_Django_With_Queries_Exercises/caller.py:44-47 | renaming twice to the same name equals renaming once, and renaming back undoes it |
| DataOperations.PercentageOffBound | Data_Operations_In_Django_With_Queries_Exercises/caller.py:80 | a year of at most four digits takes at most 36% off |
| DataOperations.DiscountCar | Data_Operations_In_Django_With_Queries_Exercises/caller.py:80-83 | price_with_discount = price x (1 - digitsum(year)/100), and only that field changes |
| DataOperations.ApplyDiscount | Data_Operations_In_Django_With_Queries_Exercises/caller.py:75-83 | every car, in table order, gets its discounted price |
| DataOperations.ApplyDiscountIsIdempotent | Data_Operations_In_Django_With_Queries_Exercises/caller.py:75-83 | applying the discount again changes nothing |
| DataOperations.DiscountedPriceBounds | Data_Operations_In_Django_With_Queries_Exercises/caller.py:79-83 | for a four-digit year the discounted price lies between 64% and 100% of a non-negative price |
| DataOperations.CompleteOddTasks | Data_Operations_In_Django_With_Queries_Exercises/caller.py:100-106 | a task ends finished iff it was finished or has an odd id; nothing else changes |
| DataOperations.CompleteOddTasksIsIdempotent | Data_Operations_In_Django_With_Queries_Exercises/caller.py:100-106 | completing twice equals completing once, and a finished task is never unset |
| DataOperations.Encode | Data_Operations_In_Django_With_Queries_Exercises/caller.py:110 | the shift succeeds iff every code point is >= 3 (else ValueError from chr), keeps the length, and lowers each code point by 3 |
| DataOperations.EncodeRoundTrip | Data_Operations_In_Django_With_Queries_Exercises/caller.py:110 | shifting the encoded text back by 3 recovers the input |
| DataOperations.DecodeRoundTrip | Data_Operations_In_Django_With_Queries_Exercises/caller.py:110 | every text shifted up by 3 encodes back to itself |
| DataOperations.EncodeAndReplace | Data_Operations_In_Django_With_Queries_Exercises/caller.py:109-114 | fails iff encoding fails, and then changes nothing; otherwise exactly the tasks with the title get the encoded description |
| DataOperations.DeluxeListing | Data_Operations_In_Django_With_Queries_Exercises/caller.py:117-120 | lists exactly the deluxe rooms with an even id |
| DataOperations.GetDeluxeRooms | Data_Operations_In_Django_With_Queries_Exercises/caller.py:117-120 | no listed room gives the empty string; a single one gives its line |
| DataOperations.RoomsById | Data_Operations_In_Django_With_Queries_Exercises/caller.py:125 | rooms ordered by id form a permutation of the table |
| DataOperations.IncreaseRoomCapacity | Data_Operations_In_Django_With_Queries_Exercises/caller.py:124-139 | walking rooms by id, each reserved room gains its own id if it is the first reserved one, else the already increased capacity of the previous reserved room; unreserved rooms and all other fields are unchanged |
| DataOperations.LastRoom | Data_Operations_In_Django_With_Queries_Exercises/caller.py:148 | last() picks the stored room with the largest id |
| DataOperations.WithoutRemovesOne | Data_Operations_In_Django_With_Queries_Exercises/caller.py:151 | deleting by a stored primary key removes exactly one row |
| DataOperations.DeleteLastRoom | Data_Operations_In_Django_With_Queries_Exercises/caller.py:147-151 | an empty table raises AttributeError; a reserved last room stays; otherwise exactly that room is removed |
| DataOperations.DeleteLastRoomRemovesOne | Data_Operations_In_Django_With_Queries_Exercises/caller.py:147-151 | deleting an unreserved last room shrinks the table by one |
| DataOperations.Fuse | Data_Operations_In_Django_With_Queries_Exercises/caller.py:170-187 | the fusion is named "first second", has class Fusion, level floor((l1+l2)/2), hit points h1+h2, and the inventory chosen by the first class |
| DataOperations.FuseCharacters | Data_Operations_In_Django_With_Queries_Exercises/caller.py:170-189 | afterwards the table holds the fusion plus every other character, and neither source character |
| DataOperations.FusionInventoryFollowsFirst | Data_Operations_In_Django_With_Queries_Exercises/caller.py:173-176 | swapping the two characters changes the inventory iff exactly one of them is a Mage or a Scout; level and hit points are symmetric |
| QueryExercises.ShowHighestRatedArt | Working_With_Queries_In_Django_Exercises/caller.py:27-30 | an empty gallery raises AttributeError; otherwise the line names an artwork that nothing precedes under rating descending, id ascending |
| QueryExercises.HighestRatedIsUnique | Working_With_Queries_In_Django_Exercises/caller.py:28 | with unique ids the highest-rated artwork is unique: top rating, then lowest id |
| QueryExercises.DeleteNegativeRatedArts | Working_With_Queries_In_Django_Exercises/caller.py:40-41 | exactly the artworks with a rating >= 0 remain |
| QueryExercises.HighestRatedSurvivesDeletion | Working_With_Queries_In_Django_Exercises/caller.py:27-41 | a highest-rated artwork with a non-negative rating is still the one shown after the negative ratings are deleted |
| QueryExercises.ShowTheMostExpensiveLaptop | Working_With_Queries_In_Django_Exercises/caller.py:44-46 | an empty table raises AttributeError; otherwise the line names a laptop nothing precedes under price descending, id descending |
| QueryExercises.MostExpensiveIsMaximal | Working_With_Queries_In_Django_Exercises/caller.py:45 | the chosen laptop has the top price and, among those, the highest id |
| QueryExercises.UpdateTo512GbStorage | Working_With_Queries_In_Django_Exercises/caller.py:53-54 | exactly the Asus and Lenovo rows get 512 storage |
| QueryExercises.UpdateTo16GbMemory | Working_With_Queries_In_Django_Exercises/caller.py:57-58 | exactly the Apple, Dell and Acer rows get 16 memory |
| QueryExercises.UpdateOperationSystems | Working_With_Queries_In_Django_Exercises/caller.py:61-69 | only the system changes, and it is set iff the brand is one of the five named |
| QueryExercises.OperatingSystemForInverts | Working_With_Queries_In_Django_Exercises/caller.py:63-68 | Asus gets Windows, Apple MacOS, Dell and Acer Linux, Lenovo Chrome OS, and no other brand gets any |
| QueryExercises.DeleteInexpensiveLaptops | Working_With_Queries_In_Django_Exercises/caller.py:72-73 | exactly the laptops priced 1200 or more remain |
| QueryExercises.DeleteInexpensiveCommutesWithUpdates | Working_With_Queries_In_Django_Exercises/caller.py:53-73 | no laptop update touches the price, so deleting the inexpensive laptops before or after the storage, memory or system update yields the same table |
| QueryExercises.BandsPartitionRatings | Working_With_Queries_In_Django_Exercises/caller.py:96-118 | the GM, IM, FM and regular bands are pairwise disjoint and together cover exactly the ratings >= 0 |
| QueryExercises.GrandChessTitleGm | Working_With_Queries_In_Django_Exercises/caller.py:96-97 | exactly the players rated 2400 or more get "GM"; every other row stays |
| QueryExercises.GrandChessTitleIm | Working_With_Queries_In_Django_Exercises/caller.py:100-104 | exactly the players rated 2300 to 2399 get "IM"; every other row stays |
| QueryExercises.GrandChessTitleFm | Working_With_Queries_In_Django_Exercises/caller.py:107-111 | exactly the players rated 2200 to 2299 get "FM"; every other row stays |
| QueryExercises.GrandChessTitleRegularPlayer | Working_With_Queries_In_Django_Exercises/caller.py:114-118 | exactly the players rated 0 to 2199 get "regular player"; every other row stays |
| QueryExercises.GrantTitle | Working_With_Queries_In_Django_Exercises/caller.py:96-118 | each grant sets the title of exactly the players in its band and leaves every other row alone |
| QueryExercises.AllGrantsAssignBandTitles | Working_With_Queries_In_Django_Exercises/caller.py:96-118 | running all four grants gives every non-negative rating the title of its band and leaves negative ratings untouched |
| QueryExercises.GrantsCommute | Working_With_Queries_In_Django_Exercises/caller.py:96-118 | grants over disjoint bands may run in either order |
| QueryExercises.SetNewChefs | Working_With_Queries_In_Django_Exercises/caller.py:121-125 | after the four updates every meal has the chef of its type and nothing else changed |
| QueryExercises.SetNewPreparationTimes | Working_With_Queries_In_Django_Exercises/caller.py:128-132 | after the four updates every meal has the preparation time of its type |
| QueryExercises.UpdateLowCalorieMeals | Working_With_Queries_In_Django_Exercises/caller.py:135-137 | exactly the breakfasts and dinners get 400 calories; every other row stays |
| QueryExercises.UpdateHighCalorieMeals | Working_With_Queries_In_Django_Exercises/caller.py:140-142 | exactly the lunches and snacks get 700 calories; every other row stays |
| QueryExercises.CalorieUpdatesCoverAllMeals | Working_With_Queries_In_Django_Exercises/caller.py:135-142 | after both calorie updates breakfasts and dinners have 400 calories and lunches and snacks 700 |
| QueryExercises.DeleteLunchAndSnackMeals | Working_With_Queries_In_Django_Exercises/caller.py:145-147 | exactly the breakfasts and dinners remain |
| QueryExercises.DeleteMealsCommutesWithUpdates | Working_With_Queries_In_Django_Exercises/caller.py:121-147 | the chef and preparation-time updates keep meal types, so deleting lunches and snacks before or after them yields the same table |
| QueryExercises.HardDungeons | Working_With_Queries_In_Django_Exercises/caller.py:150-153 | lists exactly the hard dungeons, by location descending |
| QueryExercises.ShowHardDungeons | Working_With_Queries_In_Django_Exercises/caller.py:150-156 | no hard dungeon gives the empty string; a single one gives its line |
| QueryExercises.UpdateDungeonNames | Working_With_Queries_In_Django_Exercises/caller.py:163-170 | only names change; easy dungeons become "The Erased Thombs", medium ones "The Coral Labyrinth", hard ones "The Lost Haunt"; two dungeons share a name iff they share a difficulty |
| QueryExercises.UpdateDungeonBossesHealth | Working_With_Queries_In_Django_Exercises/caller.py:173-174 | every dungeon but the easy ones gets boss health 500 |
| QueryExercises.UpdateDungeonRecommendedLevels | Working_With_Queries_In_Django_Exercises/caller.py:177-184 | only levels change, and every dungeon gets one (the Case covers all difficulties) |
| QueryExercises.UpdateDungeonRewards | Working_With_Queries_In_Django_Exercises/caller.py:187-190 | after the three updates a location ending in "s" has the amulet, else one starting with "E" the unlock, else a 500-health boss the gold; other rewards and all other fields stay |
| QueryExercises.BossesThenRewards | Working_With_Queries_In_Django_Exercises/caller.py:173-190 | after the boss update, a dungeon whose location neither ends in "s" nor starts with "E" gets the gold iff it is not easy, already had a 500-health boss, or already held the gold |
| QueryExercises.SetNewLocations | Working_With_Queries_In_Django_Exercises/caller.py:193-196 | only locations change: level 25 gets "Enchanted Maze", 50 "Grimstone Mines", 75 "Shadowed Abyss", and any other level (or none) keeps its location |
| QueryExercises.LocationsFollowDifficulty | Working_With_Queries_In_Django_Exercises/caller.py:177-196 | setting levels then locations gives Enchanted Maze, Grimstone Mines or Shadowed Abyss by difficulty |
| QueryExercises.ShownWorkouts | Working_With_Queries_In_Django_Exercises/caller.py:199-202 | lists exactly the calisthenics and CrossFit workouts, by id |
| QueryExercises.ShowWorkouts | Working_With_Queries_In_Django_Exercises/caller.py:199-205 | no shown workout gives the empty string; a single one gives its line |
| QueryExercises.GetHighDifficultyCardioWorkouts | Working_With_Queries_In_Django_Exercises/caller.py:208-212 | exactly the high-difficulty cardio workouts, by instructor |
| QueryExercises.SetNewInstructors | Working_With_Queries_In_Django_Exercises/caller.py:215-224 | only instructors change; cardio gets "John Smith", strength "Michael Williams", yoga "Emily Johnson", CrossFit "Sarah Davis", calisthenics "Chris Heria"; two workouts share an instructor iff they share a type |
| QueryExercises.SetNewDurationTimes | Working_With_Queries_In_Django_Exercises/caller.py:227-236 | only durations change, and a duration is NULL iff the instructor is none of the five named |
| QueryExercises.DurationFollowsType | Working_With_Queries_In_Django_Exercises/caller.py:215-236 | new instructors then new durations give every workout the duration of its type |
| QueryExercises.DeleteWorkouts | Working_With_Queries_In_Django_Exercises/caller.py:239-242 | exactly the strength and calisthenics workouts remain |
| QueryExercises.DeleteWorkoutsCommutesWithUpdates | Working_With_Queries_In_Django_Exercises/caller.py:215-242 | the instructor and duration updates keep workout types, so deleting before or after them yields the same table |
| RelationExercises.GetUnique | Django_Models_Relations_Exercises/caller.py:44-45 | get returns the one matching row; DoesNotExist iff none matches, else MultipleObjectsReturned |
| RelationExercises.TitlesOf | Django_Models_Relations_Exercises/caller.py:25-30 | an author has titles to list iff it has a book |
| RelationExercises.AuthorsWithBooks | Django_Models_Relations_Exercises/caller.py:20-36 | exactly the authors with a book are listed, in id order |
| RelationExercises.ShowAllAuthorsWithTheirBooks | Django_Models_Relations_Exercises/caller.py:20-36 | with no author owning a book the listing is empty |
| RelationExercises.DeleteAllAuthorsWithoutBooks | Django_Models_Relations_Exercises/caller.py:39-40 | exactly the authors with a book remain |
| RelationExercises.DeletingOrphanAuthorsKeepsBookAuthors | Django_Models_Relations_Exercises/caller.py:39-40 | no book loses its author |
| RelationExercises.AddSongToArtist | Django_Models_Relations_Exercises/caller.py:43-47 | succeeds iff both lookups do, and adds at most one link |
| RelationExercises.RemoveSongFromArtist | Django_Models_Relations_Exercises/caller.py:56-60 | succeeds iff both lookups do, and removes at most one link |
| RelationExercises.AddThenRemove | Django_Models_Relations_Exercises/caller.py:43-60 | adding then removing a new link restores the link table |
| RelationExercises.GetSongsByArtist | Django_Models_Relations_Exercises/caller.py:50-53 | exactly the artist's linked songs, by id descending |
| RelationExercises.CalculateAverageRating | Django_Models_Relations_Exercises/caller.py:63-69 | the lookup error propagates; no reviews is a ZeroDivisionError; otherwise sum/len of the product's ratings |
| RelationExercises.AverageWithinRatings | Django_Models_Relations_Exercises/caller.py:63-69 | the average lies between the lowest and highest rating |
| RelationExercises.GetReviewsWithHighRatings | Django_Models_Relations_Exercises/caller.py:72-73 | exactly the reviews rated at or above the threshold |
| RelationExercises.HigherThresholdKeepsFewer | Django_Models_Relations_Exercises/caller.py:72-73 | raising the threshold only drops reviews, and keeps those rated at or above the new threshold |
| RelationExercises.GetProductsWithNoReviews | Django_Models_Relations_Exercises/caller.py:76-77 | exactly the products without reviews, by name descending |
| RelationExercises.DeleteProductsWithoutReviews | Django_Models_Relations_Exercises/caller.py:80-81 | exactly the products with a review remain |
| RelationExercises.OrphanProductsPartition | Django_Models_Relations_Exercises/caller.py:76-81 | a product either survives the deletion or is listed as review-less, never both |
| RelationExercises.ExpiryDates | Django_Models_Relations_Exercises/caller.py:89-90 | each expiry is issue date + 365 days, and it fails with OverflowError iff some expiry is past 9999-12-31 |
| RelationExercises.LicensesByNumber | Django_Models_Relations_Exercises/caller.py:85 | licences by number descending form a permutation of the table |
| RelationExercises.CalculateLicensesExpirationDates | Django_Models_Relations_Exercises/caller.py:84-96 | succeeds iff every expiry date is representable; the text is the line of each licence, by number descending, joined by newlines; no licences give the empty string |
| RelationExercises.ExpiryLines | Django_Models_Relations_Exercises/caller.py:88-94 | one line per licence, in the given order: "License with number: {number} expires on {issue date + 365 days}!" |
| RelationExercises.ReportHasOneLinePerLicense | Django_Models_Relations_Exercises/caller.py:84-96 | when no licence number holds a newline, splitting the report on newlines gives back exactly one line per licence, in order |
| RelationExercises.GetDriversWithExpiredLicenses | Django_Models_Relations_Exercises/caller.py:99-105 | the due date minus 365 days must be representable; the drivers chosen are exactly those whose licence expired before the due date |
| RelationExercises.LowestId | Django_Models_Relations_Exercises/caller.py:109-110 | first() returns the row with the lowest id |
| RelationExercises.RegisterCarByOwner | Django_Models_Relations_Exercises/caller.py:108-123 | succeeds iff a free car and a free registration exist; with no free car nothing changes; with no free registration the car is still saved with its owner before the error; on success both rows are linked and dated and the message names car, owner and number |
| RelationExercises.RegistrationLinksBothWays | Django_Models_Relations_Exercises/caller.py:112-120 | after success some car and some registration point at each other, the car is the owner's, and the registration is dated today |
| ExamModels.PublisherErrors | TEST_REGULAR_EXAM/main_app/models.py:7-29 | no errors iff the publisher is valid; name, country and rating are reported iff out of bounds (3..100 characters, 1..40 characters since the field may not be blank, 0..5.0) |
| ExamModels.NewPublisher | TEST_REGULAR_EXAM/main_app/models.py:15-28 | a new publisher takes country "TBC" and rating 0 |
| ExamModels.NewPublisherIsValid | TEST_REGULAR_EXAM/main_app/models.py:7-29 | the publisher defaults pass validation whenever the name is 3..100 characters |
| ExamModels.NewAuthor | TEST_REGULAR_EXAM/main_app/models.py:33-49 | a new author has no birth date, country "TBC" and is active |
| ExamModels.NewAuthorIsValid | TEST_REGULAR_EXAM/main_app/models.py:33-49 | the author defaults pass validation whenever the name does |
| ExamModels.GenreLabel | TEST_REGULAR_EXAM/main_app/models.py:54-77 | every genre choice is non-empty and fits max_length 11 |
| ExamModels.GenreRoundTrip | TEST_REGULAR_EXAM/main_app/models.py:54-58 | every choice is read back as itself |
| ExamModels.NewBook | TEST_REGULAR_EXAM/main_app/models.py:69-94 | a new book has genre "Other", price 0.01, rating 0, no summary, and is not a bestseller |
| ExamModels.PriceBoundsInCents | TEST_REGULAR_EXAM/main_app/models.py:78-86 | on whole cents the validators, comparing with the float values of 0.01 and 9999.99, accept exactly 0.02..9999.98; the bounds as meant accept 0.01..9999.99 |
| ExamModels.DefaultPriceRejected | TEST_REGULAR_EXAM/main_app/models.py:78-86 | as written, a book with the default price 0.01 fails validation |
| ExamModels.NewBookIsValidIntended | TEST_REGULAR_EXAM/main_app/models.py:61-94 | with the price bounds as meant, the book defaults pass validation whenever the title (2..200) and date do |
| ExamModels.DeletePublisher | TEST_REGULAR_EXAM/main_app/models.py:96-99 | deleting a publisher removes it and exactly its books, and no link is added |
| ExamModels.DeleteAuthor | TEST_REGULAR_EXAM/main_app/models.py:100-107 | deleting an author removes it and exactly the books it is main author of, and every link to it |
| ExamModels.DeletePublisherKeepsIntact | TEST_REGULAR_EXAM/main_app/models.py:96-99 | the cascade leaves no dangling foreign key |
| ExamModels.DeleteAuthorKeepsIntact | TEST_REGULAR_EXAM/main_app/models.py:100-107 | the cascade leaves no dangling foreign key |
| ExamQueries.MatchingPublishers | TEST_REGULAR_EXAM/caller.py:87-89 | exactly the publishers whose name or country contains the search case-insensitively, by rating descending, then name |
| ExamQueries.NotFoundIffNoMatch | TEST_REGULAR_EXAM/caller.py:87-93 | for a non-empty search the answer is "No publishers found." iff no publisher matches |
| ExamQueries.EmptySearchMatchesAll | TEST_REGULAR_EXAM/caller.py:82-84 | the empty search would match every publisher, which is why it is refused first |
| ExamQueries.CountryDisplay | TEST_REGULAR_EXAM/caller.py:99 | "TBC" is shown as "Unknown", any other country as itself |
| ExamQueries.GetPublishers | TEST_REGULAR_EXAM/caller.py:77-105 | None or "" gives "No search criteria."; no match gives "No publishers found."; otherwise one line per match in the search order |
| ExamQueries.TopPublisher | TEST_REGULAR_EXAM/caller.py:110-117 | the chosen publisher has the most books, ties going to the smallest name |
| ExamQueries.GetTopPublisher | TEST_REGULAR_EXAM/caller.py:108-120 | no publishers gives "No publishers found."; otherwise the top publisher and its book count |
| ExamQueries.MainBooksByTitle | TEST_REGULAR_EXAM/caller.py:135 | exactly the author's main books, by title |
| ExamQueries.TopMainAuthorRow | TEST_REGULAR_EXAM/caller.py:125-132 | the chosen author has the most main books, ties going to the smallest name |
| ExamQueries.MainTitles | TEST_REGULAR_EXAM/caller.py:135-136 | one title per main book, in ascending order |
| ExamQueries.MainTitlesAreOwnBooks | TEST_REGULAR_EXAM/caller.py:135-136 | every listed title belongs to one of the author's main books |
| ExamQueries.MainAverageInRange | TEST_REGULAR_EXAM/caller.py:139-143 | with ratings in [0, 5.0] the average is too (0.0 when the author has no books) |
| ExamQueries.TopMainAuthor | TEST_REGULAR_EXAM/caller.py:123-151 | "No results." iff there are no authors or no books; otherwise the top author, its sorted titles and average |
| ExamQueries.TopMainAuthorHasBooks | TEST_REGULAR_EXAM/caller.py:123-132 | with intact keys the reported author has at least one main book |
| ExamQueries.JoinedCountOvercounts | TEST_REGULAR_EXAM/caller.py:156 | the summed counts over the two joins equal m + c when either is 0 and 2mc otherwise, so they exceed m + c unless m = c = 1, and are 0 iff m + c is |
| ExamQueries.TwoMainOneCoAuthoredGivesFour | TEST_REGULAR_EXAM/caller.py:156 | two main books and one co-authored book are counted as 4 |
| ExamQueries.IntendedCountAddsOnePerLink | TEST_REGULAR_EXAM/caller.py:156 | the intended count rises by exactly one per new co-author link |
| ExamQueries.RankedAuthors | TEST_REGULAR_EXAM/caller.py:156-159 | the ranking is a permutation of the authors by the query's count, descending |
| ExamQueries.TopAuthorLines | TEST_REGULAR_EXAM/caller.py:166-168 | min(3, authors) lines, each naming a ranked author with the query's count |
| ExamQueries.GetAuthorsByBooksCount | TEST_REGULAR_EXAM/caller.py:154-170 | "No results." when every count is zero (or there are no authors); otherwise the top lines joined by newlines |
| ExamQueries.ListedAuthorsDominate | TEST_REGULAR_EXAM/caller.py:159-168 | every listed author has at least as many books as any author left off |
| ExamQueries.TopBestseller | TEST_REGULAR_EXAM/caller.py:175-182 | the chosen book is a bestseller with the top rating, ties going to the smallest title |
| ExamQueries.SortedNames | TEST_REGULAR_EXAM/caller.py:190 | the co-author names, sorted ascending, one per co-author |
| ExamQueries.GetTopBestseller | TEST_REGULAR_EXAM/caller.py:173-199 | no bestseller gives "No results."; otherwise it fails iff the main author row is missing, and names title, rating, main author and sorted co-authors or "N/A" |
| ExamQueries.TopBestsellerFoundWhenIntact | TEST_REGULAR_EXAM/caller.py:173-199 | with intact keys the report never fails |
| ExamQueries.IncreasePrice | TEST_REGULAR_EXAM/caller.py:202-217 | no book from 2025 rated >= 4.0 gives "No changes in price." and no change; a selected price whose raise, rounded to cents, reaches 10000.00 makes the whole update fail with DataError; otherwise exactly those books get 1.2x the price and the count is reported |
| ExamQueries.OverflowThreshold | TEST_REGULAR_EXAM/caller.py:214 | for a selected non-negative price in cents, the raise overflows `numeric(6, 2)` exactly from 8333.33 up |
| ExamQueries.RaiseKeepsSelection | TEST_REGULAR_EXAM/caller.py:210-217 | after a successful update, the count taken equals the number of books updated |
| ZooModels.Age | Models_Inheritance_And_Customization_Lab/main_app/models.py:14-17 | the age is the number of whole 365-day periods since birth (floor division) |
| ZooModels.AgeMonotone | Models_Inheritance_And_Customization_Lab/main_app/models.py:14-17 | age never decreases as time passes |
| ZooModels.AgeAfterAYear | Models_Inheritance_And_Customization_Lab/main_app/models.py:14-17 | 365 days later the animal is exactly a year older |
| ZooModels.IsSpecialtyIsChoice | Models_Inheritance_And_Customization_Lab/main_app/models.py:42-48 | a value is accepted iff it is one of the four choices |
| ZooModels.CleanKeeper | Models_Inheritance_And_Customization_Lab/main_app/models.py:51-53 | clean passes iff the specialty is a choice, and otherwise raises "Specialty must be a valid choice." |
| ZooModels.FullCleanKeeper | Models_Inheritance_And_Customization_Lab/main_app/models.py:32-56 | full_clean passes iff names and phone are within bounds and the specialty is valid |
| ZooModels.SaveKeeper | Models_Inheritance_And_Customization_Lab/main_app/models.py:55-57 | a save succeeds iff the keeper is valid, stores it, and adds nothing else |
| ZooModels.SavedKeepersHaveSpecialties | Models_Inheritance_And_Customization_Lab/main_app/models.py:55-57 | because save validates first, stored keepers always have valid specialties |
| ZooModels.DisplayInfo | Models_Inheritance_And_Customization_Lab/main_app/models.py:65-67 | the whole text "Meet {name}! Species: {species}, born {birth_date}. It makes a noise like '{sound}'.", the date written as `str(date)` writes it |
| ZooModels.DisplayInfoShowsBirthDate | Models_Inheritance_And_Customization_Lab/main_app/models.py:65-67 | the text between the fixed head and tail is exactly the ISO birth date (at least ten characters), so the date can be read back |
| ZooModels.IsEndangered | Models_Inheritance_And_Customization_Lab/main_app/models.py:69-72 | "is at risk!" exactly for the three listed species, "is not at risk." otherwise |
| ZooModels.EndangeredAnswersDiffer | Models_Inheritance_And_Customization_Lab/main_app/models.py:69-72 | the answer ends with "!" iff the species is endangered |
| StudentQueries.GetStudentsInfo | Data_Operations_In_Django_With_Queries_Lab/caller.py:43-46 | no students give ""; one student gives its line; otherwise the text starts with the first student's "Student №{id}: " |
| StudentQueries.RewriteEmail | Data_Operations_In_Django_With_Queries_Lab/caller.py:51 | the rewrite fails with IndexError iff the address has no '@'; otherwise it is `str.replace` of the second `split('@')` piece by "uni-students.com" over the whole address |
| StudentQueries.RewriteReplacesLocalPartToo | Data_Operations_In_Django_With_Queries_Lab/caller.py:51 | "d@d" becomes "uni-students.com@uni-students.com": the domain is replaced in the local part as well |
| StudentQueries.RewriteInsideLocalPart | Data_Operations_In_Django_With_Queries_Lab/caller.py:51 | "ab@b" becomes "auni-students.com@uni-students.com" |
| StudentQueries.RewriteKeepsLocalPart | Data_Operations_In_Django_With_Queries_Lab/caller.py:51 | "local@domain" becomes "local@uni-students.com" when the local part does not contain the domain |
| StudentQueries.EmptyDomainIsInsertedEverywhere | Data_Operations_In_Django_With_Queries_Lab/caller.py:51 | an empty domain makes replace insert the new domain between every two characters |
| StudentQueries.UpdateStudentsEmails | Data_Operations_In_Django_With_Queries_Lab/caller.py:48-52 | the rewritten table has one row per student, and the only error the loop can raise is the IndexError of an address without '@' |
| StudentQueries.UpdateSucceedsIff | Data_Operations_In_Django_With_Queries_Lab/caller.py:48-52 | the update completes iff every address has an '@' |
| StudentQueries.UpdateStopsAtFirstFailure | Data_Operations_In_Django_With_Queries_Lab/caller.py:48-52 | at the first address without '@' the loop raises IndexError; earlier rows are rewritten and that row and later ones are untouched |
| StudentQueries.TruncateStudents | Data_Operations_In_Django_With_Queries_Lab/caller.py:54-55 | nothing is left, and the info text is empty |
| Text.SecondField | Data_Operations_In_Django_With_Queries_Lab/caller.py:51 | `split('@')[1]` is an IndexError iff there is no '@'; otherwise it is the second piece of the split, the '@'-free text that starts right after the first '@' and runs up to the next '@' or the end |
| Text.ParseIntRoundTrip | Models_Inheritance_And_Customization_Exercises/main_app/models.py:110-112 | `int()` reads back the decimal text of any integer |
| Dates.AddDays | Django_Models_Relations_Exercises/caller.py:90 | adding a timedelta succeeds iff the result lies in years 1..9999, and then moves the date by exactly that many days |

## Left out

- Django bootstrap, database persistence and `print`: `save`/`delete` are updates of an in-memory sequence. `populate_db`, `bulk_create_*`, the `create_*` helpers, and the whole-table `delete_all_*`, `show_all_locations`, `new_capital`, `get_capitals`, `get_recent_cars`, `show_unfinished_tasks`, `reserve_first_room` are one-line ORM calls with nothing to state beyond the ORM itself.
- `update_characters`, the `grand_*` setters, `delete_characters` and the chess `change_chess_games_*`/`delete_chess_players` updates are single unconditional or single-filter updates; the warrior `hit_points / 2` division depends on the database's float handling.
- Floating point: the fusion's strength, dexterity and intelligence multipliers are not modelled (`Character` omits those fields). The car discount is exactly digitsum/100 without the `str(float)` detour. The exam price raise is an exact 1.2 on a `real`.
- RelationExercises.CalculateAverageRating: the average is the exact real sum/len, while Python's `/` returns the nearest double (ratings 1, 1, 2 give 1.3333333333333333, not 4/3).
- ExamQueries.IncreasePrice: the raised price is not rounded back to two decimal places, as the Decimal column would store it; the overflow test does round, half away from zero.
- Float ratings are held as integer tenths (exam publishers and books) or integers (reviews, artworks).
- ExamQueries.TopMainAuthor: `round(avg, 1)` and the final f-string of `get_top_main_author` are not produced; the member returns the author's name, the sorted titles and the unrounded average as a `TopAuthor` value.
- Email and URL field validation, the `Customer` validators and `BooleanChoiceField` (in files not part of this model), `Veterinarian`, and the character inheritance hierarchies (`Mage`, `Assassin`, ...): they are schema only or framework-defined.
- `date.today()` and `auto_now`/`auto_now_add` timestamps are parameters (`today`, `createdAt`).
- InheritanceModels.ValidateStudentId: Python's `int()` also accepts surrounding whitespace, underscores and non-ASCII digits; the model accepts ASCII digits with an optional sign.
- AdvancedModels.FullCleanMedia: the messages for blank and over-long fields are Django's generic wording, and the model states only the custom min-length messages.
- ZooModels.FullCleanKeeper: the blank and max-length errors of the name and phone fields are one generic message.
- ZooModels.SaveKeeper: the many-to-many `managed_animals` relation is a set of ids and is not checked against stored animals.
- Choices modules and the exam's custom manager are transcribed as datatypes and plain functions; the generated migration has no behaviour.
- DataOperations.FuseCharacters: requires a fresh id for the fusion and does not model fusing a character with itself.
- The artist/song many-to-many relation is a set of id pairs, so duplicate links cannot arise.
- The database backend is assumed to be PostgreSQL with the "C" collation. Under it `order_by` on text compares code points, and `startswith`/`endswith` are case-sensitive. Two behaviours of other backends are not modelled. Other collations order text differently, which affects QueryExercises.HardDungeons, QueryExercises.GetHighDifficultyCardioWorkouts, RelationExercises.GetProductsWithNoReviews, RelationExercises.LicensesByNumber, ExamQueries.MatchingPublishers, ExamQueries.TopPublisher, ExamQueries.MainBooksByTitle and AdvancedModels.OrderedMedia. SQLite's `LIKE` ignores ASCII case, so under it `startswith`/`endswith` would match more rows.
- `Text.IContains` folds ASCII letters only.
- InheritanceModels.ValidateCardNumber: Python's `str.isdigit` also accepts non-ASCII digits such as "٣" or "²"; the model accepts ASCII digits only.
- DataOperations.GetDeluxeRooms: states the empty and one-row text; for several rows the contract of DataOperations.DeluxeListing gives the membership of the rows, not the joined text.
- QueryExercises.ShowHardDungeons: states the empty and one-row text; for several rows QueryExercises.HardDungeons gives the rows and their order, not the joined text.
- QueryExercises.ShowWorkouts: states the empty and one-row text; for several rows QueryExercises.ShownWorkouts gives the rows and their order, not the joined text.
- RelationExercises.ShowAllAuthorsWithTheirBooks: states only the empty listing; RelationExercises.AuthorsWithBooks gives the authors listed and their order.
- StudentQueries.GetStudentsInfo: states the empty and one-row text and the start of the first line, not the whole joined text.

## Findings

| source | as written | input that shows it | evidently intended | confidence | as-written member | corrected member |
|---|---|---|---|---|---|---|
| Models_Inheritance_And_Customization_Exercises/main_app/models.py:225-228 | `not reservations.exists` negates the bound method, which is always truthy, so `is_available` is always False | any reservation, even in an empty table | `not reservations.exists()` | high, not executed | InheritanceModels.AvailabilityAsWrittenIgnoresRows | InheritanceModels.IsAvailableIffNoOverlapping |
| Models_Inheritance_And_Customization_Exercises/main_app/models.py:251-256 | the overlap query for the extension includes the reservation itself, so extending a stored reservation always raises | a stored reservation 10..12 of room 1 alone in its table, extended by 1 day | exclude the reservation's own row from the overlap query | high, not executed | InheritanceModels.ExtendingStoredReservationAlwaysFails | InheritanceModels.ExtendAloneSucceeds |
| TEST_REGULAR_EXAM/main_app/models.py:81-85 | `MinValueValidator(0.01)` and `MaxValueValidator(9999.99)` take float bounds, which Python compares with the Decimal price exactly; the float 0.01 lies just above 0.01 and the float 9999.99 just below 9999.99, so both end prices fail, including the default 0.01 | a book with price 0.01, the field's own default | bounds 0.01 and 9999.99 both accepted (`Decimal('0.01')`, `Decimal('9999.99')`) | high, not executed | ExamModels.DefaultPriceRejected | ExamModels.NewBookIsValidIntended |
| TEST_REGULAR_EXAM/caller.py:156 | `Count('main_books') + Count('co_authored_books')` counts over one query joining both relations, so each count is multiplied by the other relation's row count | an author with two main books and one co-authored book is reported with 4 books | main plus co-authored books (`distinct=True` on both counts) | high, not executed | ExamQueries.TwoMainOneCoAuthoredGivesFour | ExamQueries.IntendedCountAddsOnePerLink |

=== FILE: advanced_models.dfy ===
/** Heroes with an energy budget, products with a discounted proxy, and
    media records with per-kind field validators and a default ordering
    (Advanced_Django_Model_Techniques_Exercises: main_app/models.py and
    main_app/mixins.py). */
module AdvancedModels {
  import opened Wrappers
  import opened Text
  import opened Tables

  function Max(a: int, b: int): int { if a >= b then a else b }
  function Min(a: int, b: int): int { if a <= b then a else b }

  // ---------------------------------------------------------------------
  // Heroes

  /** The plain model and its two proxies. */
  datatype HeroKind = PlainHero | SpiderHero | FlashHero

  datatype Hero = Hero(name: string, heroTitle: string, energy: int, kind: HeroKind)

  const MinEnergy: int := 1
  const MaxEnergy: int := 100

  /** ABILITY_ENERGY_REQUIRED of each class. */
  function AbilityEnergyRequired(kind: HeroKind): nat {
    match kind
    case PlainHero => 0
    case SpiderHero => 80
    case FlashHero => 65
  }

  function RequiredEnergyMessage(h: Hero): string {
    match h.kind
    case PlainHero => ""
    case SpiderHero => h.name + " as Spider Hero is out of web shooter fluid"
    case FlashHero => h.name + " as Flash Hero needs to recharge the speed force"
  }

  function SuccessfulAbilityUseMessage(h: Hero): string {
    match h.kind
    case PlainHero => ""
    case SpiderHero => h.name + " as Spider Hero swings from buildings using web shooters"
    case FlashHero => h.name + " as Flash Hero runs at lightning speed, saving the day"
  }

  /** `Hero.use_ability`: the hero after the call and the returned message. */
  function UseAbility(h: Hero): (r: (Hero, string))
    ensures h.energy < AbilityEnergyRequired(h.kind) ==> r.0 == h && r.1 == RequiredEnergyMessage(h)
    ensures h.energy >= AbilityEnergyRequired(h.kind) ==>
      && r.0 == h.(energy := Max(h.energy - AbilityEnergyRequired(h.kind), MinEnergy))
      && r.0.energy >= MinEnergy
      && r.1 == SuccessfulAbilityUseMessage(h)
  {
    var required := AbilityEnergyRequired(h.kind);
    if h.energy < required then (h, RequiredEnergyMessage(h))
    else
      var energy := if h.energy - required > 0 then h.energy - required else MinEnergy;
      (h.(energy := energy), SuccessfulAbilityUseMessage(h))
  }

  /** The plain hero spends nothing, yet an exhausted plain hero is lifted to
      the minimum energy. */
  lemma PlainHeroUse(h: Hero)
    requires h.kind == PlainHero && h.energy >= 0
    ensures UseAbility(h).0.energy == if h.energy == 0 then 1 else h.energy
    ensures UseAbility(h).1 == ""
  {
  }

  /** `SpiderHero.swing_from_buildings`. */
  function SwingFromBuildings(h: Hero): (r: (Hero, string))
    requires h.kind == SpiderHero
    ensures r == UseAbility(h)
    ensures h.energy < 80 ==> r.0 == h && r.1 == h.name + " as Spider Hero is out of web shooter fluid"
    ensures h.energy > 80 ==> r.0.energy == h.energy - 80
    ensures h.energy == 80 ==> r.0.energy == 1
  {
    UseAbility(h)
  }

  /** `FlashHero.run_at_super_speed`. */
  function RunAtSuperSpeed(h: Hero): (r: (Hero, string))
    requires h.kind == FlashHero
    ensures r == UseAbility(h)
    ensures h.energy < 65 ==> r.0 == h && r.1 == h.name + " as Flash Hero needs to recharge the speed force"
    ensures h.energy > 65 ==> r.0.energy == h.energy - 65
    ensures h.energy == 65 ==> r.0.energy == 1
  {
    UseAbility(h)
  }

  /** The error `save()` raises when the `PositiveIntegerField` column's
      `CHECK ("energy" >= 0)` refuses the row. */
  const NegativeEnergy: string := "new row for relation \"main_app_hero\" violates check constraint \"main_app_hero_energy_check\""

  /** `RechargeEnergyMixin.recharge_energy`: adds `amount`, caps at 100, then
      saves; the database refuses a negative energy. */
  function RechargeEnergy(h: Hero, amount: int): (r: Result<Hero>)
    ensures r.Ok? <==> h.energy + amount >= 0
    ensures r.Err? ==> r.error == Error(IntegrityError, NegativeEnergy)
    ensures r.Ok? ==> r.value.energy == Min(h.energy + amount, MaxEnergy)
    ensures r.Ok? ==> 0 <= r.value.energy <= MaxEnergy
    ensures r.Ok? && h.energy + amount <= MaxEnergy ==> r.value.energy == h.energy + amount
    ensures r.Ok? ==> r.value == h.(energy := r.value.energy)
  {
    var energy := h.energy + amount;
    var capped := if energy > MaxEnergy then MaxEnergy else energy;
    if capped < 0 then Err(Error(IntegrityError, NegativeEnergy))
    else Ok(h.(energy := capped))
  }

  /** The only floor is the database's, at 0: a negative amount lowers the
      energy unguarded down to 0, below the minimum that `use_ability`
      keeps, and one that would go further is refused. */
  lemma RechargeHasNoFloor(h: Hero, amount: int)
    requires amount < 0 && h.energy <= MaxEnergy
    ensures h.energy + amount >= 0 ==> RechargeEnergy(h, amount) == Ok(h.(energy := h.energy + amount))
    ensures h.energy + amount < 0 ==> RechargeEnergy(h, amount).Err?
    ensures h.energy == -amount ==> RechargeEnergy(h, amount).Ok? && RechargeEnergy(h, amount).value.energy < MinEnergy
  {
  }

  /** One call a caller can make on a hero. */
  datatype HeroAction = Use | Recharge(amount: int)

  /** The stored hero after the call; a refused recharge leaves the row as
      it was. */
  function Apply(h: Hero, a: HeroAction): Hero {
    match a
    case Use => UseAbility(h).0
    case Recharge(amount) =>
      var r := RechargeEnergy(h, amount);
      if r.Ok? then r.value else h
  }

  function Run(h: Hero, script: seq<HeroAction>): Hero
    decreases |script|
  {
    if |script| == 0 then h else Run(Apply(h, script[0]), script[1..])
  }

  /** Energy between the floor and the cap stays there under any mix of
      ability uses and non-negative recharges. */
  lemma {:induction false} EnergyStaysInRange(h: Hero, script: seq<HeroAction>)
    requires MinEnergy <= h.energy <= MaxEnergy
    requires forall i :: 0 <= i < |script| ==> script[i].Recharge? ==> script[i].amount >= 0
    ensures MinEnergy <= Run(h, script).energy <= MaxEnergy
    ensures Run(h, script).name == h.name && Run(h, script).kind == h.kind
    decreases |script|
  {
    if |script| > 0 {
      var next := Apply(h, script[0]);
      assert MinEnergy <= next.energy <= MaxEnergy;
      EnergyStaysInRange(next, script[1..]);
    }
  }

  // ---------------------------------------------------------------------
  // Products

  /** `Product` and its proxy `DiscountedProduct`. */
  datatype ProductKind = RegularProduct | DiscountedProduct

  /** Prices and weights are exact decimals. */
  datatype Product = Product(name: string, price: real, kind: ProductKind)

  function TaxPercent(kind: ProductKind): real {
    if kind == RegularProduct then 0.08 else 0.05
  }

  function ShippingMultiplier(kind: ProductKind): real {
    if kind == RegularProduct then 2.00 else 1.50
  }

  const PriceIncreasePercent: real := 0.20

  /** `calculate_tax`. */
  function CalculateTax(p: Product): (tax: real)
    ensures p.price > 0.0 ==> 0.0 < tax < p.price / 10.0
  {
    p.price * TaxPercent(p.kind)
  }

  /** `calculate_shipping_cost`. */
  function CalculateShippingCost(p: Product, weight: real): (cost: real)
    ensures weight >= 0.0 ==> weight <= cost <= 2.0 * weight
  {
    weight * ShippingMultiplier(p.kind)
  }

  /** The rates each class applies. */
  lemma ProductRates(name: string, price: real, weight: real)
    ensures CalculateTax(Product(name, price, RegularProduct)) == price * 0.08
    ensures CalculateTax(Product(name, price, DiscountedProduct)) == price * 0.05
    ensures CalculateShippingCost(Product(name, price, RegularProduct), weight) == weight * 2.00
    ensures CalculateShippingCost(Product(name, price, DiscountedProduct), weight) == weight * 1.50
  {
  }

  /** The discounted proxy charges strictly less tax and shipping for the same
      positive price and weight. */
  lemma DiscountedIsCheaper(name: string, price: real, weight: real)
    requires price > 0.0 && weight > 0.0
    ensures CalculateTax(Product(name, price, DiscountedProduct)) < CalculateTax(Product(name, price, RegularProduct))
    ensures CalculateShippingCost(Product(name, price, DiscountedProduct), weight)
          < CalculateShippingCost(Product(name, price, RegularProduct), weight)
  {
  }

  /** `DiscountedProduct.calculate_price_without_discount`: the stored price
      is the pre-discount price less a sixth. */
  function CalculatePriceWithoutDiscount(p: Product): (full: real)
    requires p.kind == DiscountedProduct
    ensures full / 1.2 == p.price
    ensures p.price > 0.0 ==> full > p.price
  {
    p.price * (1.0 + PriceIncreasePercent)
  }

  /** `format_product_name` of either class. */
  function FormatProductName(p: Product): (s: string)
    ensures p.kind == RegularProduct ==> s == "Product: " + p.name
    ensures p.kind == DiscountedProduct ==> s == "Discounted Product: " + p.name
    ensures EndsWith(s, p.name)
  {
    (if p.kind == RegularProduct then "Product: " else "Discounted Product: ") + p.name
  }

  /** The two classes always label the same product differently. */
  lemma ProductLabelsDiffer(name: string, price: real)
    ensures FormatProductName(Product(name, price, RegularProduct))
         != FormatProductName(Product(name, price, DiscountedProduct))
  {
    assert |FormatProductName(Product(name, price, RegularProduct))| == 9 + |name|;
  }

  // ---------------------------------------------------------------------
  // Media

  datatype MediaDetails =
    | BookDetails(author: string, isbn: string)
    | MovieDetails(director: string)
    | MusicDetails(artist: string)

  /** A `BaseMedia` row; `createdAt` is the creation timestamp. */
  datatype Media = Media(title: string, description: string, genre: string, createdAt: int, details: MediaDetails)

  const AuthorTooShort: string := "Author must be at least 5 characters long"
  const IsbnTooShort: string := "ISBN must be at least 6 characters long"
  const DirectorTooShort: string := "Director must be at least 8 characters long"
  const ArtistTooShort: string := "Artist must be at least 9 characters long"
  const IsbnTaken: string := "isbn: Model Book with this Isbn already exists."
  const DescriptionBlank: string := "description: This field cannot be blank."

  /** What `full_clean` reports for one required character field: the blank
      check first, then `max_length`, then the field's minimum-length
      validator with its custom message (Django's generic wording for the
      first two). */
  function CharFieldErrors(field: string, value: string, minLength: nat, maxLength: nat, minMessage: string): (r: seq<string>)
    ensures |r| == 0 <==> 1 <= |value| && minLength <= |value| <= maxLength
    ensures 0 < |value| < minLength && |value| <= maxLength ==> r == [minMessage]
  {
    if |value| == 0 then [field + ": This field cannot be blank."]
    else if |value| > maxLength then [field + ": Ensure this value has at most " + NatToString(maxLength) + " characters."]
    else if |value| < minLength then [minMessage]
    else []
  }

  function DetailErrors(d: MediaDetails, isbns: set<string>): (r: seq<string>)
    ensures |r| == 0 <==> match d
      case BookDetails(author, isbn) => 5 <= |author| <= 100 && 6 <= |isbn| <= 20 && isbn !in isbns
      case MovieDetails(director) => 8 <= |director| <= 100
      case MusicDetails(artist) => 9 <= |artist| <= 100
  {
    match d
    case BookDetails(author, isbn) =>
      CharFieldErrors("author", author, 5, 100, AuthorTooShort)
      + (var isbnErrors := CharFieldErrors("isbn", isbn, 6, 20, IsbnTooShort);
         if |isbnErrors| == 0 && isbn in isbns then [IsbnTaken] else isbnErrors)
    case MovieDetails(director) =>
      CharFieldErrors("director", director, 8, 100, DirectorTooShort)
    case MusicDetails(artist) =>
      CharFieldErrors("artist", artist, 9, 100, ArtistTooShort)
  }

  /** Messages `full_clean` reports for a media row, in field order; `isbns`
      are the ISBNs already stored. */
  function MediaErrors(m: Media, isbns: set<string>): seq<string> {
    CharFieldErrors("title", m.title, 1, 100, "")
    + (if |m.description| == 0 then [DescriptionBlank] else [])
    + CharFieldErrors("genre", m.genre, 1, 50, "")
    + DetailErrors(m.details, isbns)
  }

  /** The field bounds of each media kind, stated directly. */
  predicate MediaFieldsValid(m: Media, isbns: set<string>) {
    && 1 <= |m.title| <= 100 && |m.description| >= 1 && 1 <= |m.genre| <= 50
    && match m.details
       case BookDetails(author, isbn) => 5 <= |author| <= 100 && 6 <= |isbn| <= 20 && isbn !in isbns
       case MovieDetails(director) => 8 <= |director| <= 100
       case MusicDetails(artist) => 9 <= |artist| <= 100
  }

  /** `full_clean` on a media row: it passes exactly when every bound holds,
      and each custom minimum-length message is reported whenever that field
      is non-empty but too short. */
  function FullCleanMedia(m: Media, isbns: set<string>): (r: Result<Media>)
    ensures r.Ok? <==> MediaFieldsValid(m, isbns)
    ensures r.Ok? ==> r.value == m
    ensures m.details.BookDetails? && 0 < |m.details.author| < 5 ==>
      r.Err? && AuthorTooShort in MediaErrors(m, isbns)
    ensures m.details.BookDetails? && 0 < |m.details.isbn| < 6 ==>
      r.Err? && IsbnTooShort in MediaErrors(m, isbns)
    ensures m.details.MovieDetails? && 0 < |m.details.director| < 8 ==>
      r.Err? && DirectorTooShort in MediaErrors(m, isbns)
    ensures m.details.MusicDetails? && 0 < |m.details.artist| < 9 ==>
      r.Err? && ArtistTooShort in MediaErrors(m, isbns)
  {
    var errors := MediaErrors(m, isbns);
    if |errors| == 0 then Ok(m) else Err(Error(ValidationError, Join(errors, "; ")))
  }

  /** `Meta.ordering = ['-created_at', 'title']`. */
  predicate MediaBefore(a: Media, b: Media) {
    a.createdAt > b.createdAt || (a.createdAt == b.createdAt && StrLt(a.title, b.title))
  }

  lemma MediaOrderIsStrict()
    ensures StrictOrder(MediaBefore)
  {
    forall a: Media ensures !MediaBefore(a, a) {
      StrLtIrreflexive(a.title);
    }
    forall a: Media, b: Media, c: Media | MediaBefore(a, b) && MediaBefore(b, c)
      ensures MediaBefore(a, c)
    {
      if a.createdAt == b.createdAt == c.createdAt {
        StrLtTransitive(a.title, b.title, c.title);
      }
    }
  }

  /** Media rows in their default order: newest first, titles ascending among
      rows created at the same moment. */
  function OrderedMedia(ms: seq<Media>): (r: seq<Media>)
    ensures multiset(r) == multiset(ms)
    ensures forall i, j :: 0 <= i < j < |r| ==>
      r[i].createdAt > r[j].createdAt || (r[i].createdAt == r[j].createdAt && !StrLt(r[j].title, r[i].title))
  {
    MediaOrderIsStrict();
    var r := SortBy(ms, MediaBefore);
    assert forall i, j :: 0 <= i < j < |r| ==> !MediaBefore(r[j], r[i]);
    r
  }
}

=== FILE: data_operations.dfy ===
/** Record-by-record updates over artifacts, cars, tasks, hotel rooms and game
    characters (Data_Operations_In_Django_With_Queries_Exercises/caller.py).
    Each table is a sequence of rows; a `for row in queryset: ...; row.save()`
    loop becomes a map over the table, a `delete()` a filter. */
module DataOperations {
  import opened Wrappers
  import opened Text
  import opened Tables

  const ChrOutOfRange: string := "chr() arg not in range(0x110000)"
  const NoRoomMessage: string := "'NoneType' object has no attribute 'is_reserved'"
  const MageScoutInventory: string := "Bow of the Elven Lords, Amulet of Eternal Wisdom"
  const WarriorInventory: string := "Dragon Scale Armor, Excalibur"

  // ---------------------------------------------------------------------
  // Artifacts

  datatype Artifact = Artifact(id: int, name: string, origin: string, age: nat, description: string, isMagical: bool)

  /** Only magical artifacts older than 250 years may be renamed. */
  predicate Renamable(a: Artifact) {
    a.isMagical && a.age > 250
  }

  /** `rename_artifact`: the name changes iff the artifact is renamable; no
      other field ever changes. */
  function RenameArtifact(a: Artifact, newName: string): (r: Artifact)
    ensures r.(name := a.name) == a
    ensures Renamable(a) ==> r.name == newName
    ensures !Renamable(a) ==> r == a
  {
    if Renamable(a) then a.(name := newName) else a
  }

  /** Renaming twice to the same name is renaming once; renaming back undoes it. */
  lemma RenameIsIdempotent(a: Artifact, newName: string)
    ensures RenameArtifact(RenameArtifact(a, newName), newName) == RenameArtifact(a, newName)
    ensures RenameArtifact(RenameArtifact(a, newName), a.name) == a
  {
  }

  // ---------------------------------------------------------------------
  // Cars

  /** A car; prices are exact decimals. */
  datatype Car = Car(id: int, model: string, year: nat, price: real, priceWithDiscount: real)

  /** The percentage off: the digit sum of the year, as hundredths. */
  function PercentageOff(year: nat): (p: real)
    ensures p >= 0.0
  {
    DigitSum(year) as real / 100.0
  }

  /** A year of at most four digits takes at most 36% off. */
  lemma PercentageOffBound(year: nat)
    requires year <= 9999
    ensures PercentageOff(year) <= 0.36
  {
    assert Pow10(4) == 10000;
    DigitSumBound(year, 4);
  }

  /** The discounted price of one car; only `price_with_discount` changes. */
  function DiscountCar(c: Car): (r: Car)
    ensures r.(priceWithDiscount := c.priceWithDiscount) == c
    ensures r.priceWithDiscount == c.price * (1.0 - PercentageOff(c.year))
  {
    c.(priceWithDiscount := c.price - c.price * PercentageOff(c.year))
  }

  /** `apply_discount`: every car gets its discounted price; prices stay. */
  function ApplyDiscount(cars: seq<Car>): (r: seq<Car>)
    ensures |r| == |cars|
    ensures forall i :: 0 <= i < |r| ==> r[i] == DiscountCar(cars[i])
  {
    seq(|cars|, i requires 0 <= i < |cars| => DiscountCar(cars[i]))
  }

  /** Discounting reads only `price` and `year`, so applying it again changes
      nothing; for four-digit years the discounted price keeps at least 64% of
      a non-negative price and never exceeds it. */
  lemma ApplyDiscountIsIdempotent(cars: seq<Car>)
    ensures ApplyDiscount(ApplyDiscount(cars)) == ApplyDiscount(cars)
  {
    var once := ApplyDiscount(cars);
    var twice := ApplyDiscount(once);
    forall i | 0 <= i < |cars|
      ensures twice[i] == once[i]
    {
      assert once[i].price == cars[i].price && once[i].year == cars[i].year;
    }
  }

  lemma DiscountedPriceBounds(c: Car)
    requires c.year <= 9999 && c.price >= 0.0
    ensures 0.64 * c.price <= DiscountCar(c).priceWithDiscount <= c.price
  {
    PercentageOffBound(c.year);
    var p := PercentageOff(c.year);
    assert c.price * p <= c.price * 0.36;
  }

  // ---------------------------------------------------------------------
  // Tasks

  /** A task; `description` holds Unicode code points, since the shift below
      can produce code points (such as surrogates) that are not characters. */
  datatype Task = Task(id: int, title: string, description: seq<int>, dueDate: int, isFinished: bool)

  /** `complete_odd_tasks`: tasks with an odd id become finished. */
  function CompleteOddTasks(tasks: seq<Task>): (r: seq<Task>)
    ensures |r| == |tasks|
    ensures forall i :: 0 <= i < |r| ==> r[i].(isFinished := tasks[i].isFinished) == tasks[i]
    ensures forall i :: 0 <= i < |r| ==> (r[i].isFinished <==> tasks[i].isFinished || tasks[i].id % 2 == 1)
  {
    UpdateWhere(tasks, (t: Task) => t.id % 2 == 1, (t: Task) => t.(isFinished := true))
  }

  /** Completing is idempotent and never unfinishes a task. */
  lemma CompleteOddTasksIsIdempotent(tasks: seq<Task>)
    ensures CompleteOddTasks(CompleteOddTasks(tasks)) == CompleteOddTasks(tasks)
    ensures forall i :: 0 <= i < |tasks| && tasks[i].isFinished ==> CompleteOddTasks(tasks)[i].isFinished
  {
  }

  const MaxCodePoint: int := 0x10FFFF

  /** A Python string, as its sequence of code points. */
  predicate IsCodePoints(s: seq<int>) {
    forall i :: 0 <= i < |s| ==> 0 <= s[i] <= MaxCodePoint
  }

  /** `''.join(chr(ord(c) - 3) for c in text)`: `chr` raises ValueError on a
      code point below 3. */
  function Encode(text: seq<int>): (r: Result<seq<int>>)
    requires IsCodePoints(text)
    ensures r.Ok? <==> forall i :: 0 <= i < |text| ==> text[i] >= 3
    ensures r.Err? ==> r.error.kind == ValueError
    ensures r.Ok? ==> |r.value| == |text| && IsCodePoints(r.value)
    ensures r.Ok? ==> forall i :: 0 <= i < |text| ==> r.value[i] == text[i] - 3
  {
    if |text| == 0 then Ok([])
    else if text[0] < 3 then Err(Error(ValueError, ChrOutOfRange))
    else
      var rest :- Encode(text[1..]);
      Ok([text[0] - 3] + rest)
  }

  /** The inverse shift, `chr(ord(c) + 3)`, defined where it stays in range. */
  function Decode(text: seq<int>): (r: seq<int>)
    requires forall i :: 0 <= i < |text| ==> 0 <= text[i] <= MaxCodePoint - 3
    ensures |r| == |text| && IsCodePoints(r)
    ensures forall i :: 0 <= i < |text| ==> r[i] >= 3 && r[i] - 3 == text[i]
  {
    seq(|text|, i requires 0 <= i < |text| => text[i] + 3)
  }

  /** Shifting back recovers the text, and every shifted-up text encodes. */
  lemma EncodeRoundTrip(text: seq<int>)
    requires IsCodePoints(text) && Encode(text).Ok?
    ensures Decode(Encode(text).value) == text
  {
    var encoded := Encode(text).value;
    assert forall i :: 0 <= i < |encoded| ==> 0 <= encoded[i] <= MaxCodePoint - 3;
    var decoded := Decode(encoded);
    assert |decoded| == |text|;
    assert forall i :: 0 <= i < |text| ==> decoded[i] == text[i];
  }

  lemma DecodeRoundTrip(text: seq<int>)
    requires forall i :: 0 <= i < |text| ==> 0 <= text[i] <= MaxCodePoint - 3
    ensures Encode(Decode(text)) == Ok(text)
  {
    var e := Encode(Decode(text));
    assert e.Ok?;
    assert e.value == text;
  }

  /** `encode_and_replace`: the text is encoded first, so a failed encoding
      leaves every task as it was; otherwise each task with the title gets the
      encoded description. */
  function EncodeAndReplace(tasks: seq<Task>, text: seq<int>, title: string): (r: Result<seq<Task>>)
    requires IsCodePoints(text)
    ensures r.Ok? <==> Encode(text).Ok?
    ensures r.Ok? ==> |r.value| == |tasks|
    ensures r.Ok? ==> forall i :: 0 <= i < |tasks| && tasks[i].title == title ==>
      r.value[i] == tasks[i].(description := Encode(text).value)
    ensures r.Ok? ==> forall i :: 0 <= i < |tasks| && tasks[i].title != title ==> r.value[i] == tasks[i]
  {
    var encoded :- Encode(text);
    Ok(UpdateWhere(tasks, (t: Task) => t.title == title, (t: Task) => t.(description := encoded)))
  }

  // ---------------------------------------------------------------------
  // Hotel rooms

  datatype RoomType = Standard | Deluxe | Suite

  datatype HotelRoom = HotelRoom(id: int, roomNumber: int, roomType: RoomType, capacity: int,
                                 amenities: string, priceCents: nat, isReserved: bool)

  function RoomId(room: HotelRoom): int { room.id }

  /** The deluxe rooms `get_deluxe_rooms` lists: deluxe, with an even id. */
  function DeluxeListing(rooms: seq<HotelRoom>): (r: seq<HotelRoom>)
    ensures forall x :: x in r <==> x in rooms && x.roomType == Deluxe && x.id % 2 == 0
    ensures |r| <= |rooms|
  {
    Filter(rooms, (x: HotelRoom) => x.roomType == Deluxe && x.id % 2 == 0)
  }

  function DeluxeLine(room: HotelRoom): string {
    "Deluxe room with number " + IntToString(room.roomNumber) + " costs " + FormatCents(room.priceCents) + "$ per night!"
  }

  /** One line per listed room, in table order. */
  function DeluxeLines(rooms: seq<HotelRoom>): (lines: seq<string>)
    ensures |lines| == |rooms|
    ensures forall i :: 0 <= i < |rooms| ==> lines[i] == DeluxeLine(rooms[i])
  {
    seq(|rooms|, i requires 0 <= i < |rooms| => DeluxeLine(rooms[i]))
  }

  /** `get_deluxe_rooms`: the listed rooms' lines joined by newlines; the
      empty string when none qualifies. */
  function GetDeluxeRooms(rooms: seq<HotelRoom>): (s: string)
    ensures |DeluxeListing(rooms)| == 0 ==> s == ""
    ensures |DeluxeListing(rooms)| == 1 ==> s == DeluxeLine(DeluxeListing(rooms)[0])
  {
    Join(DeluxeLines(DeluxeListing(rooms)), "\n")
  }

  /** `order_by('id')`. */
  predicate RoomIdBefore(a: HotelRoom, b: HotelRoom) {
    a.id < b.id
  }

  function RoomsById(rooms: seq<HotelRoom>): (r: seq<HotelRoom>)
    ensures multiset(r) == multiset(rooms)
    ensures forall i, j :: 0 <= i < j < |r| ==> r[i].id <= r[j].id
  {
    assert StrictOrder(RoomIdBefore);
    var r := SortBy(rooms, RoomIdBefore);
    assert forall i, j :: 0 <= i < j < |r| ==> !RoomIdBefore(r[j], r[i]);
    r
  }

  /** The index of the last reserved room before position `j`, if any. */
  function PreviousReserved(rooms: seq<HotelRoom>, j: nat): (r: Option<nat>)
    requires j <= |rooms|
    ensures r.Some? ==> r.value < j && rooms[r.value].isReserved
    ensures r.Some? ==> forall k :: r.value < k < j ==> !rooms[k].isReserved
    ensures r.None? ==> forall k :: 0 <= k < j ==> !rooms[k].isReserved
  {
    if j == 0 then None
    else if rooms[j - 1].isReserved then Some(j - 1)
    else PreviousReserved(rooms, j - 1)
  }

  /** The capacity a reserved room gains: its own id when it is the first
      reserved room, otherwise the updated capacity of the previous one. */
  function Gain(rooms: seq<HotelRoom>, updated: seq<HotelRoom>, j: nat): int
    requires j < |rooms| && |updated| == |rooms|
  {
    match PreviousReserved(rooms, j)
    case None => rooms[j].id
    case Some(p) => updated[p].capacity
  }

  /** The updated capacity of the last reserved room before row j, if any. */
  function PreviousCapacity(rooms: seq<HotelRoom>, updated: seq<HotelRoom>, j: nat): Option<int>
    requires j <= |rooms| && |updated| == |rooms|
  {
    match PreviousReserved(rooms, j)
    case None => None
    case Some(p) => Some(updated[p].capacity)
  }

  /** Gains depend only on the rows before a room. */
  lemma GainDependsOnEarlierRows(rooms: seq<HotelRoom>, a: seq<HotelRoom>, b: seq<HotelRoom>, j: nat)
    requires j < |rooms| && |a| == |rooms| && |b| == |rooms|
    requires forall k :: 0 <= k < j ==> a[k] == b[k]
    ensures Gain(rooms, a, j) == Gain(rooms, b, j)
  {
  }

  /** Growing row i changes no gain up to and including row i. */
  lemma GrowingKeepsEarlierGains(sorted: seq<HotelRoom>, r: seq<HotelRoom>, i: nat, grown: HotelRoom)
    requires i < |sorted| && |r| == |sorted|
    requires forall k :: 0 <= k < i && sorted[k].isReserved ==> r[k].capacity == sorted[k].capacity + Gain(sorted, r, k)
    ensures Gain(sorted, r[i := grown], i) == Gain(sorted, r, i)
    ensures forall k :: 0 <= k < i && sorted[k].isReserved ==>
      r[i := grown][k].capacity == sorted[k].capacity + Gain(sorted, r[i := grown], k)
  {
    var next := r[i := grown];
    forall k | 0 <= k <= i
      ensures Gain(sorted, next, k) == Gain(sorted, r, k)
    {
      GainDependsOnEarlierRows(sorted, r, next, k);
    }
  }

  /** The room with its capacity raised by `gain`. */
  function Grow(room: HotelRoom, gain: int): HotelRoom {
    room.(capacity := room.capacity + gain)
  }

  /** What the loop of `increase_room_capacity` has done after `i` rooms:
      only capacities change, the rooms not yet visited and the unreserved
      ones are untouched, each visited reserved room has its gain, and
      `previous` holds the capacity of the last reserved room. */
  ghost predicate CapacityProgress(sorted: seq<HotelRoom>, r: seq<HotelRoom>, i: nat, previous: Option<int>) {
    && i <= |sorted| && |r| == |sorted|
    && (forall k :: 0 <= k < |r| ==> r[k].(capacity := sorted[k].capacity) == sorted[k])
    && (forall k :: i <= k < |r| ==> r[k] == sorted[k])
    && (forall k :: 0 <= k < i && !sorted[k].isReserved ==> r[k] == sorted[k])
    && (forall k :: 0 <= k < i && sorted[k].isReserved ==> r[k].capacity == sorted[k].capacity + Gain(sorted, r, k))
    && previous == PreviousCapacity(sorted, r, i)
  }

  /** Visiting a reserved room: it grows by its gain. */
  lemma GrowStep(sorted: seq<HotelRoom>, r: seq<HotelRoom>, i: nat, previous: Option<int>)
    requires CapacityProgress(sorted, r, i, previous)
    requires i < |sorted| && sorted[i].isReserved
    ensures Gain(sorted, r, i) == (if previous.Some? then previous.value else sorted[i].id)
    ensures var grown := Grow(sorted[i], Gain(sorted, r, i));
      CapacityProgress(sorted, r[i := grown], i + 1, Some(grown.capacity))
  {
    var grown := Grow(sorted[i], Gain(sorted, r, i));
    GrowingKeepsEarlierGains(sorted, r, i, grown);
    assert PreviousReserved(sorted, i + 1) == Some(i);
  }

  /** Visiting an unreserved room changes nothing. */
  lemma SkipStep(sorted: seq<HotelRoom>, r: seq<HotelRoom>, i: nat, previous: Option<int>)
    requires CapacityProgress(sorted, r, i, previous)
    requires i < |sorted| && !sorted[i].isReserved
    ensures CapacityProgress(sorted, r, i + 1, previous)
  {
    assert PreviousReserved(sorted, i + 1) == PreviousReserved(sorted, i);
  }

  /** The loop of `increase_room_capacity` over rooms already in id order. */
  method IncreaseCapacityInOrder(sorted: seq<HotelRoom>) returns (r: seq<HotelRoom>)
    ensures |r| == |sorted|
    ensures forall k :: 0 <= k < |r| ==> r[k].(capacity := sorted[k].capacity) == sorted[k]
    ensures forall k :: 0 <= k < |r| && !sorted[k].isReserved ==> r[k] == sorted[k]
    ensures forall k :: 0 <= k < |r| && sorted[k].isReserved ==> r[k].capacity == sorted[k].capacity + Gain(sorted, r, k)
  {
    r := sorted;
    var previous: Option<int> := None;
    var i := 0;
    while i < |sorted|
      invariant CapacityProgress(sorted, r, i, previous)
    {
      var room := sorted[i];
      if room.isReserved {
        GrowStep(sorted, r, i, previous);
        var gain := if previous.Some? then previous.value else room.id;
        var grown := Grow(room, gain);
        r := r[i := grown];
        previous := Some(grown.capacity);
      } else {
        SkipStep(sorted, r, i, previous);
      }
      i := i + 1;
    }
  }

  /** `increase_room_capacity`: walks the rooms in id order, skipping
      unreserved ones; each reserved room gains the id of the first reserved
      room or the already increased capacity of the previous reserved room.
      The result lists the rooms in id order. */
  method IncreaseRoomCapacity(rooms: seq<HotelRoom>) returns (r: seq<HotelRoom>)
    ensures multiset(RoomsById(rooms)) == multiset(rooms) && |r| == |rooms|
    ensures forall k :: 0 <= k < |r| ==> r[k].(capacity := RoomsById(rooms)[k].capacity) == RoomsById(rooms)[k]
    ensures forall k :: 0 <= k < |r| && !RoomsById(rooms)[k].isReserved ==> r[k] == RoomsById(rooms)[k]
    ensures forall k :: 0 <= k < |r| && RoomsById(rooms)[k].isReserved ==>
      r[k].capacity == RoomsById(rooms)[k].capacity + Gain(RoomsById(rooms), r, k)
  {
    var sorted := RoomsById(rooms);
    assert |sorted| == |multiset(sorted)| == |multiset(rooms)| == |rooms|;
    r := IncreaseCapacityInOrder(sorted);
  }

  /** `HotelRoom.objects.last()` with no ordering: the room with the largest id. */
  function LastRoom(rooms: seq<HotelRoom>): (r: HotelRoom)
    requires |rooms| > 0
    ensures r in rooms
    ensures forall x :: x in rooms ==> x.id <= r.id
  {
    if |rooms| == 1 then rooms[0]
    else
      var rest := LastRoom(rooms[1..]);
      assert rooms == [rooms[0]] + rooms[1..];
      if rooms[0].id > rest.id then rooms[0] else rest
  }

  /** `.delete()` of the room with the given id. */
  function Without(rooms: seq<HotelRoom>, id: int): (r: seq<HotelRoom>)
    ensures forall x :: x in r <==> x in rooms && x.id != id
  {
    Filter(rooms, (x: HotelRoom) => x.id != id)
  }

  /** Deleting a row by a primary key the table holds removes exactly one row. */
  lemma WithoutRemovesOne(rooms: seq<HotelRoom>, j: nat)
    requires UniqueIds(rooms, RoomId)
    requires j < |rooms|
    ensures |Without(rooms, rooms[j].id)| == |rooms| - 1
  {
    FilterDropsOne(rooms, (x: HotelRoom) => x.id != rooms[j].id, j);
  }

  /** `delete_last_room`: the last room goes unless it is reserved;
      `last()` on an empty table gives None, whose attribute access raises. */
  function DeleteLastRoom(rooms: seq<HotelRoom>): (r: Result<seq<HotelRoom>>)
    ensures r.Err? <==> |rooms| == 0
    ensures r.Err? ==> r.error.kind == AttributeError
    ensures r.Ok? && LastRoom(rooms).isReserved ==> r.value == rooms
    ensures r.Ok? && !LastRoom(rooms).isReserved ==>
      forall x :: x in r.value <==> x in rooms && x.id != LastRoom(rooms).id
  {
    if |rooms| == 0 then Err(Error(AttributeError, NoRoomMessage))
    else
      var last := LastRoom(rooms);
      if last.isReserved then Ok(rooms) else Ok(Without(rooms, last.id))
  }

  /** With unique ids, deleting the unreserved last room removes one row. */
  lemma DeleteLastRoomRemovesOne(rooms: seq<HotelRoom>)
    requires UniqueIds(rooms, RoomId)
    requires |rooms| > 0 && !LastRoom(rooms).isReserved
    ensures |DeleteLastRoom(rooms).value| == |rooms| - 1
  {
    var last := LastRoom(rooms);
    var j :| 0 <= j < |rooms| && rooms[j] == last;
    WithoutRemovesOne(rooms, j);
  }

  // ---------------------------------------------------------------------
  // Characters

  datatype ClassType = Mage | Warrior | Assassin | Scout | Fusion

  /** A character, without the float-valued strength, dexterity and
      intelligence (see README). */
  datatype Character = Character(id: int, name: string, classType: ClassType, level: int, hitPoints: int, inventory: string)

  function FusionInventory(first: Character): string {
    if first.classType == Mage || first.classType == Scout then MageScoutInventory
    else WarriorInventory
  }

  /** The fused character `fuse_characters` creates. */
  function Fuse(first: Character, second: Character, id: int): (f: Character)
    ensures f.name == first.name + " " + second.name && f.classType == Fusion
    ensures 2 * f.level <= first.level + second.level < 2 * f.level + 2
    ensures f.hitPoints == first.hitPoints + second.hitPoints
    ensures first.classType in {Mage, Scout} ==> f.inventory == MageScoutInventory
    ensures first.classType !in {Mage, Scout} ==> f.inventory == WarriorInventory
  {
    Character(id, first.name + " " + second.name, Fusion, (first.level + second.level) / 2,
              first.hitPoints + second.hitPoints, FusionInventory(first))
  }

  /** `fuse_characters`: creates the fusion under a fresh id, then deletes both
      source characters. */
  function FuseCharacters(chars: seq<Character>, first: Character, second: Character, newId: int): (r: seq<Character>)
    requires newId != first.id && newId != second.id
    requires forall x :: x in chars ==> x.id != newId
    ensures Fuse(first, second, newId) in r
    ensures forall x :: x in r ==> x.id != first.id && x.id != second.id
    ensures forall x :: x in r <==> x == Fuse(first, second, newId) || (x in chars && x.id != first.id && x.id != second.id)
  {
    Filter(chars + [Fuse(first, second, newId)], (x: Character) => x.id != first.id && x.id != second.id)
  }

  /** The fusion's inventory depends on the first character's class alone:
      swapping the two changes it only when exactly one of them is a Mage or
      a Scout. */
  lemma FusionInventoryFollowsFirst(a: Character, b: Character, id: int)
    ensures (Fuse(a, b, id).inventory == Fuse(b, a, id).inventory) <==>
            ((a.classType in {Mage, Scout}) == (b.classType in {Mage, Scout}))
    ensures Fuse(a, b, id).level == Fuse(b, a, id).level
    ensures Fuse(a, b, id).hitPoints == Fuse(b, a, id).hitPoints
  {
  }
}

=== FILE: dates.dfy ===
/** Calendar dates as Python's `datetime.date` handles them: a date is its
    proleptic Gregorian ordinal (0001-01-01 is day 1, as `date.toordinal`
    numbers it), adding a `timedelta` is integer addition that fails outside
    the years 1..9999, and `str(date)` is the ISO form YYYY-MM-DD. */
module Dates {
  import opened Wrappers
  import opened Text

  const DateOutOfRange: string := "date value out of range"

  /** The ordinal of 9999-12-31, the last date Python can represent. */
  const MaxOrdinal: int := 3652059

  /** A day number that names a representable date. */
  predicate InRange(n: int) { 1 <= n <= MaxOrdinal }

  predicate IsLeap(y: int) {
    y % 4 == 0 && (y % 100 != 0 || y % 400 == 0)
  }

  function DaysInYear(y: int): nat {
    if IsLeap(y) then 366 else 365
  }

  function DaysInMonth(y: int, m: int): (n: nat)
    requires 1 <= m <= 12
    ensures 28 <= n <= 31
  {
    if m == 2 then (if IsLeap(y) then 29 else 28)
    else if m == 4 || m == 6 || m == 9 || m == 11 then 30
    else 31
  }

  /** Days in the years before `y`, counted from year 1. */
  function DaysBeforeYear(y: int): int
    requires y >= 1
  {
    var p := y - 1;
    p * 365 + p / 4 - p / 100 + p / 400
  }

  /** Days in the months of year `y` before month `m`. */
  function DaysBeforeMonth(y: int, m: int): nat
    requires 1 <= m <= 13
  {
    if m == 1 then 0 else DaysBeforeMonth(y, m - 1) + DaysInMonth(y, m - 1)
  }

  /** The twelve months fill the year exactly. */
  lemma MonthsFillYear(y: int)
    ensures DaysBeforeMonth(y, 13) == DaysInYear(y)
  {
    var feb := DaysInMonth(y, 2);
    assert DaysBeforeMonth(y, 2) == 31;
    assert DaysBeforeMonth(y, 3) == 31 + feb;
    assert DaysBeforeMonth(y, 4) == 62 + feb;
    assert DaysBeforeMonth(y, 5) == 92 + feb;
    assert DaysBeforeMonth(y, 6) == 123 + feb;
    assert DaysBeforeMonth(y, 7) == 153 + feb;
    assert DaysBeforeMonth(y, 8) == 184 + feb;
    assert DaysBeforeMonth(y, 9) == 215 + feb;
    assert DaysBeforeMonth(y, 10) == 245 + feb;
    assert DaysBeforeMonth(y, 11) == 276 + feb;
    assert DaysBeforeMonth(y, 12) == 306 + feb;
    assert DaysBeforeMonth(y, 13) == 337 + feb;
  }

  lemma Quarter(y: int)
    ensures y / 4 - (y - 1) / 4 == (if y % 4 == 0 then 1 else 0)
  {
  }

  lemma Century(y: int)
    ensures y / 100 - (y - 1) / 100 == (if y % 100 == 0 then 1 else 0)
  {
  }

  lemma FourCenturies(y: int)
    ensures y / 400 - (y - 1) / 400 == (if y % 400 == 0 then 1 else 0)
  {
  }

  /** Consecutive years are one year length apart. */
  lemma DaysBeforeYearStep(y: int)
    requires y >= 1
    ensures DaysBeforeYear(y + 1) == DaysBeforeYear(y) + DaysInYear(y)
  {
    var p := y - 1;
    var q, c, f := y / 4 - p / 4, y / 100 - p / 100, y / 400 - p / 400;
    Quarter(y);
    Century(y);
    FourCenturies(y);
    DivisibilityChain(y);
    assert DaysBeforeYear(y + 1) - DaysBeforeYear(y) == 365 + q - c + f;
    if y % 400 == 0 {
      assert q == 1 && c == 1 && f == 1;
    } else if y % 100 == 0 {
      assert q == 1 && c == 1 && f == 0;
    } else if y % 4 == 0 {
      assert q == 1 && c == 0 && f == 0;
    } else {
      assert q == 0 && c == 0 && f == 0;
    }
  }

  /** A year divisible by 400 is divisible by 100, and one divisible by 100
      is divisible by 4. */
  lemma DivisibilityChain(y: int)
    ensures y % 400 == 0 ==> y % 100 == 0
    ensures y % 100 == 0 ==> y % 4 == 0
  {
    if y % 400 == 0 {
      var k := y / 400;
      assert y == 400 * k;
      assert y == 100 * (4 * k) + 0;
    }
    if y % 100 == 0 {
      var k := y / 100;
      assert y == 100 * k;
      assert y == 4 * (25 * k) + 0;
    }
  }

  lemma {:induction false} DaysBeforeYearMonotone(a: int, b: int)
    requires 1 <= a <= b
    ensures DaysBeforeYear(a) <= DaysBeforeYear(b)
    decreases b - a
  {
    if a < b {
      DaysBeforeYearStep(a);
      DaysBeforeYearMonotone(a + 1, b);
    }
  }

  datatype Date = Date(year: int, month: int, day: int)

  predicate ValidDate(d: Date) {
    1 <= d.year <= 9999 && 1 <= d.month <= 12 && 1 <= d.day <= DaysInMonth(d.year, d.month)
  }

  /** `date.toordinal()`. */
  function ToOrdinal(d: Date): int
    requires ValidDate(d)
  {
    DaysBeforeYear(d.year) + DaysBeforeMonth(d.year, d.month) + d.day
  }

  /** Finds the year holding day `rest` of the years from `y` on. */
  function YearAndDay(rest: int, y: int): (r: (int, int))
    requires rest >= 1 && y >= 1
    ensures r.0 >= y && 1 <= r.1 <= DaysInYear(r.0)
    ensures DaysBeforeYear(r.0) + r.1 == DaysBeforeYear(y) + rest
    decreases rest
  {
    if rest <= DaysInYear(y) then (y, rest)
    else
      DaysBeforeYearStep(y);
      YearAndDay(rest - DaysInYear(y), y + 1)
  }

  /** Finds the month, from `m` on, holding day `yday` of year `y`. */
  function MonthOf(y: int, yday: int, m: int): (r: int)
    requires 1 <= m <= 12
    requires DaysBeforeMonth(y, m) < yday <= DaysInYear(y)
    ensures m <= r <= 12
    ensures DaysBeforeMonth(y, r) < yday <= DaysBeforeMonth(y, r + 1)
    decreases 12 - m
  {
    MonthsFillYear(y);
    if yday <= DaysBeforeMonth(y, m + 1) then m else MonthOf(y, yday, m + 1)
  }

  /** `date.fromordinal(n)`. */
  function FromOrdinal(n: int): (d: Date)
    requires InRange(n)
    ensures ValidDate(d) && ToOrdinal(d) == n
  {
    var (y, yday) := YearAndDay(n, 1);
    assert y <= 9999 by {
      if y >= 10000 {
        DaysBeforeYearMonotone(10000, y);
      }
    }
    var m := MonthOf(y, yday, 1);
    Date(y, m, yday - DaysBeforeMonth(y, m))
  }

  /** Every valid date lies in the representable range. */
  lemma OrdinalInRange(d: Date)
    requires ValidDate(d)
    ensures InRange(ToOrdinal(d))
  {
    DaysBeforeYearStep(d.year);
    DaysBeforeYearMonotone(d.year + 1, 10000);
    assert DaysBeforeYear(10000) == MaxOrdinal;
    MonthsFillYear(d.year);
    assert DaysBeforeMonth(d.year, d.month) + d.day <= DaysBeforeMonth(d.year, d.month + 1);
    MonthsBeforeMonotone(d.year, d.month + 1, 13);
  }

  lemma {:induction false} MonthsBeforeMonotone(y: int, a: int, b: int)
    requires 1 <= a <= b <= 13
    ensures DaysBeforeMonth(y, a) <= DaysBeforeMonth(y, b)
    decreases b - a
  {
    if a < b { MonthsBeforeMonotone(y, a, b - 1); }
  }

  /** `date + timedelta(days=k)`: an OverflowError outside years 1..9999. */
  function AddDays(n: int, k: int): (r: Result<int>)
    ensures r.Ok? <==> InRange(n + k)
    ensures r.Ok? ==> r.value - n == k
  {
    if InRange(n + k) then Ok(n + k) else Err(Error(OverflowError, DateOutOfRange))
  }

  /** `str(date)`: YYYY-MM-DD. */
  function IsoFormat(n: int): (s: string)
    requires InRange(n)
    ensures |s| >= 10 && s[4] == '-'
    ensures forall k :: 0 <= k < |s| ==> IsDigitChar(s[k]) || s[k] == '-'
  {
    var d := FromOrdinal(n);
    var year := ZeroPad(d.year, 4);
    NatToStringLength(d.year, 4);
    year + "-" + ZeroPad(d.month, 2) + "-" + ZeroPad(d.day, 2)
  }

  /** The year of a day number, as `date.year` reads it. */
  function YearOf(n: int): (y: int)
    requires InRange(n)
    ensures 1 <= y <= 9999
  {
    FromOrdinal(n).year
  }

  /** A number below 10^k takes at most k digits. */
  lemma {:induction false} NatToStringLength(n: nat, k: nat)
    requires k >= 1 && n < Pow10(k)
    ensures |NatToString(n)| <= k
  {
    if n >= 10 {
      assert k >= 2;
      NatToStringLength(n / 10, k - 1);
    }
  }
}

=== FILE: exam_models.dfy ===
/** The exam's publishing schema (TEST_REGULAR_EXAM/main_app/models.py):
    publishers, authors and books with their field bounds and defaults, and
    the cascading deletes along a book's foreign keys. Ratings are held in
    tenths, prices as exact decimals, dates as day numbers. */
module ExamModels {
  import opened Wrappers
  import opened Tables
  import Dates

  // ---------------------------------------------------------------------
  // Publishers

  datatype Publisher = Publisher(id: int, name: string, establishedDate: int, country: string, rating: int)

  const DefaultCountry: string := "TBC"

  /** `default='1800-01-01'`. */
  const DefaultEstablishedDate: int := Dates.ToOrdinal(Dates.Date(1800, 1, 1))

  /** `rating` lies in [0.0, 5.0]: 0 to 50 tenths. */
  predicate ValidRating(tenths: int) { 0 <= tenths <= 50 }

  /** A `CharField(max_length=40)` with the default `blank=False`. */
  predicate ValidCountry(country: string) { 0 < |country| <= 40 }

  predicate ValidPublisher(p: Publisher) {
    && 3 <= |p.name| <= 100
    && Dates.InRange(p.establishedDate)
    && ValidCountry(p.country)
    && ValidRating(p.rating)
  }

  /** The fields `full_clean` rejects, in declaration order. */
  function PublisherErrors(p: Publisher): (r: seq<string>)
    ensures |r| == 0 <==> ValidPublisher(p)
    ensures "name" in r <==> !(3 <= |p.name| <= 100)
    ensures "country" in r <==> !(0 < |p.country| <= 40)
    ensures "rating" in r <==> !ValidRating(p.rating)
  {
    (if 3 <= |p.name| <= 100 then [] else ["name"])
    + (if Dates.InRange(p.establishedDate) then [] else ["established_date"])
    + (if ValidCountry(p.country) then [] else ["country"])
    + (if ValidRating(p.rating) then [] else ["rating"])
  }

  /** A publisher created with only a name takes the declared defaults. */
  function NewPublisher(id: int, name: string): (p: Publisher)
    ensures p.id == id && p.name == name
    ensures p.country == DefaultCountry && p.rating == 0
  {
    Publisher(id, name, DefaultEstablishedDate, DefaultCountry, 0)
  }

  /** The defaults pass validation whenever the name does. */
  lemma NewPublisherIsValid(id: int, name: string)
    requires 3 <= |name| <= 100
    ensures ValidPublisher(NewPublisher(id, name))
  {
    Dates.OrdinalInRange(Dates.Date(1800, 1, 1));
  }

  // ---------------------------------------------------------------------
  // Authors

  datatype Author = Author(id: int, name: string, birthDate: Option<int>, country: string, isActive: bool)

  predicate ValidAuthor(a: Author) {
    && 3 <= |a.name| <= 100
    && (a.birthDate.Some? ==> Dates.InRange(a.birthDate.value))
    && ValidCountry(a.country)
  }

  function NewAuthor(id: int, name: string): (a: Author)
    ensures a.id == id && a.name == name
    ensures a.birthDate.None? && a.country == DefaultCountry && a.isActive
  {
    Author(id, name, None, DefaultCountry, true)
  }

  lemma NewAuthorIsValid(id: int, name: string)
    requires 3 <= |name| <= 100
    ensures ValidAuthor(NewAuthor(id, name))
  {
  }

  // ---------------------------------------------------------------------
  // Books

  datatype Genre = Fiction | NonFiction | Other

  /** The stored value of each `GENRE_CHOICES` entry. */
  function GenreLabel(g: Genre): (s: string)
    ensures 0 < |s| <= 11
  {
    match g
    case Fiction => "Fiction"
    case NonFiction => "Non-Fiction"
    case Other => "Other"
  }

  /** The choice a stored genre string stands for, if any. */
  function ParseGenre(s: string): (g: Option<Genre>)
    ensures g.Some? ==> GenreLabel(g.value) == s
  {
    if s == "Fiction" then Some(Fiction)
    else if s == "Non-Fiction" then Some(NonFiction)
    else if s == "Other" then Some(Other)
    else None
  }

  /** Every choice is read back as itself. */
  lemma GenreRoundTrip(g: Genre)
    ensures ParseGenre(GenreLabel(g)) == Some(g)
  {
  }

  datatype Book = Book(
    id: int,
    title: string,
    publicationDate: int,
    summary: Option<string>,
    genre: string,
    price: real,
    rating: int,
    isBestseller: bool,
    publisherId: int,
    mainAuthorId: int)

  /** At most two decimal places, as `decimal_places=2` demands. */
  predicate WholeCents(price: real) {
    (price * 100.0).Floor as real == price * 100.0
  }

  /** The exact values of the float bounds `0.01` and `9999.99` the price
      validators are given. Python compares a Decimal with a float exactly,
      so these, not the decimal literals, are the bounds that apply. */
  const MinPriceBound: real := 0.01000000000000000020816681711721685132943093776702880859375
  const MaxPriceBound: real := 9999.989999999999781721271574497222900390625

  /** A `DecimalField(max_digits=6, decimal_places=2)` passing
      `MinValueValidator(0.01)` and `MaxValueValidator(9999.99)`. */
  predicate ValidPrice(price: real) {
    MinPriceBound <= price <= MaxPriceBound && WholeCents(price)
  }

  /** The bounds as evidently meant: 0.01 and 9999.99 both included. */
  predicate ValidPriceIntended(price: real) {
    0.01 <= price <= 9999.99 && WholeCents(price)
  }

  /** On whole cents the float bounds exclude both end prices, which the
      decimal bounds include. */
  lemma PriceBoundsInCents(price: real)
    requires WholeCents(price)
    ensures ValidPrice(price) <==> 0.02 <= price <= 9999.98
    ensures ValidPriceIntended(price) <==> 0.01 <= price <= 9999.99
  {
    var cents := (price * 100.0).Floor;
    assert price == cents as real / 100.0;
  }

  /** Every field but the price within its bounds. */
  predicate BookFieldsValid(b: Book) {
    && 2 <= |b.title| <= 200
    && Dates.InRange(b.publicationDate)
    && ParseGenre(b.genre).Some?
    && ValidRating(b.rating)
  }

  predicate ValidBook(b: Book) {
    BookFieldsValid(b) && ValidPrice(b.price)
  }

  predicate ValidBookIntended(b: Book) {
    BookFieldsValid(b) && ValidPriceIntended(b.price)
  }

  const DefaultPrice: real := 0.01

  function NewBook(id: int, title: string, publicationDate: int, publisherId: int, mainAuthorId: int): (b: Book)
    ensures b.genre == GenreLabel(Other) && b.price == DefaultPrice && b.rating == 0 && !b.isBestseller
    ensures b.summary.None?
  {
    Book(id, title, publicationDate, None, "Other", DefaultPrice, 0, false, publisherId, mainAuthorId)
  }

  /** As written, a book keeping the default price fails `full_clean`
      whatever its other fields: 0.01 lies below the float bound. */
  lemma DefaultPriceRejected(id: int, title: string, publicationDate: int, publisherId: int, mainAuthorId: int)
    ensures !ValidPrice(DefaultPrice)
    ensures !ValidBook(NewBook(id, title, publicationDate, publisherId, mainAuthorId))
  {
  }

  /** With the bounds as meant, the book defaults pass validation whenever
      the title and date do. */
  lemma NewBookIsValidIntended(id: int, title: string, publicationDate: int, publisherId: int, mainAuthorId: int)
    requires 2 <= |title| <= 200 && Dates.InRange(publicationDate)
    ensures ValidBookIntended(NewBook(id, title, publicationDate, publisherId, mainAuthorId))
  {
    assert (DefaultPrice * 100.0).Floor == 1;
  }

  // ---------------------------------------------------------------------
  // The three tables and the co-author link table

  /** `coAuthors` holds (book id, author id) pairs of `Book.co_authors`. */
  datatype Library = Library(publishers: seq<Publisher>, authors: seq<Author>, books: seq<Book>, coAuthors: set<(int, int)>)

  predicate HasPublisher(publishers: seq<Publisher>, id: int) {
    exists p :: p in publishers && p.id == id
  }

  predicate HasAuthor(authors: seq<Author>, id: int) {
    exists a :: a in authors && a.id == id
  }

  predicate HasBook(books: seq<Book>, id: int) {
    exists b :: b in books && b.id == id
  }

  /** Every foreign key points at a stored row. */
  predicate Intact(lib: Library) {
    && (forall b :: b in lib.books ==> HasPublisher(lib.publishers, b.publisherId) && HasAuthor(lib.authors, b.mainAuthorId))
    && (forall l :: l in lib.coAuthors ==> HasBook(lib.books, l.0) && HasAuthor(lib.authors, l.1))
  }

  function PublishersWithout(publishers: seq<Publisher>, id: int): (r: seq<Publisher>)
    ensures forall p :: p in r <==> p in publishers && p.id != id
  {
    Filter(publishers, (p: Publisher) => p.id != id)
  }

  function AuthorsWithout(authors: seq<Author>, id: int): (r: seq<Author>)
    ensures forall a :: a in r <==> a in authors && a.id != id
  {
    Filter(authors, (a: Author) => a.id != id)
  }

  /** The books whose publisher and main author both survive. */
  function BooksWhere(books: seq<Book>, dropPublisher: Option<int>, dropAuthor: Option<int>): (r: seq<Book>)
    ensures forall b :: b in r <==> b in books && Some(b.publisherId) != dropPublisher && Some(b.mainAuthorId) != dropAuthor
  {
    Filter(books, (b: Book) => Some(b.publisherId) != dropPublisher && Some(b.mainAuthorId) != dropAuthor)
  }

  /** Deleting a publisher deletes its books (`on_delete=CASCADE`) and
      their co-author links. */
  function DeletePublisher(lib: Library, id: int): (r: Library)
    ensures forall p :: p in r.publishers <==> p in lib.publishers && p.id != id
    ensures forall b :: b in r.books <==> b in lib.books && b.publisherId != id
    ensures r.authors == lib.authors
    ensures r.coAuthors <= lib.coAuthors
  {
    var books := BooksWhere(lib.books, Some(id), None);
    Library(PublishersWithout(lib.publishers, id), lib.authors, books,
            set l | l in lib.coAuthors && HasBook(books, l.0))
  }

  /** Deleting an author deletes the books it is main author of and every
      co-author link of the author or of those books. */
  function DeleteAuthor(lib: Library, id: int): (r: Library)
    ensures forall a :: a in r.authors <==> a in lib.authors && a.id != id
    ensures forall b :: b in r.books <==> b in lib.books && b.mainAuthorId != id
    ensures r.publishers == lib.publishers
    ensures forall l :: l in r.coAuthors ==> l in lib.coAuthors && l.1 != id
  {
    var books := BooksWhere(lib.books, None, Some(id));
    Library(lib.publishers, AuthorsWithout(lib.authors, id), books,
            set l | l in lib.coAuthors && HasBook(books, l.0) && l.1 != id)
  }

  /** Cascading from a publisher leaves no dangling key. */
  lemma DeletePublisherKeepsIntact(lib: Library, id: int)
    requires Intact(lib)
    ensures Intact(DeletePublisher(lib, id))
  {
    var r := DeletePublisher(lib, id);
    forall b | b in r.books
      ensures HasPublisher(r.publishers, b.publisherId)
    {
      var p :| p in lib.publishers && p.id == b.publisherId;
      assert p in r.publishers;
    }
  }

  /** Cascading from an author leaves no dangling key. */
  lemma DeleteAuthorKeepsIntact(lib: Library, id: int)
    requires Intact(lib)
    ensures Intact(DeleteAuthor(lib, id))
  {
    var r := DeleteAuthor(lib, id);
    forall b | b in r.books
      ensures HasAuthor(r.authors, b.mainAuthorId)
    {
      var a :| a in lib.authors && a.id == b.mainAuthorId;
      assert a in r.authors;
    }
    forall l | l in r.coAuthors
      ensures HasAuthor(r.authors, l.1)
    {
      var a :| a in lib.authors && a.id == l.1;
      assert a in r.authors;
    }
  }
}

=== FILE: exam_queries.dfy ===
/** The exam's report queries (TEST_REGULAR_EXAM/caller.py) over the
    publishing schema of ExamModels. */
module ExamQueries {
  import opened Wrappers
  import opened Text
  import opened Tables
  import opened ExamModels
  import Dates

  /** `f"{x:.1f}"` of a rating held in tenths, sign included. */
  function RatingText(tenths: int): string {
    if tenths < 0 then "-" + FormatTenths(-tenths) else FormatTenths(tenths)
  }

  const NoPublishersFound: string := "No publishers found."
  const AuthorDoesNotExist: string := "Author matching query does not exist."
  const NoPriceChanges: string := "No changes in price."

  // ---------------------------------------------------------------------
  // get_publishers

  /** `Q(name__icontains=s) | Q(country__icontains=s)`. */
  predicate PublisherMatches(p: Publisher, search: string) {
    IContains(p.name, search) || IContains(p.country, search)
  }

  /** `order_by('-rating', 'name')`. */
  predicate PublisherBefore(a: Publisher, b: Publisher) {
    a.rating > b.rating || (a.rating == b.rating && StrLt(a.name, b.name))
  }

  lemma PublisherBeforeIsStrict()
    ensures StrictOrder(PublisherBefore)
  {
    forall a: Publisher ensures !PublisherBefore(a, a) {
      StrLtIrreflexive(a.name);
    }
    forall a: Publisher, b: Publisher, c: Publisher | PublisherBefore(a, b) && PublisherBefore(b, c)
      ensures PublisherBefore(a, c)
    {
      if a.rating == b.rating == c.rating {
        StrLtTransitive(a.name, b.name, c.name);
      }
    }
  }

  /** The publishers a search matches, best rated first, ties by name. */
  function MatchingPublishers(publishers: seq<Publisher>, search: string): (r: seq<Publisher>)
    ensures forall p :: p in r <==> p in publishers && PublisherMatches(p, search)
    ensures forall i, j :: 0 <= i < j < |r| ==> r[i].rating >= r[j].rating
    ensures forall i, j :: 0 <= i < j < |r| && r[i].rating == r[j].rating ==> !StrLt(r[j].name, r[i].name)
  {
    PublisherBeforeIsStrict();
    var r := SortBy(Filter(publishers, (p: Publisher) => PublisherMatches(p, search)), PublisherBefore);
    assert forall i, j :: 0 <= i < j < |r| ==> !PublisherBefore(r[j], r[i]);
    r
  }

  /** No publisher is found exactly when none matches. */
  lemma NotFoundIffNoMatch(publishers: seq<Publisher>, search: string)
    requires search != ""
    ensures GetPublishers(publishers, Some(search)) == NoPublishersFound <==>
      (forall p :: p in publishers ==> !PublisherMatches(p, search))
  {
    var found := MatchingPublishers(publishers, search);
    if |found| > 0 {
      assert found[0] in found;
      var lines := seq(|found|, i requires 0 <= i < |found| => PublisherLine(found[i]));
      JoinHead(lines, "\n");
      assert lines[0][0] == 'P';
    }
  }

  /** An empty search string matches every publisher, which is why it is
      refused before the query. */
  lemma EmptySearchMatchesAll(p: Publisher)
    ensures PublisherMatches(p, "")
  {
    assert OccursAt(Lower(p.name), Lower(""), 0);
    ContainsAt(Lower(p.name), Lower(""));
  }

  /** The stored placeholder country is shown as "Unknown". */
  function CountryDisplay(country: string): (s: string)
    ensures country == DefaultCountry ==> s == "Unknown"
    ensures country != DefaultCountry ==> s == country
  {
    if country == DefaultCountry then "Unknown" else country
  }

  function PublisherLine(p: Publisher): string {
    "Publisher: " + p.name + ", country: " + CountryDisplay(p.country) + ", rating: " + RatingText(p.rating)
  }

  /** `get_publishers(search_string)`. */
  function GetPublishers(publishers: seq<Publisher>, search: Option<string>): (s: string)
    ensures search.None? || search == Some("") ==> s == "No search criteria."
    ensures search.Some? && search.value != "" ==>
      var found := MatchingPublishers(publishers, search.value);
      && (|found| == 0 ==> s == NoPublishersFound)
      && (|found| > 0 ==> s == Join(seq(|found|, i requires 0 <= i < |found| => PublisherLine(found[i])), "\n"))
  {
    if search.None? || search.value == "" then "No search criteria."
    else
      var found := MatchingPublishers(publishers, search.value);
      if |found| == 0 then NoPublishersFound
      else Join(seq(|found|, i requires 0 <= i < |found| => PublisherLine(found[i])), "\n")
  }

  // ---------------------------------------------------------------------
  // get_top_publisher

  function BooksOfPublisher(books: seq<Book>, id: int): (r: seq<Book>)
    ensures forall b :: b in r <==> b in books && b.publisherId == id
  {
    Filter(books, (b: Book) => b.publisherId == id)
  }

  /** `Count('book')`. */
  function PublisherBookCount(books: seq<Book>, p: Publisher): nat {
    |BooksOfPublisher(books, p.id)|
  }

  predicate PublisherRankBefore(books: seq<Book>, a: Publisher, b: Publisher) {
    var ca, cb := PublisherBookCount(books, a), PublisherBookCount(books, b);
    ca > cb || (ca == cb && StrLt(a.name, b.name))
  }

  /** `order_by('-num_of_books', 'name')` as one value, so every use names
      the same order. */
  function ByBookCount(books: seq<Book>): (Publisher, Publisher) -> bool {
    (a: Publisher, b: Publisher) => PublisherRankBefore(books, a, b)
  }

  lemma ByBookCountIsStrict(books: seq<Book>)
    ensures StrictOrder(ByBookCount(books))
  {
    var before := ByBookCount(books);
    forall a: Publisher ensures !before(a, a) {
      StrLtIrreflexive(a.name);
    }
    forall a: Publisher, b: Publisher, c: Publisher | before(a, b) && before(b, c)
      ensures before(a, c)
    {
      if PublisherBookCount(books, a) == PublisherBookCount(books, b) == PublisherBookCount(books, c) {
        StrLtTransitive(a.name, b.name, c.name);
      }
    }
  }

  /** The publisher with the most books, ties to the smallest name. */
  function TopPublisher(publishers: seq<Publisher>, books: seq<Book>): (p: Publisher)
    requires |publishers| > 0
    ensures p in publishers
    ensures forall q :: q in publishers ==> PublisherBookCount(books, q) <= PublisherBookCount(books, p)
    ensures forall q :: q in publishers && PublisherBookCount(books, q) == PublisherBookCount(books, p) ==> !StrLt(q.name, p.name)
  {
    ByBookCountIsStrict(books);
    var p := TopBy(publishers, ByBookCount(books));
    assert forall q :: q in publishers ==> !PublisherRankBefore(books, q, p);
    p
  }

  /** `get_top_publisher`. */
  function GetTopPublisher(lib: Library): (s: string)
    ensures |lib.publishers| == 0 ==> s == NoPublishersFound
    ensures |lib.publishers| > 0 ==>
      var p := TopPublisher(lib.publishers, lib.books);
      s == "Top Publisher: " + p.name + " with " + NatToString(PublisherBookCount(lib.books, p)) + " books."
  {
    if |lib.publishers| == 0 then NoPublishersFound
    else
      var p := TopPublisher(lib.publishers, lib.books);
      "Top Publisher: " + p.name + " with " + NatToString(PublisherBookCount(lib.books, p)) + " books."
  }

  // ---------------------------------------------------------------------
  // get_top_main_author

  function MainBooks(books: seq<Book>, id: int): (r: seq<Book>)
    ensures forall b :: b in r <==> b in books && b.mainAuthorId == id
  {
    Filter(books, (b: Book) => b.mainAuthorId == id)
  }

  /** `Count('main_books')`. */
  function MainBookCount(books: seq<Book>, a: Author): nat {
    |MainBooks(books, a.id)|
  }

  predicate MainAuthorBefore(books: seq<Book>, a: Author, b: Author) {
    var ca, cb := MainBookCount(books, a), MainBookCount(books, b);
    ca > cb || (ca == cb && StrLt(a.name, b.name))
  }

  function ByMainBookCount(books: seq<Book>): (Author, Author) -> bool {
    (a: Author, b: Author) => MainAuthorBefore(books, a, b)
  }

  lemma ByMainBookCountIsStrict(books: seq<Book>)
    ensures StrictOrder(ByMainBookCount(books))
  {
    var before := ByMainBookCount(books);
    forall a: Author ensures !before(a, a) {
      StrLtIrreflexive(a.name);
    }
    forall a: Author, b: Author, c: Author | before(a, b) && before(b, c)
      ensures before(a, c)
    {
      if MainBookCount(books, a) == MainBookCount(books, b) == MainBookCount(books, c) {
        StrLtTransitive(a.name, b.name, c.name);
      }
    }
  }

  predicate TitleBefore(a: Book, b: Book) { StrLt(a.title, b.title) }

  lemma TitleBeforeIsStrict()
    ensures StrictOrder(TitleBefore)
  {
    forall a: Book ensures !TitleBefore(a, a) {
      StrLtIrreflexive(a.title);
    }
    forall a: Book, b: Book, c: Book | TitleBefore(a, b) && TitleBefore(b, c)
      ensures TitleBefore(a, c)
    {
      StrLtTransitive(a.title, b.title, c.title);
    }
  }

  /** The author's main books by title. */
  function MainBooksByTitle(books: seq<Book>, a: Author): (r: seq<Book>)
    ensures forall b :: b in r <==> b in books && b.mainAuthorId == a.id
    ensures forall i, j :: 0 <= i < j < |r| ==> !StrLt(r[j].title, r[i].title)
  {
    TitleBeforeIsStrict();
    var r := SortBy(MainBooks(books, a.id), TitleBefore);
    assert forall i, j :: 0 <= i < j < |r| ==> !TitleBefore(r[j], r[i]);
    r
  }

  function BookRating(b: Book): int {
    b.rating
  }

  /** The author with the most main books, ties to the smallest name. */
  function TopMainAuthorRow(authors: seq<Author>, books: seq<Book>): (a: Author)
    requires |authors| > 0
    ensures a in authors
    ensures forall b :: b in authors ==> MainBookCount(books, b) <= MainBookCount(books, a)
    ensures forall b :: b in authors && MainBookCount(books, b) == MainBookCount(books, a) ==> !StrLt(b.name, a.name)
  {
    ByMainBookCountIsStrict(books);
    var a := TopBy(authors, ByMainBookCount(books));
    assert forall b :: b in authors ==> !MainAuthorBefore(books, b, a);
    a
  }

  function Titles(books: seq<Book>): (r: seq<string>)
    ensures |r| == |books|
    ensures forall i :: 0 <= i < |r| ==> r[i] == books[i].title
  {
    seq(|books|, i requires 0 <= i < |books| => books[i].title)
  }

  /** `[book.title for book in top_author.main_books.all().order_by('title')]`. */
  function MainTitles(books: seq<Book>, a: Author): (titles: seq<string>)
    ensures |titles| == MainBookCount(books, a)
    ensures forall i, j :: 0 <= i < j < |titles| ==> !StrLt(titles[j], titles[i])
  {
    MainBooksSortedCount(books, a);
    Titles(MainBooksByTitle(books, a))
  }

  /** Every listed title is the title of one of the author's own books. */
  lemma MainTitlesAreOwnBooks(books: seq<Book>, a: Author)
    ensures forall i :: 0 <= i < |MainTitles(books, a)| ==>
      exists b :: b in books && b.mainAuthorId == a.id && b.title == MainTitles(books, a)[i]
  {
    var own := MainBooksByTitle(books, a);
    var titles := MainTitles(books, a);
    forall i | 0 <= i < |titles|
      ensures exists b :: b in books && b.mainAuthorId == a.id && b.title == titles[i]
    {
      assert own[i] in own && titles[i] == own[i].title;
    }
  }

  lemma MainBooksSortedCount(books: seq<Book>, a: Author)
    ensures |MainBooksByTitle(books, a)| == MainBookCount(books, a)
  {
    TitleBeforeIsStrict();
  }

  /** `Avg('rating')` over the author's main books, in tenths; 0.0 when it
      has none (`avg_rating is None`). */
  function MainAverage(books: seq<Book>, a: Author): real {
    var own := MainBooks(books, a.id);
    if |own| == 0 then 0.0 else Mean(Sum(Column(own, BookRating)), |own|)
  }

  /** With ratings within [0.0, 5.0] the average is too. */
  lemma MainAverageInRange(books: seq<Book>, a: Author)
    requires forall b :: b in books ==> ValidRating(b.rating)
    ensures 0.0 <= MainAverage(books, a) <= 50.0
  {
    var own := MainBooks(books, a.id);
    if |own| > 0 {
      var ratings := Column(own, BookRating);
      forall x | x in ratings ensures 0 <= x <= 50 {
        var i :| 0 <= i < |ratings| && ratings[i] == x;
        assert own[i] in own;
      }
      SumBounds(ratings, 0, 50);
      MeanBounds(Sum(ratings), |own|, 0, 50);
    }
  }

  /** What `get_top_main_author` reports, before the average is rounded
      and printed. */
  datatype TopAuthorReport = NoResults | TopAuthor(name: string, titles: seq<string>, averageRating: real)

  function TopMainAuthor(lib: Library): (r: TopAuthorReport)
    ensures r.NoResults? <==> |lib.authors| == 0 || |lib.books| == 0
    ensures r.TopAuthor? ==>
      var a := TopMainAuthorRow(lib.authors, lib.books);
      r == TopAuthor(a.name, MainTitles(lib.books, a), MainAverage(lib.books, a))
  {
    if |lib.authors| == 0 || |lib.books| == 0 then NoResults
    else
      var a := TopMainAuthorRow(lib.authors, lib.books);
      TopAuthor(a.name, MainTitles(lib.books, a), MainAverage(lib.books, a))
  }

  /** Once there are books and every book's main author is stored, the top
      author has at least one main book. */
  lemma TopMainAuthorHasBooks(lib: Library)
    requires Intact(lib) && |lib.authors| > 0 && |lib.books| > 0
    ensures MainBookCount(lib.books, TopMainAuthorRow(lib.authors, lib.books)) > 0
  {
    var b := lib.books[0];
    assert b in lib.books;
    var owner :| owner in lib.authors && owner.id == b.mainAuthorId;
    assert b in MainBooks(lib.books, owner.id);
  }

  // ---------------------------------------------------------------------
  // get_authors_by_books_count

  /** The co-author links of an author. */
  function CoAuthoredCount(lib: Library, a: Author): nat {
    |set l | l in lib.coAuthors && l.1 == a.id|
  }

  /** What `Count('main_books') + Count('co_authored_books')` yields for an
      author with `m` main and `c` co-authored books. Both counts run over one
      query that joins the author to both relations, so each counts its
      non-null rows among max(m, 1) * max(c, 1) joined rows. */
  function JoinedCount(m: nat, c: nat): nat {
    m * (if c == 0 then 1 else c) + c * (if m == 0 then 1 else m)
  }

  /** The joined count agrees with m + c when either relation is empty, and
      is 2mc otherwise, so it exceeds m + c unless m = c = 1. */
  lemma {:induction false} JoinedCountOvercounts(m: nat, c: nat)
    ensures m == 0 || c == 0 ==> JoinedCount(m, c) == m + c
    ensures m > 0 && c > 0 ==> JoinedCount(m, c) == 2 * m * c
    ensures JoinedCount(m, c) >= m + c
    ensures JoinedCount(m, c) == m + c <==> m == 0 || c == 0 || (m == 1 && c == 1)
    ensures JoinedCount(m, c) == 0 <==> m + c == 0
  {
    if m > 0 && c > 0 {
      var p: nat, q: nat := m - 1, c - 1;
      assert JoinedCount(m, c) == m * c + c * m;
      assert c * m == m * c;
      assert m * c == (p + 1) * (q + 1);
      assert (p + 1) * (q + 1) == p * q + p + q + 1;
      assert p * q >= 0;
      assert JoinedCount(m, c) - (m + c) == 2 * (p * q) + p + q;
    }
  }

  /** An author with two main books and one co-authored book is reported
      with 4 books, not 3. */
  lemma TwoMainOneCoAuthoredGivesFour()
    ensures JoinedCount(2, 1) == 4 && 2 + 1 == 3
  {
  }

  /** `Count('main_books') + Count('co_authored_books')`, as the query
      computes it. */
  function TotalBooks(lib: Library, a: Author): nat {
    JoinedCount(MainBookCount(lib.books, a), CoAuthoredCount(lib, a))
  }

  /** The count as evidently meant (`Count(..., distinct=True)` on each
      side): main books plus co-authored books. */
  function IntendedTotalBooks(lib: Library, a: Author): nat {
    MainBookCount(lib.books, a) + CoAuthoredCount(lib, a)
  }

  /** The intended count goes up by exactly one with each new co-author link
      of the author; the joined count can go up by more. */
  lemma IntendedCountAddsOnePerLink(lib: Library, a: Author, bookId: int)
    requires (bookId, a.id) !in lib.coAuthors
    ensures var linked := lib.(coAuthors := lib.coAuthors + {(bookId, a.id)});
      IntendedTotalBooks(linked, a) == IntendedTotalBooks(lib, a) + 1
  {
    var linked := lib.(coAuthors := lib.coAuthors + {(bookId, a.id)});
    var before := set l | l in lib.coAuthors && l.1 == a.id;
    var after := set l | l in linked.coAuthors && l.1 == a.id;
    assert after == before + {(bookId, a.id)};
    assert (bookId, a.id) !in before;
  }

  predicate TotalBooksBefore(lib: Library, a: Author, b: Author) {
    var ca, cb := TotalBooks(lib, a), TotalBooks(lib, b);
    ca > cb || (ca == cb && StrLt(a.name, b.name))
  }

  function ByTotalBooks(lib: Library): (Author, Author) -> bool {
    (a: Author, b: Author) => TotalBooksBefore(lib, a, b)
  }

  lemma ByTotalBooksIsStrict(lib: Library)
    ensures StrictOrder(ByTotalBooks(lib))
  {
    var before := ByTotalBooks(lib);
    forall a: Author ensures !before(a, a) {
      StrLtIrreflexive(a.name);
    }
    forall a: Author, b: Author, c: Author | before(a, b) && before(b, c)
      ensures before(a, c)
    {
      if TotalBooks(lib, a) == TotalBooks(lib, b) == TotalBooks(lib, c) {
        StrLtTransitive(a.name, b.name, c.name);
      }
    }
  }

  /** Authors by total books descending, ties by name. */
  function RankedAuthors(lib: Library): (r: seq<Author>)
    ensures multiset(r) == multiset(lib.authors)
    ensures forall i, j :: 0 <= i < j < |r| ==> TotalBooks(lib, r[i]) >= TotalBooks(lib, r[j])
  {
    ByTotalBooksIsStrict(lib);
    var r := SortBy(lib.authors, ByTotalBooks(lib));
    forall i, j | 0 <= i < j < |r| ensures TotalBooks(lib, r[i]) >= TotalBooks(lib, r[j]) {
      assert !ByTotalBooks(lib)(r[j], r[i]);
    }
    r
  }

  function AuthorCountLine(lib: Library, a: Author): string {
    a.name + " authored " + NatToString(TotalBooks(lib, a)) + " books."
  }

  /** The lines of the (at most) three best-ranked authors. */
  function TopAuthorLines(lib: Library): (lines: seq<string>)
    ensures |lines| == if |lib.authors| < 3 then |lib.authors| else 3
    ensures forall i :: 0 <= i < |lines| ==> lines[i] == AuthorCountLine(lib, RankedAuthors(lib)[i])
  {
    var top := Take(RankedAuthors(lib), 3);
    seq(|top|, i requires 0 <= i < |top| => AuthorCountLine(lib, top[i]))
  }

  /** `get_authors_by_books_count`: at most three lines, none when every
      count is zero. */
  function GetAuthorsByBooksCount(lib: Library): (s: string)
    ensures (forall a :: a in lib.authors ==> TotalBooks(lib, a) == 0) ==> s == "No results."
    ensures (exists a :: a in lib.authors && TotalBooks(lib, a) > 0) ==> s == Join(TopAuthorLines(lib), "\n")
  {
    if forall a :: a in lib.authors ==> TotalBooks(lib, a) == 0 then "No results."
    else Join(TopAuthorLines(lib), "\n")
  }

  /** The listed authors have at least as many books as any author left off
      the list. */
  lemma ListedAuthorsDominate(lib: Library, i: nat, x: Author)
    requires i < 3 && i < |lib.authors| && x in lib.authors
    ensures x !in Take(RankedAuthors(lib), 3) ==> TotalBooks(lib, RankedAuthors(lib)[i]) >= TotalBooks(lib, x)
  {
    var ranked := RankedAuthors(lib);
    assert x in multiset(lib.authors);
    assert x in ranked;
    var k :| 0 <= k < |ranked| && ranked[k] == x;
    if k < 3 {
      assert Take(ranked, 3)[k] == x;
    }
  }

  // ---------------------------------------------------------------------
  // get_top_bestseller

  function Bestsellers(books: seq<Book>): (r: seq<Book>)
    ensures forall b :: b in r <==> b in books && b.isBestseller
  {
    Filter(books, (b: Book) => b.isBestseller)
  }

  /** `order_by('-rating', 'title')`. */
  predicate BestsellerBefore(a: Book, b: Book) {
    a.rating > b.rating || (a.rating == b.rating && StrLt(a.title, b.title))
  }

  lemma BestsellerBeforeIsStrict()
    ensures StrictOrder(BestsellerBefore)
  {
    forall a: Book ensures !BestsellerBefore(a, a) {
      StrLtIrreflexive(a.title);
    }
    forall a: Book, b: Book, c: Book | BestsellerBefore(a, b) && BestsellerBefore(b, c)
      ensures BestsellerBefore(a, c)
    {
      if a.rating == b.rating == c.rating {
        StrLtTransitive(a.title, b.title, c.title);
      }
    }
  }

  /** The best rated bestseller, ties by title. */
  function TopBestseller(books: seq<Book>): (b: Book)
    requires exists x :: x in books && x.isBestseller
    ensures b in books && b.isBestseller
    ensures forall x :: x in books && x.isBestseller ==> x.rating <= b.rating
    ensures forall x :: x in books && x.isBestseller && x.rating == b.rating ==> !StrLt(x.title, b.title)
  {
    BestsellerBeforeIsStrict();
    var x :| x in books && x.isBestseller;
    assert x in Bestsellers(books);
    var b := TopBy(Bestsellers(books), BestsellerBefore);
    b
  }

  /** The author row a key points at (`book.main_author`). */
  function AuthorById(authors: seq<Author>, id: int): (r: Option<Author>)
    ensures r.Some? ==> r.value in authors && r.value.id == id
    ensures r.None? <==> !HasAuthor(authors, id)
  {
    if |authors| == 0 then None
    else if authors[0].id == id then Some(authors[0])
    else
      var rest := AuthorById(authors[1..], id);
      assert authors == [authors[0]] + authors[1..];
      rest
  }

  function CoAuthorsOf(lib: Library, b: Book): (r: seq<Author>)
    ensures forall a :: a in r <==> a in lib.authors && (b.id, a.id) in lib.coAuthors
  {
    Filter(lib.authors, (a: Author) => (b.id, a.id) in lib.coAuthors)
  }

  lemma StrLtIsStrict()
    ensures StrictOrder(StrLt)
  {
    forall a: string ensures !StrLt(a, a) {
      StrLtIrreflexive(a);
    }
    forall a: string, b: string, c: string | StrLt(a, b) && StrLt(b, c)
      ensures StrLt(a, c)
    {
      StrLtTransitive(a, b, c);
    }
  }

  /** `sorted(co_authors.values_list('name', flat=True))`. */
  function SortedNames(authors: seq<Author>): (r: seq<string>)
    ensures |r| == |authors|
    ensures forall n :: n in r <==> exists a :: a in authors && a.name == n
    ensures forall i, j :: 0 <= i < j < |r| ==> !StrLt(r[j], r[i])
  {
    StrLtIsStrict();
    var names := seq(|authors|, i requires 0 <= i < |authors| => authors[i].name);
    assert forall n :: n in names <==> exists a :: a in authors && a.name == n by {
      forall n ensures n in names <==> exists a :: a in authors && a.name == n {
        if n in names {
          var i :| 0 <= i < |names| && names[i] == n;
          assert authors[i] in authors;
        }
        if exists a :: a in authors && a.name == n {
          var a :| a in authors && a.name == n;
          var i :| 0 <= i < |authors| && authors[i] == a;
          assert names[i] == n;
        }
      }
    }
    SortBy(names, StrLt)
  }

  /** `get_top_bestseller`; a missing main author row is DoesNotExist. */
  function GetTopBestseller(lib: Library): (r: Result<string>)
    ensures (forall b :: b in lib.books ==> !b.isBestseller) ==> r == Ok("No results.")
    ensures (exists b :: b in lib.books && b.isBestseller) ==>
      var top := TopBestseller(lib.books);
      && (r.Ok? <==> HasAuthor(lib.authors, top.mainAuthorId))
      && (r.Ok? ==>
          var co := CoAuthorsOf(lib, top);
          r.value == "Top bestseller: " + top.title + ", rating: " + RatingText(top.rating)
            + ". Main author: " + AuthorById(lib.authors, top.mainAuthorId).value.name
            + ". Co-authors: " + (if |co| == 0 then "N/A" else Join(SortedNames(co), ", ")) + ".")
  {
    if forall b :: b in lib.books ==> !b.isBestseller then Ok("No results.")
    else
      var top := TopBestseller(lib.books);
      match AuthorById(lib.authors, top.mainAuthorId)
      case None => Err(Error(DoesNotExist, AuthorDoesNotExist))
      case Some(main) =>
        var co := CoAuthorsOf(lib, top);
        var names := if |co| == 0 then "N/A" else Join(SortedNames(co), ", ");
        Ok("Top bestseller: " + top.title + ", rating: " + RatingText(top.rating)
           + ". Main author: " + main.name + ". Co-authors: " + names + ".")
  }

  /** Under intact keys the report never fails. */
  lemma TopBestsellerFoundWhenIntact(lib: Library)
    requires Intact(lib)
    ensures GetTopBestseller(lib).Ok?
  {
    if exists b :: b in lib.books && b.isBestseller {
      var top := TopBestseller(lib.books);
      assert HasAuthor(lib.authors, top.mainAuthorId);
    }
  }

  // ---------------------------------------------------------------------
  // increase_price

  /** `publication_date__year=2025, rating__gte=4.0`. */
  predicate PriceRaiseApplies(b: Book) {
    Dates.InRange(b.publicationDate) && Dates.YearOf(b.publicationDate) == 2025 && b.rating >= 40
  }

  function RaisePrice(b: Book): (r: Book)
    ensures r.price == b.price * 1.2 && r.(price := b.price) == b
  {
    b.(price := b.price * 1.2)
  }

  function BooksToRaise(books: seq<Book>): (r: seq<Book>)
    ensures forall b :: b in r <==> b in books && PriceRaiseApplies(b)
  {
    Filter(books, PriceRaiseApplies)
  }

  /** PostgreSQL's refusal of a value too wide for `numeric(6, 2)`. */
  const NumericOverflow: string := "numeric field overflow"

  /** The raised price, rounded half away from zero to cents as the
      `numeric(6, 2)` column stores it, reaches 10000.00 in magnitude. */
  predicate RaiseOverflows(b: Book) {
    PriceRaiseApplies(b) && !(-9999.995 < b.price * 1.2 < 9999.995)
  }

  /** `increase_price`: the table afterwards and the message. The count in
      the message is taken after the update, over the same filter. The
      update is one statement, so a single raised price the column cannot
      hold makes the database refuse it whole. */
  function IncreasePrice(books: seq<Book>): (r: Result<(seq<Book>, string)>)
    ensures (forall b :: b in books ==> !PriceRaiseApplies(b)) ==> r == Ok((books, NoPriceChanges))
    ensures r.Err? <==> exists i :: 0 <= i < |books| && RaiseOverflows(books[i])
    ensures r.Err? ==> r.error == Error(DataError, NumericOverflow)
    ensures r.Ok? ==> |r.value.0| == |books|
    ensures r.Ok? ==> forall i :: 0 <= i < |books| ==>
      r.value.0[i] == if PriceRaiseApplies(books[i]) then RaisePrice(books[i]) else books[i]
    ensures r.Ok? && (exists b :: b in books && PriceRaiseApplies(b)) ==>
      r.value.1 == "Prices increased for " + NatToString(|BooksToRaise(r.value.0)|) + " books."
  {
    if forall b :: b in books ==> !PriceRaiseApplies(b) then
      assert forall i :: 0 <= i < |books| ==> !PriceRaiseApplies(books[i]) by {
        forall i | 0 <= i < |books| ensures !PriceRaiseApplies(books[i]) {
          assert books[i] in books;
        }
      }
      Ok((books, NoPriceChanges))
    else if exists i :: 0 <= i < |books| && RaiseOverflows(books[i]) then
      Err(Error(DataError, NumericOverflow))
    else
      var updated := UpdateWhere(books, PriceRaiseApplies, RaisePrice);
      Ok((updated, "Prices increased for " + NatToString(|BooksToRaise(updated)|) + " books."))
  }

  /** For a non-negative price in whole cents, the raise overflows exactly
      from 8333.33 up. */
  lemma OverflowThreshold(b: Book)
    requires PriceRaiseApplies(b) && b.price >= 0.0
    ensures b.price >= 8333.33 ==> RaiseOverflows(b)
    ensures b.price <= 8333.32 ==> !RaiseOverflows(b)
  {
  }

  /** Raising a price keeps a book selected, so the count after the update
      equals the number of books the update touched. */
  lemma RaiseKeepsSelection(books: seq<Book>)
    ensures IncreasePrice(books).Ok? ==> |BooksToRaise(IncreasePrice(books).value.0)| == |BooksToRaise(books)|
  {
    if IncreasePrice(books).Err? { return; }
    var updated := IncreasePrice(books).value.0;
    assert forall i :: 0 <= i < |books| ==> (PriceRaiseApplies(updated[i]) <==> PriceRaiseApplies(books[i]));
    FilterSameSelection(books, updated, PriceRaiseApplies);
  }
}

=== FILE: inheritance_models.dfy ===
/** Custom fields, rooms, reservations and messages
    (Models_Inheritance_And_Customization_Exercises/main_app/models.py).
    Dates are day numbers (see Dates); money is integer cents. */
module InheritanceModels {
  import opened Wrappers
  import opened Text
  import opened Tables
  import Dates

  // ---------------------------------------------------------------------
  // StudentIDField

  const InvalidStudentId: string := "Invalid input for student ID"
  const IntOfNone: string := "int() argument must be a string, a bytes-like object or a real number, not 'NoneType'"
  const NonPositiveId: string := "ID cannot be less than or equal to zero"
  const CardNotString: string := "The card number must be a string"
  const CardNotDigits: string := "The card number must contain only digits"
  const CardWrongLength: string := "The card number must be exactly 16 characters long"
  const OverCapacity: string := "Total guests are more than the capacity of the room"
  const ExtendError: string := "Error during extending reservation"
  const StartNotBeforeEnd: string := "Start date cannot be after or in the same end date"
  const DuplicateRoomNumber: string := "duplicate key value violates unique constraint \"main_app_room_number_key\""

  /** The Python values a caller may hand to the field. */
  datatype PyValue = PyInt(i: int) | PyStr(s: string) | PyNone

  /** `StudentIDField.validate_field` (also `to_python`): `int(value)`, with a
      failed conversion of text turned into a ValueError of its own. `int(None)`
      raises TypeError, which the `except ValueError` does not catch. */
  function ValidateStudentId(v: PyValue): (r: Result<int>)
    ensures v.PyInt? ==> r == Ok(v.i)
    ensures v.PyStr? ==> (r.Ok? <==> ParseInt(v.s).Some?)
    ensures v.PyStr? && r.Ok? ==> r.value == ParseInt(v.s).value
    ensures v.PyStr? && r.Err? ==> r.error == Error(ValueError, InvalidStudentId)
    ensures v.PyNone? ==> r.Err? && r.error.kind == TypeError
  {
    match v
    case PyInt(i) => Ok(i)
    case PyStr(s) =>
      (match ParseInt(s)
       case Some(i) => Ok(i)
       case None => Err(Error(ValueError, InvalidStudentId)))
    case PyNone => Err(Error(TypeError, IntOfNone))
  }

  /** `StudentIDField.get_prep_value`: coerces, then refuses IDs at or below zero. */
  function StudentIdPrepValue(v: PyValue): (r: Result<int>)
    ensures r.Ok? <==> ValidateStudentId(v).Ok? && ValidateStudentId(v).value > 0
    ensures r.Ok? ==> r.value > 0 && r.value == ValidateStudentId(v).value
    ensures ValidateStudentId(v).Ok? && ValidateStudentId(v).value <= 0 ==>
      r == Err(Error(ValidationError, NonPositiveId))
    ensures ValidateStudentId(v).Err? ==> r == ValidateStudentId(v)
  {
    var id :- ValidateStudentId(v);
    if id <= 0 then Err(Error(ValidationError, NonPositiveId)) else Ok(id)
  }

  /** A positive ID survives the field whether it arrives as a number or as
      its decimal text. */
  lemma StudentIdRoundTrip(n: int)
    requires n > 0
    ensures StudentIdPrepValue(PyInt(n)) == Ok(n)
    ensures StudentIdPrepValue(PyStr(IntToString(n))) == Ok(n)
  {
    ParseIntRoundTrip(n);
  }

  // ---------------------------------------------------------------------
  // MaskedCreditCardField

  const CardMaxLength: nat := 19
  const MaskPrefix: string := "****-****-****-"

  /** `validate_card_number`: the three checks, in the source's order. */
  function ValidateCardNumber(v: PyValue): (r: Result<string>)
    ensures r.Ok? <==> v.PyStr? && IsDigits(v.s) && |v.s| == 16
    ensures r.Ok? ==> r.value == v.s
    ensures !v.PyStr? ==> r == Err(Error(ValidationError, CardNotString))
    ensures v.PyStr? && !IsDigits(v.s) ==> r == Err(Error(ValidationError, CardNotDigits))
    ensures v.PyStr? && IsDigits(v.s) && |v.s| != 16 ==>
      r == Err(Error(ValidationError, CardWrongLength))
  {
    if !v.PyStr? then Err(Error(ValidationError, CardNotString))
    else if !IsDigits(v.s) then Err(Error(ValidationError, CardNotDigits))
    else if |v.s| != 16 then Err(Error(ValidationError, CardWrongLength))
    else Ok(v.s)
  }

  /** `to_python` (and `get_prep_value`): validate, then keep only the last
      four digits behind a fixed mask. */
  function MaskCardNumber(v: PyValue): (r: Result<string>)
    ensures r.Ok? <==> ValidateCardNumber(v).Ok?
    ensures r.Err? ==> r == ValidateCardNumber(v)
    ensures r.Ok? ==> |r.value| == CardMaxLength
    ensures r.Ok? ==> r.value[..15] == MaskPrefix && r.value[15..] == v.s[12..]
    ensures r.Ok? ==> IsDigits(r.value[15..])
  {
    var number :- ValidateCardNumber(v);
    Ok(MaskPrefix + number[12..])
  }

  /** Masking is not idempotent: the masked text fails validation, at the
      digits check, when it is masked again. */
  lemma MaskIsNotIdempotent(v: PyValue)
    requires MaskCardNumber(v).Ok?
    ensures MaskCardNumber(PyStr(MaskCardNumber(v).value))
         == Err(Error(ValidationError, CardNotDigits))
  {
    var masked := MaskCardNumber(v).value;
    assert masked[0] == '*';
  }

  // ---------------------------------------------------------------------
  // Rooms

  datatype Room = Room(id: int, hotelId: int, number: string, capacity: nat, totalGuests: nat, priceCents: nat)

  /** `Room.clean`: more guests than capacity is refused; a full room is fine. */
  function CleanRoom(room: Room): (r: Result<Room>)
    ensures r.Ok? <==> room.totalGuests <= room.capacity
    ensures r.Ok? ==> r.value == room
    ensures r.Err? ==> r.error == Error(ValidationError, OverCapacity)
  {
    if room.totalGuests > room.capacity then
      Err(Error(ValidationError, OverCapacity))
    else Ok(room)
  }

  function RoomId(room: Room): int { room.id }

  /** Another stored room already holds the `unique=True` number. */
  predicate NumberTaken(rooms: seq<Room>, room: Room) {
    exists i :: 0 <= i < |rooms| && rooms[i].id != room.id && rooms[i].number == room.number
  }

  /** `Room.save`: cleans first, then the database stores the row by id,
      refusing a number another room holds, and the save is reported. */
  function SaveRoom(rooms: seq<Room>, room: Room): (r: Result<(seq<Room>, string)>)
    ensures r.Ok? <==> room.totalGuests <= room.capacity && !NumberTaken(rooms, room)
    ensures room.totalGuests > room.capacity ==> r == Err(Error(ValidationError, OverCapacity))
    ensures room.totalGuests <= room.capacity && NumberTaken(rooms, room) ==>
      r == Err(Error(IntegrityError, DuplicateRoomNumber))
    ensures r.Ok? ==> r.value.0 == StoreById(rooms, room, RoomId)
    ensures r.Ok? ==> r.value.1 == "Room " + room.number + " created successfully"
  {
    var _ :- CleanRoom(room);
    if NumberTaken(rooms, room) then Err(Error(IntegrityError, DuplicateRoomNumber))
    else Ok((StoreById(rooms, room, RoomId), "Room " + room.number + " created successfully"))
  }

  /** No two stored rooms share a number. */
  predicate NumbersUnique(rooms: seq<Room>) {
    forall i, j :: 0 <= i < |rooms| && 0 <= j < |rooms| && rooms[i].id != rooms[j].id ==>
      rooms[i].number != rooms[j].number
  }

  /** Saving a room with the id of a stored one replaces that row, so the
      table never holds two rows with one id. */
  lemma SaveRoomReplacesById(rooms: seq<Room>, room: Room)
    requires UniqueIds(rooms, RoomId)
    requires SaveRoom(rooms, room).Ok?
    ensures UniqueIds(SaveRoom(rooms, room).value.0, RoomId)
    ensures (exists i :: 0 <= i < |rooms| && rooms[i].id == room.id) ==>
      |SaveRoom(rooms, room).value.0| == |rooms|
  {
    var t := StoreById(rooms, room, RoomId);
    if exists i :: 0 <= i < |rooms| && rooms[i].id == room.id {
      UniqueIdsInjective(rooms, RoomId);
      forall i, j | 0 <= i < j < |t| ensures t[i].id != t[j].id {
        assert t[i] == (if rooms[i].id == room.id then room else rooms[i]);
        assert t[j] == (if rooms[j].id == room.id then room else rooms[j]);
      }
    } else {
      forall i, j | 0 <= i < j < |t| ensures t[i].id != t[j].id {
        if j == |rooms| {
          assert t[i] == rooms[i];
        } else {
          assert t[i] == rooms[i] && t[j] == rooms[j];
        }
      }
    }
  }

  /** Successful saves keep room numbers unique. */
  lemma SavedNumbersStayUnique(rooms: seq<Room>, room: Room)
    requires NumbersUnique(rooms)
    requires SaveRoom(rooms, room).Ok?
    ensures NumbersUnique(SaveRoom(rooms, room).value.0)
  {
    var t := SaveRoom(rooms, room).value.0;
    forall i, j | 0 <= i < |t| && 0 <= j < |t| && t[i].id != t[j].id
      ensures t[i].number != t[j].number
    {
      assert t[i] in t && t[j] in t;
      if t[i] != room && t[j] != room {
        var a :| 0 <= a < |rooms| && rooms[a] == t[i];
        var b :| 0 <= b < |rooms| && rooms[b] == t[j];
      } else if t[i] == room {
        var b :| 0 <= b < |rooms| && rooms[b] == t[j];
      } else {
        var a :| 0 <= a < |rooms| && rooms[a] == t[i];
      }
    }
  }

  predicate RoomsFit(rooms: seq<Room>) {
    forall i :: 0 <= i < |rooms| ==> rooms[i].totalGuests <= rooms[i].capacity
  }

  /** Because `save` always cleans, a table built by saves never holds an
      overfull room. */
  lemma SavedRoomsFit(rooms: seq<Room>, room: Room)
    requires RoomsFit(rooms)
    requires SaveRoom(rooms, room).Ok?
    ensures RoomsFit(SaveRoom(rooms, room).value.0)
  {
  }

  // ---------------------------------------------------------------------
  // Reservations

  datatype ReservationKind = RegularReservation | SpecialReservation

  function ReservationType(kind: ReservationKind): string {
    if kind == RegularReservation then "Regular" else "Special"
  }

  /** A reservation row; `start` and `end` are day numbers. Each kind has
      its own table, since the overlap query goes through `self.__class__`. */
  datatype Reservation = Reservation(id: int, room: Room, start: int, end: int, kind: ReservationKind)

  /** `reservation_period`: whole days from start to end. */
  function ReservationPeriod(r: Reservation): int {
    r.end - r.start
  }

  /** `calculate_total_cost`: the nightly price times the nights. A two-place
      price times whole days needs no rounding, so `round(..., 2)` changes
      nothing and the cost is exact in cents. */
  function CalculateTotalCost(r: Reservation): (cents: int)
    ensures ReservationPeriod(r) >= 1 ==> cents >= r.room.priceCents
    ensures ReservationPeriod(r) == 1 ==> cents == r.room.priceCents
  {
    r.room.priceCents * ReservationPeriod(r)
  }

  /** Splitting a stay on any day splits its cost: every night is charged
      the nightly price exactly once. */
  lemma CostIsAdditive(r: Reservation, d: int)
    ensures CalculateTotalCost(r.(end := d)) + CalculateTotalCost(r.(start := d)) == CalculateTotalCost(r)
  {
    var p := r.room.priceCents;
    assert p * (d - r.start) + p * (r.end - d) == p * (r.end - r.start);
  }

  /** Closed-interval overlap with [s, e] in the same room. */
  predicate Overlaps(x: Reservation, room: Room, s: int, e: int) {
    x.room.id == room.id && x.end >= s && x.start <= e
  }

  /** `get_overlapping_reservations`. */
  function GetOverlappingReservations(table: seq<Reservation>, room: Room, s: int, e: int): (r: seq<Reservation>)
    ensures forall x :: x in r <==> x in table && x.room.id == room.id && x.end >= s && x.start <= e
  {
    Filter(table, x => Overlaps(x, room, s, e))
  }

  /** For well-formed intervals, the overlap test is exactly "the two stays
      share at least one calendar day". */
  lemma OverlapMeansSharedDay(x: Reservation, room: Room, s: int, e: int)
    requires x.start <= x.end && s <= e && x.room.id == room.id
    ensures Overlaps(x, room, s, e) <==> exists d :: SharedDay(x, s, e, d)
  {
    if Overlaps(x, room, s, e) {
      var d := if s >= x.start then s else x.start;
      assert SharedDay(x, s, e, d);
    }
  }

  /** Day `d` lies within both the stay `x` and the interval [s, e]. */
  predicate SharedDay(x: Reservation, s: int, e: int, d: int) {
    s <= d <= e && x.start <= d <= x.end
  }

  /** Touching stays count: a stay ending on the day another begins overlaps it. */
  lemma TouchingDatesOverlap(x: Reservation, room: Room, e: int)
    requires x.room.id == room.id && x.start <= x.end
    ensures Overlaps(x, room, x.end, e) <==> x.start <= e
  {
  }

  /** `is_available` as written: `not reservations.exists` negates the bound
      method object, which is always truthy, so the answer never depends on
      the rows found. */
  function IsAvailableAsWritten(table: seq<Reservation>, r: Reservation): (available: bool)
    ensures !available
  {
    var overlapping := GetOverlappingReservations(table, r.room, r.start, r.end);
    var existsAttributeIsTruthy := true;
    !existsAttributeIsTruthy
  }

  /** An empty table still makes the written check report the room taken. */
  lemma AvailabilityAsWrittenIgnoresRows(r: Reservation)
    ensures GetOverlappingReservations([], r.room, r.start, r.end) == []
    ensures !IsAvailableAsWritten([], r)
  {
  }

  /** `is_available` as intended (`not reservations.exists()`): no row of the
      same kind overlaps the stay. */
  predicate IsAvailable(table: seq<Reservation>, r: Reservation) {
    forall x :: x in table ==> !Overlaps(x, r.room, r.start, r.end)
  }

  /** The intended check is exactly "the overlap query finds no row". */
  lemma IsAvailableIffNoOverlapping(table: seq<Reservation>, r: Reservation)
    ensures IsAvailable(table, r) <==> |GetOverlappingReservations(table, r.room, r.start, r.end)| == 0
  {
    var overlapping := GetOverlappingReservations(table, r.room, r.start, r.end);
    if |overlapping| > 0 {
      assert overlapping[0] in overlapping;
    }
  }

  /** The message `clean` returns when the room is taken. */
  function CannotBeReserved(r: Reservation): string {
    "Room " + r.room.number + " cannot be reserved"
  }

  /** `BaseReservation.clean` as written: refuses a start on or after the
      end; otherwise, since the written availability is always False, it
      returns (not raises) the "cannot be reserved" message for every
      reservation, whatever the table holds. */
  function CleanReservation(table: seq<Reservation>, r: Reservation): (c: Result<Option<string>>)
    ensures c.Err? <==> r.start >= r.end
    ensures c.Err? ==> c.error == Error(ValidationError, StartNotBeforeEnd)
    ensures c.Ok? ==> c.value == Some(CannotBeReserved(r))
  {
    if r.start >= r.end then Err(Error(ValidationError, StartNotBeforeEnd))
    else if !IsAvailableAsWritten(table, r) then Ok(Some(CannotBeReserved(r)))
    else Ok(None)
  }

  /** `clean` with the intended availability check: the message is returned
      exactly when some row overlaps the stay. */
  function CleanReservationIntended(table: seq<Reservation>, r: Reservation): (c: Result<Option<string>>)
    ensures c.Err? <==> r.start >= r.end
    ensures c.Err? ==> c.error == Error(ValidationError, StartNotBeforeEnd)
    ensures c.Ok? ==> (c.value.Some? <==> |GetOverlappingReservations(table, r.room, r.start, r.end)| > 0)
    ensures c.Ok? && c.value.Some? ==> c.value.value == CannotBeReserved(r)
  {
    IsAvailableIffNoOverlapping(table, r);
    if r.start >= r.end then Err(Error(ValidationError, StartNotBeforeEnd))
    else if !IsAvailable(table, r) then Ok(Some(CannotBeReserved(r)))
    else Ok(None)
  }

  /** The two versions of `clean` differ exactly on well-formed stays that
      overlap nothing: as written the room is reported taken, as intended it
      is free. */
  lemma CleanVersionsDifferOnFreeRooms(table: seq<Reservation>, r: Reservation)
    requires r.start < r.end
    ensures CleanReservation(table, r) != CleanReservationIntended(table, r) <==>
      |GetOverlappingReservations(table, r.room, r.start, r.end)| == 0
  {
  }

  function ReservationId(r: Reservation): int { r.id }

  /** The report of a successful save. */
  function SavedMessage(r: Reservation): string {
    ReservationType(r.kind) + " reservation for room " + r.room.number
  }

  /** `BaseReservation.save`: cleans, stores and reports. The message `clean`
      may return is dropped, so availability never blocks a save. */
  function SaveReservation(table: seq<Reservation>, r: Reservation): (s: Result<(seq<Reservation>, string)>)
    ensures s.Ok? <==> r.start < r.end
    ensures s.Ok? ==> s.value.0 == StoreById(table, r, ReservationId)
    ensures s.Ok? ==> s.value.1 == SavedMessage(r)
  {
    var _ :- CleanReservation(table, r);
    Ok((StoreById(table, r, ReservationId), SavedMessage(r)))
  }

  /** The report of a successful extension. */
  function ExtendedMessage(r: Reservation, days: int): string {
    "Extended reservation for room " + r.room.number + " with " + IntToString(days) + " days"
  }

  /** `SpecialReservation.extend_reservation` as written: the overlap query
      does not leave the reservation itself out. */
  function ExtendReservationAsWritten(table: seq<Reservation>, r: Reservation, days: int): (x: Result<(seq<Reservation>, string)>)
    ensures x.Ok? <==>
      && Dates.InRange(r.end + days)
      && |GetOverlappingReservations(table, r.room, r.start, r.end + days)| == 0
      && r.start < r.end + days
    ensures x.Ok? ==> x.value.0 == StoreById(table, Extended(r, days), ReservationId)
    ensures x.Ok? ==> x.value.1 == ExtendedMessage(r, days)
  {
    var added := Dates.AddDays(r.end, days);
    if added.Err? then Err(added.error)
    else
      var extended := Extended(r, days);
      if |GetOverlappingReservations(table, r.room, r.start, extended.end)| > 0 then
        Err(Error(ValidationError, ExtendError))
      else
        var saved := SaveReservation(table, extended);
        if saved.Err? then Err(saved.error)
        else Ok((saved.value.0, ExtendedMessage(r, days)))
  }

  /** A stored, well-formed reservation can never be extended as written:
      either it overlaps itself, or the new end falls before its start and
      the save refuses it. */
  lemma ExtendingStoredReservationAlwaysFails(table: seq<Reservation>, r: Reservation, days: int)
    requires r in table && r.start < r.end
    ensures ExtendReservationAsWritten(table, r, days).Err?
  {
    var added := Dates.AddDays(r.end, days);
    if added.Ok? {
      var newEnd := added.value;
      if newEnd >= r.start {
        assert r in GetOverlappingReservations(table, r.room, r.start, newEnd);
      }
    }
  }

  /** The reservation with its end moved `days` later. */
  function Extended(r: Reservation, days: int): Reservation {
    r.(end := r.end + days)
  }

  /** `extend_reservation` as intended: only other reservations can block the
      extension. */
  function ExtendReservation(table: seq<Reservation>, r: Reservation, days: int): (x: Result<(seq<Reservation>, string)>)
    ensures x.Ok? <==>
      && Dates.InRange(r.end + days)
      && r.start < r.end + days
      && FreeOfOthers(table, r, r.end + days)
    ensures x.Ok? ==> x.value.0 == StoreById(table, Extended(r, days), ReservationId)
    ensures x.Ok? ==> x.value.1 == ExtendedMessage(r, days)
  {
    var added := Dates.AddDays(r.end, days);
    if added.Err? then Err(added.error)
    else
      var extended := Extended(r, days);
      if !FreeOfOthers(table, r, extended.end) then
        Err(Error(ValidationError, ExtendError))
      else
        var saved := SaveReservation(table, extended);
        if saved.Err? then Err(saved.error)
        else Ok((saved.value.0, ExtendedMessage(r, days)))
  }

  /** The overlap query of `extend_reservation` with the reservation itself
      excluded (`.exclude(id=self.id)`). */
  function OtherOverlapping(table: seq<Reservation>, r: Reservation, newEnd: int): (o: seq<Reservation>)
    ensures forall y :: y in o <==> y in table && y.id != r.id && Overlaps(y, r.room, r.start, newEnd)
  {
    Filter(GetOverlappingReservations(table, r.room, r.start, newEnd), (y: Reservation) => y.id != r.id)
  }

  /** No other row of the room overlaps the extended stay. */
  predicate FreeOfOthers(table: seq<Reservation>, r: Reservation, newEnd: int) {
    forall y :: y in table && y.id != r.id ==> !Overlaps(y, r.room, r.start, newEnd)
  }

  /** The extension is refused exactly when the query leaving the
      reservation out finds a row. */
  lemma FreeOfOthersIffNoOtherOverlapping(table: seq<Reservation>, r: Reservation, newEnd: int)
    ensures FreeOfOthers(table, r, newEnd) <==> |OtherOverlapping(table, r, newEnd)| == 0
  {
    var others := OtherOverlapping(table, r, newEnd);
    if |others| > 0 {
      assert others[0] in others;
    }
  }

  /** A successful extension stores the longer stay and keeps every other row. */
  lemma ExtensionKeepsOtherRows(table: seq<Reservation>, r: Reservation, days: int)
    requires ExtendReservation(table, r, days).Ok?
    ensures Extended(r, days) in ExtendReservation(table, r, days).value.0
    ensures forall y :: y in table && y.id != r.id ==> y in ExtendReservation(table, r, days).value.0
    ensures forall y :: y in ExtendReservation(table, r, days).value.0 && y.id != r.id ==> y in table
  {
  }

  /** With no other reservation in the room, a stored reservation can be
      extended by any number of days that keeps a representable end. */
  lemma ExtendAloneSucceeds(r: Reservation, days: int)
    requires r.start < r.end && days >= 0 && Dates.InRange(r.end + days)
    ensures ExtendReservation([r], r, days).Ok?
    ensures ExtendReservation([r], r, days).value.0 == [Extended(r, days)]
  {
    var t := ExtendReservation([r], r, days).value.0;
    assert ReservationId([r][0]) == ReservationId(Extended(r, days));
    var stored := StoreById([r], Extended(r, days), ReservationId);
    assert stored[0] == Extended(r, days);
  }

  // ---------------------------------------------------------------------
  // Messages

  /** A message between two user profiles, referenced by id. */
  datatype Message = Message(id: int, sender: int, receiver: int, content: string, isRead: bool)

  /** A freshly created message, `is_read` at its default. */
  function NewMessage(id: int, sender: int, receiver: int, content: string): (m: Message)
    ensures !m.isRead
  {
    Message(id, sender, receiver, content, false)
  }

  /** `mark_as_read`. */
  function MarkAsRead(m: Message): (r: Message)
    ensures r.isRead
    ensures r.(isRead := m.isRead) == m
  {
    m.(isRead := true)
  }

  /** `reply_to_message`: a new unread message back to the sender, stored. */
  function ReplyToMessage(messages: seq<Message>, m: Message, id: int, replyContent: string): (r: (seq<Message>, Message))
    ensures r.1.sender == m.receiver && r.1.receiver == m.sender
    ensures r.1.content == replyContent && !r.1.isRead
    ensures r.0 == messages + [r.1]
  {
    var reply := NewMessage(id, m.receiver, m.sender, replyContent);
    (messages + [reply], reply)
  }

  /** `forward_message`: the same content, sent on by the original receiver. */
  function ForwardMessage(messages: seq<Message>, m: Message, id: int, receiver: int): (r: (seq<Message>, Message))
    ensures r.1.sender == m.receiver && r.1.receiver == receiver
    ensures r.1.content == m.content && !r.1.isRead
    ensures r.0 == messages + [r.1]
  {
    var forwarded := NewMessage(id, m.receiver, receiver, m.content);
    (messages + [forwarded], forwarded)
  }

  /** Replying to a reply addresses the original direction again. */
  lemma ReplyToReplyRestoresDirection(messages: seq<Message>, m: Message, id1: int, id2: int, c1: string, c2: string)
    ensures var (t, reply) := ReplyToMessage(messages, m, id1, c1);
            var back := ReplyToMessage(t, reply, id2, c2).1;
            back.sender == m.sender && back.receiver == m.receiver
  {
  }
}

=== FILE: query_exercises.dfy ===
/** Bulk queries over artworks, laptops, chess players, meals, dungeons and
    workouts (Working_With_Queries_In_Django_Exercises/caller.py).
    `filter(...).update(...)` rewrites the matching rows of a table in place,
    `delete()` keeps the others, and `update(field=Case(When ...))` evaluates
    the `When` branches in order, giving NULL (`None`) when none matches and
    there is no default. */
module QueryExercises {
  import opened Wrappers
  import opened Text
  import opened Tables

  // ---------------------------------------------------------------------
  // Artworks

  datatype Artwork = Artwork(id: int, artistName: string, artName: string, rating: int, priceCents: nat)

  function ArtId(a: Artwork): int { a.id }

  /** `order_by('-rating', 'id')`. */
  predicate ArtBefore(a: Artwork, b: Artwork) {
    a.rating > b.rating || (a.rating == b.rating && a.id < b.id)
  }

  /** Nothing in the table comes before `a`. */
  predicate IsHighestRated(arts: seq<Artwork>, a: Artwork) {
    a in arts && forall x :: x in arts ==> !ArtBefore(x, a)
  }

  function HighestRatedLine(a: Artwork): string {
    a.artName + " is the highest-rated art with a " + IntToString(a.rating) + " rating!"
  }

  /** `show_highest_rated_art`: the first artwork by rating, ties to the
      lowest id; `first()` on an empty table is None, and reading its
      attribute raises. */
  method ShowHighestRatedArt(arts: seq<Artwork>) returns (r: Result<string>)
    ensures r.Err? <==> |arts| == 0
    ensures r.Err? ==> r.error.kind == AttributeError
    ensures r.Ok? ==> exists a :: IsHighestRated(arts, a) && r.value == HighestRatedLine(a)
  {
    if |arts| == 0 {
      return Err(Error(AttributeError, "'NoneType' object has no attribute 'art_name'"));
    }
    assert StrictOrder(ArtBefore);
    var best := FirstBy(arts, ArtBefore);
    assert IsHighestRated(arts, best);
    r := Ok(HighestRatedLine(best));
  }

  /** With unique ids there is exactly one highest-rated artwork: the
      highest rating, and among those the lowest id. */
  lemma HighestRatedIsUnique(arts: seq<Artwork>, a: Artwork, b: Artwork)
    requires UniqueIds(arts, ArtId)
    requires IsHighestRated(arts, a) && IsHighestRated(arts, b)
    ensures a == b
    ensures forall x :: x in arts ==> x.rating <= a.rating
    ensures forall x :: x in arts && x.rating == a.rating ==> a.id <= x.id
  {
    var i :| 0 <= i < |arts| && arts[i] == a;
    var j :| 0 <= j < |arts| && arts[j] == b;
    assert !ArtBefore(a, b) && !ArtBefore(b, a);
    UniqueIdsInjective(arts, ArtId);
    assert ArtId(arts[i]) == ArtId(arts[j]);
  }

  /** `delete_negative_rated_arts`. */
  function DeleteNegativeRatedArts(arts: seq<Artwork>): (r: seq<Artwork>)
    ensures forall x :: x in r <==> x in arts && x.rating >= 0
  {
    Filter(arts, (x: Artwork) => x.rating >= 0)
  }

  /** A highest-rated artwork that is not negatively rated is still the
      highest-rated one after the deletion. */
  lemma HighestRatedSurvivesDeletion(arts: seq<Artwork>, a: Artwork)
    requires IsHighestRated(arts, a) && a.rating >= 0
    ensures IsHighestRated(DeleteNegativeRatedArts(arts), a)
  {
  }

  // ---------------------------------------------------------------------
  // Laptops

  datatype OperatingSystem = Windows | MacOS | Linux | ChromeOS

  datatype Laptop = Laptop(id: int, brand: string, processor: string, memory: int, storage: int,
                           operatingSystem: Option<OperatingSystem>, priceCents: nat)

  /** `order_by('-price', '-id')`. */
  predicate LaptopBefore(a: Laptop, b: Laptop) {
    a.priceCents > b.priceCents || (a.priceCents == b.priceCents && a.id > b.id)
  }

  predicate IsMostExpensive(laptops: seq<Laptop>, l: Laptop) {
    l in laptops && forall x :: x in laptops ==> !LaptopBefore(x, l)
  }

  function MostExpensiveLine(l: Laptop): string {
    l.brand + " is the most expensive laptop available for " + FormatCents(l.priceCents) + "$!"
  }

  /** `show_the_most_expensive_laptop`: the first laptop by price, ties to
      the highest id. */
  method ShowTheMostExpensiveLaptop(laptops: seq<Laptop>) returns (r: Result<string>)
    ensures r.Err? <==> |laptops| == 0
    ensures r.Err? ==> r.error.kind == AttributeError
    ensures r.Ok? ==> exists l :: IsMostExpensive(laptops, l) && r.value == MostExpensiveLine(l)
  {
    if |laptops| == 0 {
      return Err(Error(AttributeError, "'NoneType' object has no attribute 'brand'"));
    }
    assert StrictOrder(LaptopBefore);
    var best := FirstBy(laptops, LaptopBefore);
    assert IsMostExpensive(laptops, best);
    r := Ok(MostExpensiveLine(best));
  }

  /** The most expensive laptop has the top price and, among those, the
      highest id. */
  lemma MostExpensiveIsMaximal(laptops: seq<Laptop>, l: Laptop)
    requires IsMostExpensive(laptops, l)
    ensures forall x :: x in laptops ==> x.priceCents <= l.priceCents
    ensures forall x :: x in laptops && x.priceCents == l.priceCents ==> x.id <= l.id
  {
  }

  /** `update_to_512_GB_storage`. */
  function UpdateTo512GbStorage(laptops: seq<Laptop>): (r: seq<Laptop>)
    ensures |r| == |laptops|
    ensures forall i :: 0 <= i < |r| ==>
      r[i] == if laptops[i].brand in {"Asus", "Lenovo"} then laptops[i].(storage := 512) else laptops[i]
  {
    UpdateWhere(laptops, (l: Laptop) => l.brand in {"Asus", "Lenovo"}, (l: Laptop) => l.(storage := 512))
  }

  /** `update_to_16_GB_memory`. */
  function UpdateTo16GbMemory(laptops: seq<Laptop>): (r: seq<Laptop>)
    ensures |r| == |laptops|
    ensures forall i :: 0 <= i < |r| ==>
      r[i] == if laptops[i].brand in {"Apple", "Dell", "Acer"} then laptops[i].(memory := 16) else laptops[i]
  {
    UpdateWhere(laptops, (l: Laptop) => l.brand in {"Apple", "Dell", "Acer"}, (l: Laptop) => l.(memory := 16))
  }

  /** The `Case` of `update_operation_systems`. */
  function OperatingSystemFor(brand: string): Option<OperatingSystem> {
    if brand == "Asus" then Some(Windows)
    else if brand == "Apple" then Some(MacOS)
    else if brand == "Dell" || brand == "Acer" then Some(Linux)
    else if brand == "Lenovo" then Some(ChromeOS)
    else None
  }

  /** `update_operation_systems`: every row gets its brand's system. */
  function UpdateOperationSystems(laptops: seq<Laptop>): (r: seq<Laptop>)
    ensures |r| == |laptops|
    ensures forall i :: 0 <= i < |r| ==> r[i].(operatingSystem := laptops[i].operatingSystem) == laptops[i]
    ensures forall i :: 0 <= i < |r| ==> (r[i].operatingSystem.Some? <==> laptops[i].brand in {"Asus", "Apple", "Dell", "Acer", "Lenovo"})
  {
    UpdateWhere(laptops, (l: Laptop) => true, (l: Laptop) => l.(operatingSystem := OperatingSystemFor(l.brand)))
  }

  /** Linux goes to exactly the Dell and Acer laptops, and each system has
      its own brands: the mapping is inverted by `BrandsRunning`. */
  function BrandsRunning(os: OperatingSystem): set<string> {
    match os
    case Windows => {"Asus"}
    case MacOS => {"Apple"}
    case Linux => {"Dell", "Acer"}
    case ChromeOS => {"Lenovo"}
  }

  lemma OperatingSystemForInverts(brand: string, os: OperatingSystem)
    ensures OperatingSystemFor(brand) == Some(os) <==> brand in BrandsRunning(os)
  {
  }

  predicate PricedFrom1200(l: Laptop) { l.priceCents >= 120000 }

  /** `delete_inexpensive_laptops`: below 1200 goes. */
  function DeleteInexpensiveLaptops(laptops: seq<Laptop>): (r: seq<Laptop>)
    ensures forall x :: x in r <==> x in laptops && x.priceCents >= 120000
  {
    Filter(laptops, PricedFrom1200)
  }

  /** No laptop update touches the price, so deleting the inexpensive
      laptops before or after any of them gives the same table. */
  lemma DeleteInexpensiveCommutesWithUpdates(laptops: seq<Laptop>)
    ensures DeleteInexpensiveLaptops(UpdateTo512GbStorage(laptops)) == UpdateTo512GbStorage(DeleteInexpensiveLaptops(laptops))
    ensures DeleteInexpensiveLaptops(UpdateTo16GbMemory(laptops)) == UpdateTo16GbMemory(DeleteInexpensiveLaptops(laptops))
    ensures DeleteInexpensiveLaptops(UpdateOperationSystems(laptops)) == UpdateOperationSystems(DeleteInexpensiveLaptops(laptops))
  {
    var kept := Filter(laptops, PricedFrom1200);
    var p1 := (l: Laptop) => l.brand in {"Asus", "Lenovo"};
    var f1 := (l: Laptop) => l.(storage := 512);
    assert UpdateTo512GbStorage(laptops) == UpdateWhere(laptops, p1, f1);
    assert UpdateTo512GbStorage(kept) == UpdateWhere(kept, p1, f1);
    FilterUpdateCommute(laptops, PricedFrom1200, p1, f1);
    var p2 := (l: Laptop) => l.brand in {"Apple", "Dell", "Acer"};
    var f2 := (l: Laptop) => l.(memory := 16);
    assert UpdateTo16GbMemory(laptops) == UpdateWhere(laptops, p2, f2);
    assert UpdateTo16GbMemory(kept) == UpdateWhere(kept, p2, f2);
    FilterUpdateCommute(laptops, PricedFrom1200, p2, f2);
    var p3 := (l: Laptop) => true;
    var f3 := (l: Laptop) => l.(operatingSystem := OperatingSystemFor(l.brand));
    assert UpdateOperationSystems(laptops) == UpdateWhere(laptops, p3, f3);
    assert UpdateOperationSystems(kept) == UpdateWhere(kept, p3, f3);
    FilterUpdateCommute(laptops, PricedFrom1200, p3, f3);
  }

  // ---------------------------------------------------------------------
  // Chess players

  datatype ChessPlayer = ChessPlayer(id: int, username: string, title: string, rating: int,
                                     gamesWon: int, gamesLost: int, gamesDrawn: int)

  predicate GmBand(rating: int) { rating >= 2400 }
  predicate ImBand(rating: int) { 2300 <= rating <= 2399 }
  predicate FmBand(rating: int) { 2200 <= rating <= 2299 }
  predicate RegularBand(rating: int) { 0 <= rating <= 2199 }

  /** The bands are disjoint and together cover exactly the ratings from 0 up. */
  lemma BandsPartitionRatings(rating: int)
    ensures rating >= 0 <==> GmBand(rating) || ImBand(rating) || FmBand(rating) || RegularBand(rating)
    ensures !(GmBand(rating) && ImBand(rating)) && !(GmBand(rating) && FmBand(rating))
    ensures !(GmBand(rating) && RegularBand(rating)) && !(ImBand(rating) && FmBand(rating))
    ensures !(ImBand(rating) && RegularBand(rating)) && !(FmBand(rating) && RegularBand(rating))
  {
  }

  /** The title a rating earns, or None for a negative rating. */
  function TitleFor(rating: int): (t: Option<string>)
    ensures t.Some? <==> rating >= 0
  {
    if GmBand(rating) then Some("GM")
    else if ImBand(rating) then Some("IM")
    else if FmBand(rating) then Some("FM")
    else if RegularBand(rating) then Some("regular player")
    else None
  }

  /** One `grand_chess_title_*`: players whose rating lies in `band` get `title`. */
  function GrantTitle(players: seq<ChessPlayer>, band: int -> bool, title: string): (r: seq<ChessPlayer>)
    ensures |r| == |players|
    ensures forall i :: 0 <= i < |r| && band(players[i].rating) ==> r[i] == players[i].(title := title)
    ensures forall i :: 0 <= i < |r| && !band(players[i].rating) ==> r[i] == players[i]
  {
    UpdateWhere(players, (p: ChessPlayer) => band(p.rating), (p: ChessPlayer) => p.(title := title))
  }

  /** `grand_chess_title_GM`: a rating of 2400 or more earns "GM". */
  function GrandChessTitleGm(players: seq<ChessPlayer>): (r: seq<ChessPlayer>)
    ensures |r| == |players|
    ensures forall i :: 0 <= i < |r| ==>
      r[i] == if players[i].rating >= 2400 then players[i].(title := "GM") else players[i]
  {
    GrantTitle(players, GmBand, "GM")
  }

  /** `grand_chess_title_IM`: a rating from 2300 to 2399 earns "IM". */
  function GrandChessTitleIm(players: seq<ChessPlayer>): (r: seq<ChessPlayer>)
    ensures |r| == |players|
    ensures forall i :: 0 <= i < |r| ==>
      r[i] == if 2300 <= players[i].rating <= 2399 then players[i].(title := "IM") else players[i]
  {
    GrantTitle(players, ImBand, "IM")
  }

  /** `grand_chess_title_FM`: a rating from 2200 to 2299 earns "FM". */
  function GrandChessTitleFm(players: seq<ChessPlayer>): (r: seq<ChessPlayer>)
    ensures |r| == |players|
    ensures forall i :: 0 <= i < |r| ==>
      r[i] == if 2200 <= players[i].rating <= 2299 then players[i].(title := "FM") else players[i]
  {
    GrantTitle(players, FmBand, "FM")
  }

  /** `grand_chess_title_regular_player`: a rating from 0 to 2199 earns "regular player". */
  function GrandChessTitleRegularPlayer(players: seq<ChessPlayer>): (r: seq<ChessPlayer>)
    ensures |r| == |players|
    ensures forall i :: 0 <= i < |r| ==>
      r[i] == if 0 <= players[i].rating <= 2199 then players[i].(title := "regular player") else players[i]
  {
    GrantTitle(players, RegularBand, "regular player")
  }

  /** Running all four grants leaves every player with a non-negative rating
      holding the title of its band, and negative ratings untouched. */
  lemma AllGrantsAssignBandTitles(players: seq<ChessPlayer>)
    ensures var r := GrandChessTitleRegularPlayer(GrandChessTitleFm(GrandChessTitleIm(GrandChessTitleGm(players))));
      && |r| == |players|
      && (forall i :: 0 <= i < |r| && players[i].rating >= 0 ==> r[i] == players[i].(title := TitleFor(players[i].rating).value))
      && (forall i :: 0 <= i < |r| && players[i].rating < 0 ==> r[i] == players[i])
  {
  }

  /** The grants touch disjoint bands, so their order does not matter. */
  lemma GrantsCommute(players: seq<ChessPlayer>)
    ensures GrandChessTitleGm(GrandChessTitleIm(players)) == GrandChessTitleIm(GrandChessTitleGm(players))
    ensures GrandChessTitleFm(GrandChessTitleRegularPlayer(players)) == GrandChessTitleRegularPlayer(GrandChessTitleFm(players))
  {
  }

  // ---------------------------------------------------------------------
  // Meals

  datatype MealType = Breakfast | Lunch | Dinner | Snack

  datatype Meal = Meal(id: int, name: string, mealType: MealType, preparationTime: string,
                       difficulty: int, calories: int, chef: string)

  /** Sets `chef` on the rows of one meal type. */
  function SetChef(meals: seq<Meal>, t: MealType, chef: string): (r: seq<Meal>)
    ensures |r| == |meals|
    ensures forall i :: 0 <= i < |r| ==> r[i] == if meals[i].mealType == t then meals[i].(chef := chef) else meals[i]
  {
    UpdateWhere(meals, (m: Meal) => m.mealType == t, (m: Meal) => m.(chef := chef))
  }

  /** Sets `preparation_time` on the rows of one meal type. */
  function SetPreparationTime(meals: seq<Meal>, t: MealType, time: string): (r: seq<Meal>)
    ensures |r| == |meals|
    ensures forall i :: 0 <= i < |r| ==> r[i] == if meals[i].mealType == t then meals[i].(preparationTime := time) else meals[i]
  {
    UpdateWhere(meals, (m: Meal) => m.mealType == t, (m: Meal) => m.(preparationTime := time))
  }

  function ChefFor(t: MealType): string {
    match t
    case Breakfast => "Gordon Ramsay"
    case Lunch => "Julia Child"
    case Dinner => "Jamie Oliver"
    case Snack => "Thomas Keller"
  }

  function PreparationTimeFor(t: MealType): string {
    match t
    case Breakfast => "10 minutes"
    case Lunch => "12 minutes"
    case Dinner => "15 minutes"
    case Snack => "5 minutes"
  }

  /** `set_new_chefs`: four updates, one per meal type; since the types
      partition the table, each meal ends with its type's chef. */
  function SetNewChefs(meals: seq<Meal>): (r: seq<Meal>)
    ensures |r| == |meals|
    ensures forall i :: 0 <= i < |r| ==> r[i] == meals[i].(chef := ChefFor(meals[i].mealType))
  {
    SetChef(SetChef(SetChef(SetChef(meals, Breakfast, "Gordon Ramsay"), Lunch, "Julia Child"), Dinner, "Jamie Oliver"), Snack, "Thomas Keller")
  }

  /** `set_new_preparation_times`: likewise for preparation times. */
  function SetNewPreparationTimes(meals: seq<Meal>): (r: seq<Meal>)
    ensures |r| == |meals|
    ensures forall i :: 0 <= i < |r| ==> r[i] == meals[i].(preparationTime := PreparationTimeFor(meals[i].mealType))
  {
    SetPreparationTime(SetPreparationTime(SetPreparationTime(SetPreparationTime(meals,
      Breakfast, "10 minutes"), Lunch, "12 minutes"), Dinner, "15 minutes"), Snack, "5 minutes")
  }

  /** `update_low_calorie_meals` and `update_high_calorie_meals`. */
  function UpdateLowCalorieMeals(meals: seq<Meal>): (r: seq<Meal>)
    ensures |r| == |meals|
    ensures forall i :: 0 <= i < |r| ==>
      r[i] == if meals[i].mealType in {Breakfast, Dinner} then meals[i].(calories := 400) else meals[i]
  {
    UpdateWhere(meals, (m: Meal) => m.mealType in {Breakfast, Dinner}, (m: Meal) => m.(calories := 400))
  }

  function UpdateHighCalorieMeals(meals: seq<Meal>): (r: seq<Meal>)
    ensures |r| == |meals|
    ensures forall i :: 0 <= i < |r| ==>
      r[i] == if meals[i].mealType in {Lunch, Snack} then meals[i].(calories := 700) else meals[i]
  {
    UpdateWhere(meals, (m: Meal) => m.mealType in {Lunch, Snack}, (m: Meal) => m.(calories := 700))
  }

  /** After both calorie updates every meal has 400 or 700 calories, by type. */
  lemma CalorieUpdatesCoverAllMeals(meals: seq<Meal>)
    ensures var r := UpdateHighCalorieMeals(UpdateLowCalorieMeals(meals));
      forall i :: 0 <= i < |r| ==> r[i].calories == (if meals[i].mealType in {Breakfast, Dinner} then 400 else 700)
  {
    var low := UpdateLowCalorieMeals(meals);
    var r := UpdateHighCalorieMeals(low);
    forall i | 0 <= i < |r|
      ensures r[i].calories == (if meals[i].mealType in {Breakfast, Dinner} then 400 else 700)
    {
      assert low[i].mealType == meals[i].mealType;
    }
  }

  predicate NotLunchOrSnack(m: Meal) { m.mealType !in {Lunch, Snack} }

  /** `delete_lunch_and_snack_meals`: only breakfasts and dinners stay. */
  function DeleteLunchAndSnackMeals(meals: seq<Meal>): (r: seq<Meal>)
    ensures forall x :: x in r <==> x in meals && x.mealType in {Breakfast, Dinner}
  {
    var r := Filter(meals, NotLunchOrSnack);
    assert forall m :: m in r ==> m.mealType != Lunch && m.mealType != Snack;
    r
  }

  /** The chef and preparation-time updates keep every meal's type, so the
      deletion may run before or after them. */
  lemma DeleteMealsCommutesWithUpdates(meals: seq<Meal>)
    ensures DeleteLunchAndSnackMeals(SetNewChefs(meals)) == SetNewChefs(DeleteLunchAndSnackMeals(meals))
    ensures DeleteLunchAndSnackMeals(SetNewPreparationTimes(meals)) == SetNewPreparationTimes(DeleteLunchAndSnackMeals(meals))
  {
    var kept := Filter(meals, NotLunchOrSnack);
    var all := (m: Meal) => true;
    var chefs := (m: Meal) => m.(chef := ChefFor(m.mealType));
    assert SetNewChefs(meals) == UpdateWhere(meals, all, chefs);
    assert SetNewChefs(kept) == UpdateWhere(kept, all, chefs);
    FilterUpdateCommute(meals, NotLunchOrSnack, all, chefs);
    var times := (m: Meal) => m.(preparationTime := PreparationTimeFor(m.mealType));
    assert SetNewPreparationTimes(meals) == UpdateWhere(meals, all, times);
    assert SetNewPreparationTimes(kept) == UpdateWhere(kept, all, times);
    FilterUpdateCommute(meals, NotLunchOrSnack, all, times);
  }

  // ---------------------------------------------------------------------
  // Dungeons

  datatype Difficulty = Easy | Medium | Hard

  datatype Dungeon = Dungeon(id: int, name: string, difficulty: Difficulty, location: string, bossName: string,
                             recommendedLevel: Option<int>, bossHealth: int, reward: string)

  function DungeonLine(d: Dungeon): string {
    d.name + " is guarded by " + d.bossName + " who has " + IntToString(d.bossHealth) + " health points!"
  }

  /** `order_by('-location')`. */
  predicate LocationAfter(a: Dungeon, b: Dungeon) {
    StrLt(b.location, a.location)
  }

  lemma LocationAfterIsStrict()
    ensures StrictOrder(LocationAfter)
  {
    forall a: Dungeon ensures !LocationAfter(a, a) {
      StrLtIrreflexive(a.location);
    }
    forall a: Dungeon, b: Dungeon, c: Dungeon | LocationAfter(a, b) && LocationAfter(b, c)
      ensures LocationAfter(a, c)
    {
      StrLtTransitive(c.location, b.location, a.location);
    }
  }

  /** The hard dungeons, by location descending. */
  function HardDungeons(dungeons: seq<Dungeon>): (r: seq<Dungeon>)
    ensures forall x :: x in r <==> x in dungeons && x.difficulty == Hard
    ensures forall i, j :: 0 <= i < j < |r| ==> !StrLt(r[i].location, r[j].location)
  {
    LocationAfterIsStrict();
    var r := SortBy(Filter(dungeons, (d: Dungeon) => d.difficulty == Hard), LocationAfter);
    assert forall i, j :: 0 <= i < j < |r| ==> !LocationAfter(r[j], r[i]);
    r
  }

  /** `show_hard_dungeons`. */
  function ShowHardDungeons(dungeons: seq<Dungeon>): (s: string)
    ensures |HardDungeons(dungeons)| == 0 ==> s == ""
    ensures |HardDungeons(dungeons)| == 1 ==> s == DungeonLine(HardDungeons(dungeons)[0])
  {
    var hard := HardDungeons(dungeons);
    Join(seq(|hard|, i requires 0 <= i < |hard| => DungeonLine(hard[i])), "\n")
  }

  function NameFor(d: Difficulty): string {
    match d
    case Easy => "The Erased Thombs"
    case Medium => "The Coral Labyrinth"
    case Hard => "The Lost Haunt"
  }

  function LevelFor(d: Difficulty): int {
    match d
    case Easy => 25
    case Medium => 50
    case Hard => 75
  }

  /** `update_dungeon_names`: the `Case` covers every difficulty. */
  function UpdateDungeonNames(dungeons: seq<Dungeon>): (r: seq<Dungeon>)
    ensures |r| == |dungeons|
    ensures forall i :: 0 <= i < |r| ==> r[i].(name := dungeons[i].name) == dungeons[i]
    ensures forall i, j :: 0 <= i < |r| && 0 <= j < |r| ==> (r[i].name == r[j].name <==> dungeons[i].difficulty == dungeons[j].difficulty)
    ensures forall i :: 0 <= i < |r| && dungeons[i].difficulty == Easy ==> r[i].name == "The Erased Thombs"
    ensures forall i :: 0 <= i < |r| && dungeons[i].difficulty == Medium ==> r[i].name == "The Coral Labyrinth"
    ensures forall i :: 0 <= i < |r| && dungeons[i].difficulty == Hard ==> r[i].name == "The Lost Haunt"
  {
    UpdateWhere(dungeons, (d: Dungeon) => true, (d: Dungeon) => d.(name := NameFor(d.difficulty)))
  }

  /** `update_dungeon_bosses_health`: all but the easy dungeons get 500. */
  function UpdateDungeonBossesHealth(dungeons: seq<Dungeon>): (r: seq<Dungeon>)
    ensures |r| == |dungeons|
    ensures forall i :: 0 <= i < |r| ==>
      r[i] == if dungeons[i].difficulty != Easy then dungeons[i].(bossHealth := 500) else dungeons[i]
  {
    UpdateWhere(dungeons, (d: Dungeon) => d.difficulty != Easy, (d: Dungeon) => d.(bossHealth := 500))
  }

  /** `update_dungeon_recommended_levels`. */
  function UpdateDungeonRecommendedLevels(dungeons: seq<Dungeon>): (r: seq<Dungeon>)
    ensures |r| == |dungeons|
    ensures forall i :: 0 <= i < |r| ==> r[i].(recommendedLevel := dungeons[i].recommendedLevel) == dungeons[i]
    ensures forall i :: 0 <= i < |r| ==> r[i].recommendedLevel.Some?
  {
    UpdateWhere(dungeons, (d: Dungeon) => true, (d: Dungeon) => d.(recommendedLevel := Some(LevelFor(d.difficulty))))
  }

  /** One `filter(...).update(reward=...)`. */
  function SetReward(dungeons: seq<Dungeon>, p: Dungeon -> bool, reward: string): (r: seq<Dungeon>)
    ensures |r| == |dungeons|
    ensures forall i :: 0 <= i < |r| ==> r[i] == if p(dungeons[i]) then dungeons[i].(reward := reward) else dungeons[i]
  {
    UpdateWhere(dungeons, p, (d: Dungeon) => d.(reward := reward))
  }

  predicate FullHealth(d: Dungeon) { d.bossHealth == 500 }
  predicate LocationStartsWithE(d: Dungeon) { StartsWith(d.location, "E") }
  predicate LocationEndsWithS(d: Dungeon) { EndsWith(d.location, "s") }

  /** `update_dungeon_rewards`: three updates in turn, so the later ones
      win: a location ending in "s" always gets the amulet, one starting
      with "E" otherwise the unlock, a 500-health boss otherwise the gold;
      any other dungeon keeps its reward, and no other field changes. */
  function UpdateDungeonRewards(dungeons: seq<Dungeon>): (r: seq<Dungeon>)
    ensures |r| == |dungeons|
    ensures forall i :: 0 <= i < |r| ==>
      && r[i].(reward := dungeons[i].reward) == dungeons[i]
      && r[i].reward == (if LocationEndsWithS(dungeons[i]) then "Dragonheart Amulet"
                         else if LocationStartsWithE(dungeons[i]) then "New dungeon unlocked"
                         else if FullHealth(dungeons[i]) then "1000 Gold"
                         else dungeons[i].reward)
  {
    SetReward(SetReward(SetReward(dungeons, FullHealth, "1000 Gold"), LocationStartsWithE, "New dungeon unlocked"),
              LocationEndsWithS, "Dragonheart Amulet")
  }

  /** Run after the boss update, the reward updates give the gold to a
      dungeon whose location neither ends in "s" nor starts with "E" exactly
      when it is not easy, its boss already had 500 health, or it already
      held the gold. */
  lemma BossesThenRewards(dungeons: seq<Dungeon>)
    ensures var r := UpdateDungeonRewards(UpdateDungeonBossesHealth(dungeons));
      forall i :: 0 <= i < |r| && !LocationEndsWithS(dungeons[i]) && !LocationStartsWithE(dungeons[i]) ==>
        (r[i].reward == "1000 Gold" <==>
          dungeons[i].difficulty != Easy || dungeons[i].bossHealth == 500 || dungeons[i].reward == "1000 Gold")
  {
  }

  /** One `filter(recommended_level=...).update(location=...)`. */
  function SetLocation(dungeons: seq<Dungeon>, level: int, location: string): (r: seq<Dungeon>)
    ensures |r| == |dungeons|
    ensures forall i :: 0 <= i < |r| ==>
      r[i] == if dungeons[i].recommendedLevel == Some(level) then dungeons[i].(location := location) else dungeons[i]
  {
    UpdateWhere(dungeons, (d: Dungeon) => d.recommendedLevel == Some(level), (d: Dungeon) => d.(location := location))
  }

  /** `set_new_locations`. */
  function SetNewLocations(dungeons: seq<Dungeon>): (r: seq<Dungeon>)
    ensures |r| == |dungeons|
    ensures forall i :: 0 <= i < |r| ==> r[i].(location := dungeons[i].location) == dungeons[i]
    ensures forall i :: 0 <= i < |r| ==>
      r[i].location == (if dungeons[i].recommendedLevel == Some(25) then "Enchanted Maze"
                        else if dungeons[i].recommendedLevel == Some(50) then "Grimstone Mines"
                        else if dungeons[i].recommendedLevel == Some(75) then "Shadowed Abyss"
                        else dungeons[i].location)
  {
    SetLocation(SetLocation(SetLocation(dungeons, 25, "Enchanted Maze"), 50, "Grimstone Mines"), 75, "Shadowed Abyss")
  }

  function LocationFor(d: Difficulty): string {
    match d
    case Easy => "Enchanted Maze"
    case Medium => "Grimstone Mines"
    case Hard => "Shadowed Abyss"
  }

  /** Setting the recommended levels and then the locations gives every
      dungeon the location of its difficulty. */
  lemma LocationsFollowDifficulty(dungeons: seq<Dungeon>)
    ensures var r := SetNewLocations(UpdateDungeonRecommendedLevels(dungeons));
      forall i :: 0 <= i < |r| ==>
        r[i] == dungeons[i].(recommendedLevel := Some(LevelFor(dungeons[i].difficulty)),
                             location := LocationFor(dungeons[i].difficulty))
  {
  }

  // ---------------------------------------------------------------------
  // Workouts

  datatype WorkoutType = Cardio | Strength | Yoga | CrossFit | Calisthenics

  datatype Workout = Workout(id: int, name: string, workoutType: WorkoutType, duration: Option<string>,
                             difficulty: string, instructor: string)

  /** `order_by('id')`. */
  predicate WorkoutIdBefore(a: Workout, b: Workout) { a.id < b.id }

  /** `order_by('instructor')`. */
  predicate InstructorBefore(a: Workout, b: Workout) { StrLt(a.instructor, b.instructor) }

  lemma InstructorBeforeIsStrict()
    ensures StrictOrder(InstructorBefore)
  {
    forall a: Workout ensures !InstructorBefore(a, a) {
      StrLtIrreflexive(a.instructor);
    }
    forall a: Workout, b: Workout, c: Workout | InstructorBefore(a, b) && InstructorBefore(b, c)
      ensures InstructorBefore(a, c)
    {
      StrLtTransitive(a.instructor, b.instructor, c.instructor);
    }
  }

  /** The workouts `show_workouts` lists: calisthenics and CrossFit, by id. */
  function ShownWorkouts(workouts: seq<Workout>): (r: seq<Workout>)
    ensures forall x :: x in r <==> x in workouts && x.workoutType in {Calisthenics, CrossFit}
    ensures forall i, j :: 0 <= i < j < |r| ==> r[i].id <= r[j].id
  {
    assert StrictOrder(WorkoutIdBefore);
    var r := SortBy(Filter(workouts, (w: Workout) => w.workoutType in {Calisthenics, CrossFit}), WorkoutIdBefore);
    assert forall i, j :: 0 <= i < j < |r| ==> !WorkoutIdBefore(r[j], r[i]);
    r
  }

  function WorkoutTypeName(t: WorkoutType): string {
    match t
    case Cardio => "Cardio"
    case Strength => "Strength"
    case Yoga => "Yoga"
    case CrossFit => "CrossFit"
    case Calisthenics => "Calisthenics"
  }

  function WorkoutLine(w: Workout): string {
    w.name + " from " + WorkoutTypeName(w.workoutType) + " type has " + w.difficulty + " difficulty!"
  }

  /** `show_workouts`. */
  function ShowWorkouts(workouts: seq<Workout>): (s: string)
    ensures |ShownWorkouts(workouts)| == 0 ==> s == ""
    ensures |ShownWorkouts(workouts)| == 1 ==> s == WorkoutLine(ShownWorkouts(workouts)[0])
  {
    var shown := ShownWorkouts(workouts);
    Join(seq(|shown|, i requires 0 <= i < |shown| => WorkoutLine(shown[i])), "\n")
  }

  /** `get_high_difficulty_cardio_workouts`: by instructor name. */
  function GetHighDifficultyCardioWorkouts(workouts: seq<Workout>): (r: seq<Workout>)
    ensures forall x :: x in r <==> x in workouts && x.workoutType == Cardio && x.difficulty == "High"
    ensures forall i, j :: 0 <= i < j < |r| ==> !StrLt(r[j].instructor, r[i].instructor)
  {
    InstructorBeforeIsStrict();
    var r := SortBy(Filter(workouts, (w: Workout) => w.workoutType == Cardio && w.difficulty == "High"), InstructorBefore);
    assert forall i, j :: 0 <= i < j < |r| ==> !InstructorBefore(r[j], r[i]);
    r
  }

  function InstructorFor(t: WorkoutType): string {
    match t
    case Cardio => "John Smith"
    case Strength => "Michael Williams"
    case Yoga => "Emily Johnson"
    case CrossFit => "Sarah Davis"
    case Calisthenics => "Chris Heria"
  }

  /** The `Case` of `set_new_duration_times`, on the instructor's name. */
  function DurationFor(instructor: string): Option<string> {
    if instructor == "John Smith" then Some("15 minutes")
    else if instructor == "Sarah Davis" then Some("30 minutes")
    else if instructor == "Chris Heria" then Some("45 minutes")
    else if instructor == "Michael Williams" then Some("1 hour")
    else if instructor == "Emily Johnson" then Some("1 hour and 30 minutes")
    else None
  }

  /** `set_new_instructors`: the `Case` covers every workout type. */
  function SetNewInstructors(workouts: seq<Workout>): (r: seq<Workout>)
    ensures |r| == |workouts|
    ensures forall i :: 0 <= i < |r| ==> r[i].(instructor := workouts[i].instructor) == workouts[i]
    ensures forall i, j :: 0 <= i < |r| && 0 <= j < |r| ==>
      (r[i].instructor == r[j].instructor <==> workouts[i].workoutType == workouts[j].workoutType)
    ensures forall i :: 0 <= i < |r| && workouts[i].workoutType == Cardio ==> r[i].instructor == "John Smith"
    ensures forall i :: 0 <= i < |r| && workouts[i].workoutType == Strength ==> r[i].instructor == "Michael Williams"
    ensures forall i :: 0 <= i < |r| && workouts[i].workoutType == Yoga ==> r[i].instructor == "Emily Johnson"
    ensures forall i :: 0 <= i < |r| && workouts[i].workoutType == CrossFit ==> r[i].instructor == "Sarah Davis"
    ensures forall i :: 0 <= i < |r| && workouts[i].workoutType == Calisthenics ==> r[i].instructor == "Chris Heria"
  {
    UpdateWhere(workouts, (w: Workout) => true, (w: Workout) => w.(instructor := InstructorFor(w.workoutType)))
  }

  /** `set_new_duration_times`: an instructor outside the five gets NULL. */
  function SetNewDurationTimes(workouts: seq<Workout>): (r: seq<Workout>)
    ensures |r| == |workouts|
    ensures forall i :: 0 <= i < |r| ==> r[i].(duration := workouts[i].duration) == workouts[i]
    ensures forall i :: 0 <= i < |r| ==> (r[i].duration.None? <==>
      workouts[i].instructor !in {"John Smith", "Sarah Davis", "Chris Heria", "Michael Williams", "Emily Johnson"})
  {
    UpdateWhere(workouts, (w: Workout) => true, (w: Workout) => w.(duration := DurationFor(w.instructor)))
  }

  function DurationOfType(t: WorkoutType): string {
    match t
    case Cardio => "15 minutes"
    case Strength => "1 hour"
    case Yoga => "1 hour and 30 minutes"
    case CrossFit => "30 minutes"
    case Calisthenics => "45 minutes"
  }

  /** New instructors, then new durations: every workout's duration is set,
      and depends on its type alone. */
  lemma DurationFollowsType(workouts: seq<Workout>)
    ensures var r := SetNewDurationTimes(SetNewInstructors(workouts));
      forall i :: 0 <= i < |r| ==> r[i].duration == Some(DurationOfType(workouts[i].workoutType))
  {
  }

  predicate StrengthOrCalisthenics(w: Workout) { w.workoutType in {Strength, Calisthenics} }

  /** `delete_workouts`: only strength and calisthenics rows stay. */
  function DeleteWorkouts(workouts: seq<Workout>): (r: seq<Workout>)
    ensures forall x :: x in r <==> x in workouts && x.workoutType in {Strength, Calisthenics}
  {
    Filter(workouts, StrengthOrCalisthenics)
  }

  /** The instructor and duration updates keep every workout's type, so the
      deletion may run before or after them. */
  lemma DeleteWorkoutsCommutesWithUpdates(workouts: seq<Workout>)
    ensures DeleteWorkouts(SetNewInstructors(workouts)) == SetNewInstructors(DeleteWorkouts(workouts))
    ensures DeleteWorkouts(SetNewDurationTimes(workouts)) == SetNewDurationTimes(DeleteWorkouts(workouts))
  {
    var kept := Filter(workouts, StrengthOrCalisthenics);
    var all := (w: Workout) => true;
    var instructors := (w: Workout) => w.(instructor := InstructorFor(w.workoutType));
    assert SetNewInstructors(workouts) == UpdateWhere(workouts, all, instructors);
    assert SetNewInstructors(kept) == UpdateWhere(kept, all, instructors);
    FilterUpdateCommute(workouts, StrengthOrCalisthenics, all, instructors);
    var durations := (w: Workout) => w.(duration := DurationFor(w.instructor));
    assert SetNewDurationTimes(workouts) == UpdateWhere(workouts, all, durations);
    assert SetNewDurationTimes(kept) == UpdateWhere(kept, all, durations);
    FilterUpdateCommute(workouts, StrengthOrCalisthenics, all, durations);
  }
}

=== FILE: relation_exercises.dfy ===
/** Queries across related tables: authors and books, artists and songs,
    products and reviews, drivers and licences, owners, cars and
    registrations (Django_Models_Relations_Exercises/caller.py).
    A foreign key is the referenced row's id; a many-to-many relation is the
    set of linked id pairs. Dates are day numbers (see Dates). */
module RelationExercises {
  import opened Wrappers
  import opened Text
  import opened Tables
  import Dates

  // ---------------------------------------------------------------------
  // Looking rows up

  /** `objects.get(...)`: the one row `p` accepts; DoesNotExist when there is
      none, MultipleObjectsReturned when there are several. */
  function GetUnique<R(!new)>(t: seq<R>, p: R -> bool): (r: Result<R>)
    ensures r.Ok? ==> r.value in t && p(r.value)
    ensures r.Ok? ==> forall x :: x in t && p(x) ==> x == r.value
    ensures r.Err? && r.error.kind == DoesNotExist <==> forall x :: x in t ==> !p(x)
    ensures r.Err? ==> r.error.kind in {DoesNotExist, MultipleObjectsReturned}
  {
    var matches := Filter(t, p);
    if |matches| == 0 then
      Err(Error(DoesNotExist, "matching query does not exist."))
    else if |matches| > 1 then
      assert matches[0] in matches;
      Err(Error(MultipleObjectsReturned, "get() returned more than one object"))
    else
      assert matches[0] in matches;
      assert forall x :: x in matches ==> x == matches[0];
      Ok(matches[0])
  }

  // ---------------------------------------------------------------------
  // Authors and books

  datatype Author = Author(id: int, name: string)

  datatype Book = Book(id: int, title: string, authorId: int)

  predicate HasBooks(books: seq<Book>, a: Author) {
    exists b :: b in books && b.authorId == a.id
  }

  function TitlesOf(books: seq<Book>, a: Author): (titles: seq<string>)
    ensures |titles| > 0 <==> HasBooks(books, a)
  {
    var own := Filter(books, (b: Book) => b.authorId == a.id);
    if |own| > 0 then assert own[0] in own; seq(|own|, i requires 0 <= i < |own| => own[i].title)
    else []
  }

  predicate AuthorIdBefore(a: Author, b: Author) { a.id < b.id }

  /** The authors `show_all_authors_with_their_books` lists: those with a
      book, by id. */
  function AuthorsWithBooks(authors: seq<Author>, books: seq<Book>): (r: seq<Author>)
    ensures forall a :: a in r <==> a in authors && HasBooks(books, a)
    ensures forall i, j :: 0 <= i < j < |r| ==> r[i].id <= r[j].id
  {
    assert StrictOrder(AuthorIdBefore);
    var sorted := SortBy(authors, AuthorIdBefore);
    var r := Filter(sorted, (a: Author) => HasBooks(books, a));
    FilterKeepsOrder(sorted, (a: Author) => HasBooks(books, a), AuthorIdBefore);
    assert forall i, j :: 0 <= i < j < |r| ==> !AuthorIdBefore(r[j], r[i]);
    r
  }

  function AuthorLine(books: seq<Book>, a: Author): string {
    a.name + " has written - " + Join(TitlesOf(books, a), ", ") + "!"
  }

  /** `show_all_authors_with_their_books`. */
  function ShowAllAuthorsWithTheirBooks(authors: seq<Author>, books: seq<Book>): (s: string)
    ensures (forall a :: a in authors ==> !HasBooks(books, a)) ==> s == ""
  {
    var listed := AuthorsWithBooks(authors, books);
    if |listed| > 0 then
      assert listed[0] in listed;
      Join(seq(|listed|, i requires 0 <= i < |listed| => AuthorLine(books, listed[i])), "\n")
    else Join([], "\n")
  }

  /** `delete_all_authors_without_books`. */
  function DeleteAllAuthorsWithoutBooks(authors: seq<Author>, books: seq<Book>): (r: seq<Author>)
    ensures forall a :: a in r <==> a in authors && HasBooks(books, a)
  {
    Filter(authors, (a: Author) => HasBooks(books, a))
  }

  /** Deleting the authors without books keeps every book's author. */
  lemma DeletingOrphanAuthorsKeepsBookAuthors(authors: seq<Author>, books: seq<Book>, b: Book, a: Author)
    requires b in books && a in authors && a.id == b.authorId
    ensures a in DeleteAllAuthorsWithoutBooks(authors, books)
  {
  }

  // ---------------------------------------------------------------------
  // Artists and songs

  datatype Artist = Artist(id: int, name: string)

  datatype Song = Song(id: int, title: string)

  /** Rows of the artist-song link table, as (artist id, song id). */
  type Links = set<(int, int)>

  function ArtistNamed(artists: seq<Artist>, name: string): (r: Result<Artist>)
    ensures r.Ok? ==> r.value in artists && r.value.name == name
  {
    GetUnique(artists, (a: Artist) => a.name == name)
  }

  function SongTitled(songs: seq<Song>, title: string): (r: Result<Song>)
    ensures r.Ok? ==> r.value in songs && r.value.title == title
  {
    GetUnique(songs, (s: Song) => s.title == title)
  }

  /** `add_song_to_artist`: links the one artist and the one song named. */
  function AddSongToArtist(artists: seq<Artist>, songs: seq<Song>, links: Links, artistName: string, songTitle: string): (r: Result<Links>)
    ensures r.Ok? <==> ArtistNamed(artists, artistName).Ok? && SongTitled(songs, songTitle).Ok?
    ensures r.Ok? ==> links <= r.value && |r.value - links| <= 1
  {
    var artist :- ArtistNamed(artists, artistName);
    var song :- SongTitled(songs, songTitle);
    Ok(links + {(artist.id, song.id)})
  }

  /** `remove_song_from_artist`. */
  function RemoveSongFromArtist(artists: seq<Artist>, songs: seq<Song>, links: Links, artistName: string, songTitle: string): (r: Result<Links>)
    ensures r.Ok? <==> ArtistNamed(artists, artistName).Ok? && SongTitled(songs, songTitle).Ok?
    ensures r.Ok? ==> r.value <= links && |links - r.value| <= 1
  {
    var artist :- ArtistNamed(artists, artistName);
    var song :- SongTitled(songs, songTitle);
    Ok(links - {(artist.id, song.id)})
  }

  /** Adding and then removing the same song leaves the link table as it
      was, unless the link was already there. */
  lemma AddThenRemove(artists: seq<Artist>, songs: seq<Song>, links: Links, artistName: string, songTitle: string)
    requires AddSongToArtist(artists, songs, links, artistName, songTitle).Ok?
    ensures var added := AddSongToArtist(artists, songs, links, artistName, songTitle).value;
      var removed := RemoveSongFromArtist(artists, songs, added, artistName, songTitle);
      removed.Ok? && removed.value <= links && (added != links ==> removed.value == links)
  {
  }

  predicate SongIdAfter(a: Song, b: Song) { a.id > b.id }

  /** `get_songs_by_artist`: the artist's songs, by id descending. */
  function GetSongsByArtist(artists: seq<Artist>, songs: seq<Song>, links: Links, artistName: string): (r: Result<seq<Song>>)
    ensures r.Ok? <==> ArtistNamed(artists, artistName).Ok?
    ensures r.Ok? ==> forall s :: s in r.value <==>
      s in songs && (ArtistNamed(artists, artistName).value.id, s.id) in links
    ensures r.Ok? ==> forall i, j :: 0 <= i < j < |r.value| ==> r.value[i].id >= r.value[j].id
  {
    var artist :- ArtistNamed(artists, artistName);
    assert StrictOrder(SongIdAfter);
    var r := SortBy(Filter(songs, (s: Song) => (artist.id, s.id) in links), SongIdAfter);
    assert forall i, j :: 0 <= i < j < |r| ==> !SongIdAfter(r[j], r[i]);
    Ok(r)
  }

  // ---------------------------------------------------------------------
  // Products and reviews

  datatype Product = Product(id: int, name: string)

  datatype Review = Review(id: int, description: string, rating: int, productId: int)

  function ReviewRating(x: Review): int {
    x.rating
  }

  function ProductNamed(products: seq<Product>, name: string): (r: Result<Product>)
    ensures r.Ok? ==> r.value in products && r.value.name == name
  {
    GetUnique(products, (p: Product) => p.name == name)
  }

  function ReviewsOf(reviews: seq<Review>, p: Product): (r: seq<Review>)
    ensures forall x :: x in r <==> x in reviews && x.productId == p.id
  {
    Filter(reviews, (x: Review) => x.productId == p.id)
  }

  /** `calculate_average_rating_for_product_by_name`: the mean rating of the
      named product's reviews, a ZeroDivisionError when it has none. */
  function CalculateAverageRating(products: seq<Product>, reviews: seq<Review>, name: string): (r: Result<real>)
    ensures ProductNamed(products, name).Err? ==> r == ProductNamed(products, name).PropagateFailure()
    ensures ProductNamed(products, name).Ok? ==>
      var rs := ReviewsOf(reviews, ProductNamed(products, name).value);
      && (r.Err? <==> |rs| == 0)
      && (r.Err? ==> r.error.kind == ZeroDivisionError)
      && (r.Ok? ==> r.value == Mean(Sum(Column(rs, ReviewRating)), |rs|))
  {
    var product :- ProductNamed(products, name);
    var rs := ReviewsOf(reviews, product);
    if |rs| == 0 then Err(Error(ZeroDivisionError, "division by zero"))
    else
      Ok(Mean(Sum(Column(rs, ReviewRating)), |rs|))
  }

  /** The average lies between the lowest and the highest rating. */
  lemma AverageWithinRatings(products: seq<Product>, reviews: seq<Review>, name: string, lo: int, hi: int)
    requires forall x :: x in reviews ==> lo <= x.rating <= hi
    ensures CalculateAverageRating(products, reviews, name).Ok? ==>
      lo as real <= CalculateAverageRating(products, reviews, name).value <= hi as real
  {
    if CalculateAverageRating(products, reviews, name).Err? {
      return;
    }
    var product := ProductNamed(products, name).value;
    var rs := ReviewsOf(reviews, product);
    var ratings := Column(rs, ReviewRating);
    assert forall x :: x in ratings ==> lo <= x <= hi by {
      forall x | x in ratings ensures lo <= x <= hi {
        var i :| 0 <= i < |ratings| && ratings[i] == x;
        assert rs[i] in rs;
      }
    }
    SumBounds(ratings, lo, hi);
    MeanBounds(Sum(ratings), |rs|, lo, hi);
  }

  /** `get_reviews_with_high_ratings`: the threshold itself qualifies. */
  function GetReviewsWithHighRatings(reviews: seq<Review>, threshold: int): (r: seq<Review>)
    ensures forall x :: x in r <==> x in reviews && x.rating >= threshold
  {
    Filter(reviews, (x: Review) => x.rating >= threshold)
  }

  /** Raising the threshold only drops reviews. */
  lemma HigherThresholdKeepsFewer(reviews: seq<Review>, low: int, high: int)
    requires low <= high
    ensures forall x :: x in GetReviewsWithHighRatings(reviews, high) ==> x in GetReviewsWithHighRatings(reviews, low)
    ensures forall x :: x in GetReviewsWithHighRatings(reviews, low) && x.rating >= high ==>
      x in GetReviewsWithHighRatings(reviews, high)
  {
  }

  predicate HasReviews(reviews: seq<Review>, p: Product) {
    exists x :: x in reviews && x.productId == p.id
  }

  predicate NameAfter(a: Product, b: Product) { StrLt(b.name, a.name) }

  lemma NameAfterIsStrict()
    ensures StrictOrder(NameAfter)
  {
    forall a: Product ensures !NameAfter(a, a) {
      StrLtIrreflexive(a.name);
    }
    forall a: Product, b: Product, c: Product | NameAfter(a, b) && NameAfter(b, c)
      ensures NameAfter(a, c)
    {
      StrLtTransitive(c.name, b.name, a.name);
    }
  }

  /** `get_products_with_no_reviews`: by name descending. */
  function GetProductsWithNoReviews(products: seq<Product>, reviews: seq<Review>): (r: seq<Product>)
    ensures forall p :: p in r <==> p in products && !HasReviews(reviews, p)
    ensures forall i, j :: 0 <= i < j < |r| ==> !StrLt(r[i].name, r[j].name)
  {
    NameAfterIsStrict();
    var r := SortBy(Filter(products, (p: Product) => !HasReviews(reviews, p)), NameAfter);
    assert forall i, j :: 0 <= i < j < |r| ==> !NameAfter(r[j], r[i]);
    r
  }

  /** `delete_products_without_reviews`. */
  function DeleteProductsWithoutReviews(products: seq<Product>, reviews: seq<Review>): (r: seq<Product>)
    ensures forall p :: p in r <==> p in products && HasReviews(reviews, p)
  {
    Filter(products, (p: Product) => HasReviews(reviews, p))
  }

  /** The deletion and the listing split the products between them. */
  lemma OrphanProductsPartition(products: seq<Product>, reviews: seq<Review>, p: Product)
    requires p in products
    ensures p in DeleteProductsWithoutReviews(products, reviews) <==> p !in GetProductsWithNoReviews(products, reviews)
  {
  }

  // ---------------------------------------------------------------------
  // Drivers and licences

  datatype Driver = Driver(id: int, firstName: string, lastName: string)

  datatype DrivingLicense = DrivingLicense(id: int, licenseNumber: string, issueDate: int, driverId: int)

  const LicenseValidityDays: int := 365

  function LicenseLine(l: DrivingLicense, expiry: int): string
    requires Dates.InRange(expiry)
  {
    "License with number: " + l.licenseNumber + " expires on " + Dates.IsoFormat(expiry) + "!"
  }

  /** A report line breaks only where the licence number does. */
  lemma LicenseLineHasNoNewline(l: DrivingLicense, expiry: int)
    requires Dates.InRange(expiry) && '\n' !in l.licenseNumber
    ensures '\n' !in LicenseLine(l, expiry)
  {
    var date := Dates.IsoFormat(expiry);
    forall k | 0 <= k < |date| ensures date[k] != '\n' {
      assert IsDigitChar(date[k]) || date[k] == '-';
    }
    var head := "License with number: " + l.licenseNumber;
    CharNotInConcat('\n', "License with number: ", l.licenseNumber);
    CharNotInConcat('\n', head, " expires on ");
    CharNotInConcat('\n', head + " expires on ", date);
    CharNotInConcat('\n', head + " expires on " + date, "!");
  }

  /** Expiry dates for licences in the given order; the first one past
      9999-12-31 raises OverflowError. */
  function ExpiryDates(licenses: seq<DrivingLicense>): (r: Result<seq<int>>)
    ensures r.Ok? <==> forall i :: 0 <= i < |licenses| ==> Dates.InRange(licenses[i].issueDate + LicenseValidityDays)
    ensures r.Ok? ==> |r.value| == |licenses|
    ensures r.Ok? ==> forall i :: 0 <= i < |licenses| ==> r.value[i] == licenses[i].issueDate + LicenseValidityDays
    ensures r.Err? ==> r.error.kind == OverflowError
  {
    if |licenses| == 0 then Ok([])
    else
      var expiry :- Dates.AddDays(licenses[0].issueDate, LicenseValidityDays);
      var later := licenses[1..];
      assert forall i :: 1 <= i < |licenses| ==> licenses[i] == later[i - 1];
      var rest :- ExpiryDates(later);
      Ok([expiry] + rest)
  }

  predicate LicenseNumberAfter(a: DrivingLicense, b: DrivingLicense) { StrLt(b.licenseNumber, a.licenseNumber) }

  lemma LicenseNumberAfterIsStrict()
    ensures StrictOrder(LicenseNumberAfter)
  {
    forall a: DrivingLicense ensures !LicenseNumberAfter(a, a) {
      StrLtIrreflexive(a.licenseNumber);
    }
    forall a: DrivingLicense, b: DrivingLicense, c: DrivingLicense | LicenseNumberAfter(a, b) && LicenseNumberAfter(b, c)
      ensures LicenseNumberAfter(a, c)
    {
      StrLtTransitive(c.licenseNumber, b.licenseNumber, a.licenseNumber);
    }
  }

  /** Licences by number descending. */
  function LicensesByNumber(licenses: seq<DrivingLicense>): (r: seq<DrivingLicense>)
    ensures multiset(r) == multiset(licenses)
    ensures forall i, j :: 0 <= i < j < |r| ==> !StrLt(r[i].licenseNumber, r[j].licenseNumber)
  {
    LicenseNumberAfterIsStrict();
    var r := SortBy(licenses, LicenseNumberAfter);
    assert forall i, j :: 0 <= i < j < |r| ==> !LicenseNumberAfter(r[j], r[i]);
    r
  }

  /** The report line of each licence in `sorted`, in that order. */
  function ExpiryLines(sorted: seq<DrivingLicense>): (lines: seq<string>)
    requires forall i :: 0 <= i < |sorted| ==> Dates.InRange(sorted[i].issueDate + LicenseValidityDays)
    ensures |lines| == |sorted|
    ensures forall i :: 0 <= i < |sorted| ==> lines[i] == LicenseLine(sorted[i], sorted[i].issueDate + LicenseValidityDays)
  {
    seq(|sorted|, i requires 0 <= i < |sorted| => LicenseLine(sorted[i], sorted[i].issueDate + LicenseValidityDays))
  }

  /** `calculate_licenses_expiration_dates`: the lines of the licences by
      number descending, joined with newlines. */
  function CalculateLicensesExpirationDates(licenses: seq<DrivingLicense>): (r: Result<string>)
    ensures r.Ok? <==> forall l :: l in licenses ==> Dates.InRange(l.issueDate + LicenseValidityDays)
    ensures |licenses| == 0 ==> r == Ok("")
    ensures r.Ok? ==> r.value == Join(ExpiryLines(LicensesByNumber(licenses)), "\n")
  {
    var sorted := LicensesByNumber(licenses);
    SameRows(licenses, sorted);
    var _ :- ExpiryDates(sorted);
    Ok(Join(ExpiryLines(sorted), "\n"))
  }

  /** When no licence number holds a newline, splitting the report on
      newlines gives one line per licence, by number descending, each naming
      its licence and the date 365 days after issue. */
  lemma ReportHasOneLinePerLicense(licenses: seq<DrivingLicense>)
    requires CalculateLicensesExpirationDates(licenses).Ok? && |licenses| > 0
    requires forall l :: l in licenses ==> '\n' !in l.licenseNumber
    ensures var lines := Split(CalculateLicensesExpirationDates(licenses).value, '\n');
      && |lines| == |licenses|
      && forall i :: 0 <= i < |lines| ==>
        lines[i] == LicenseLine(LicensesByNumber(licenses)[i], LicensesByNumber(licenses)[i].issueDate + LicenseValidityDays)
  {
    var sorted := LicensesByNumber(licenses);
    SameRows(licenses, sorted);
    ExpiryLinesHaveNoNewline(sorted);
    var lines := ExpiryLines(sorted);
    assert "\n" == ['\n'];
    SplitJoin(lines, '\n');
  }

  lemma ExpiryLinesHaveNoNewline(sorted: seq<DrivingLicense>)
    requires forall i :: 0 <= i < |sorted| ==> Dates.InRange(sorted[i].issueDate + LicenseValidityDays)
    requires forall i :: 0 <= i < |sorted| ==> '\n' !in sorted[i].licenseNumber
    ensures forall i :: 0 <= i < |sorted| ==> '\n' !in ExpiryLines(sorted)[i]
  {
    forall i | 0 <= i < |sorted| ensures '\n' !in ExpiryLines(sorted)[i] {
      LicenseLineHasNoNewline(sorted[i], sorted[i].issueDate + LicenseValidityDays);
    }
  }

  /** The driver holds a licence issued before `latest`. */
  predicate LicensedBefore(licenses: seq<DrivingLicense>, d: Driver, latest: int) {
    exists l :: l in licenses && l.driverId == d.id && l.issueDate < latest
  }

  /** The driver holds a licence that expired before `due`. */
  predicate LicenseExpiredBy(licenses: seq<DrivingLicense>, d: Driver, due: int) {
    exists l :: l in licenses && l.driverId == d.id && l.issueDate + LicenseValidityDays < due
  }

  /** `get_drivers_with_expired_licenses`: `due_date - timedelta(365)` may
      overflow; otherwise exactly the drivers whose licence expired before
      the due date. */
  function GetDriversWithExpiredLicenses(drivers: seq<Driver>, licenses: seq<DrivingLicense>, due: int): (r: Result<seq<Driver>>)
    ensures r.Ok? <==> Dates.InRange(due - LicenseValidityDays)
    ensures r.Ok? ==> forall d :: d in r.value <==> d in drivers && LicenseExpiredBy(licenses, d, due)
  {
    var latest :- Dates.AddDays(due, -LicenseValidityDays);
    var r := Filter(drivers, (d: Driver) => LicensedBefore(licenses, d, latest));
    assert forall d :: LicensedBefore(licenses, d, latest) <==> LicenseExpiredBy(licenses, d, due);
    Ok(r)
  }

  // ---------------------------------------------------------------------
  // Owners, cars and registrations

  datatype Owner = Owner(id: int, name: string)

  datatype Car = Car(id: int, model: string, year: int, ownerId: Option<int>, registrationId: Option<int>)

  datatype Registration = Registration(id: int, registrationNumber: string, registrationDate: Option<int>, carId: Option<int>)

  function CarId(c: Car): int { c.id }

  function RegistrationId(g: Registration): int { g.id }

  /** `first()` of a non-empty table ordered by primary key. */
  function LowestId<R>(t: seq<R>, id: R -> int): (r: R)
    requires |t| > 0
    ensures r in t
    ensures forall x :: x in t ==> id(r) <= id(x)
  {
    if |t| == 1 then t[0]
    else
      var rest := LowestId(t[1..], id);
      assert t == [t[0]] + t[1..];
      if id(t[0]) < id(rest) then t[0] else rest
  }

  /** Cars without a registration, and registrations without a car. */
  function FreeCars(cars: seq<Car>): (r: seq<Car>)
    ensures forall c :: c in r <==> c in cars && c.registrationId.None?
  {
    Filter(cars, (c: Car) => c.registrationId.None?)
  }

  function FreeRegistrations(registrations: seq<Registration>): (r: seq<Registration>)
    ensures forall g :: g in r <==> g in registrations && g.carId.None?
  {
    Filter(registrations, (g: Registration) => g.carId.None?)
  }

  /** Writes a row back over the rows with its id. */
  function SaveCar(cars: seq<Car>, c: Car): (r: seq<Car>)
    ensures |r| == |cars|
    ensures forall i :: 0 <= i < |r| ==> r[i] == if cars[i].id == c.id then c else cars[i]
  {
    UpdateWhere(cars, (x: Car) => x.id == c.id, (x: Car) => c)
  }

  function SaveRegistration(registrations: seq<Registration>, g: Registration): (r: seq<Registration>)
    ensures |r| == |registrations|
    ensures forall i :: 0 <= i < |r| ==> r[i] == if registrations[i].id == g.id then g else registrations[i]
  {
    UpdateWhere(registrations, (x: Registration) => x.id == g.id, (x: Registration) => g)
  }

  const NoCarMessage: string := "'NoneType' object has no attribute 'owner'"
  const NoRegistrationMessage: string := "'NoneType' object has no attribute 'registration_date'"

  /** What `register_car_by_owner` leaves behind: both tables, and the
      message or the exception it ended with. */
  datatype Outcome = Outcome(cars: seq<Car>, registrations: seq<Registration>, result: Result<string>)

  /** `register_car_by_owner`: links the first free car and the first free
      registration both ways, sets the owner and dates the registration
      `today`. Without a free car nothing changes; without a free
      registration the car is still saved, owned and unregistered, before
      the attribute access on None raises. */
  function RegisterCarByOwner(cars: seq<Car>, registrations: seq<Registration>, owner: Owner, today: int): (o: Outcome)
    ensures o.result.Ok? <==> |FreeCars(cars)| > 0 && |FreeRegistrations(registrations)| > 0
    ensures |FreeCars(cars)| == 0 ==> o == Outcome(cars, registrations, Err(Error(AttributeError, NoCarMessage)))
    ensures |FreeCars(cars)| > 0 && |FreeRegistrations(registrations)| == 0 ==>
      var car := LowestId(FreeCars(cars), CarId);
      o == Outcome(SaveCar(cars, car.(ownerId := Some(owner.id))), registrations,
                   Err(Error(AttributeError, NoRegistrationMessage)))
    ensures o.result.Ok? ==>
      var car := LowestId(FreeCars(cars), CarId);
      var g := LowestId(FreeRegistrations(registrations), RegistrationId);
      && o.cars == SaveCar(cars, car.(ownerId := Some(owner.id), registrationId := Some(g.id)))
      && o.registrations == SaveRegistration(registrations, g.(registrationDate := Some(today), carId := Some(car.id)))
      && o.result.value == "Successfully registered " + car.model + " to " + owner.name + " with registration number " + g.registrationNumber + "."
  {
    var free := FreeCars(cars);
    if |free| == 0 then Outcome(cars, registrations, Err(Error(AttributeError, NoCarMessage)))
    else
      var car := LowestId(free, CarId);
      var freeRegistrations := FreeRegistrations(registrations);
      if |freeRegistrations| == 0 then
        Outcome(SaveCar(cars, car.(ownerId := Some(owner.id))), registrations,
                Err(Error(AttributeError, NoRegistrationMessage)))
      else
        var g := LowestId(freeRegistrations, RegistrationId);
        var linkedCar := car.(ownerId := Some(owner.id), registrationId := Some(g.id));
        Outcome(SaveCar(cars, linkedCar),
                SaveRegistration(registrations, g.(registrationDate := Some(today), carId := Some(car.id))),
                Ok("Successfully registered " + car.model + " to " + owner.name + " with registration number " + g.registrationNumber + "."))
  }

  /** After a successful registration the car and the registration point at
      each other, and the car belongs to the owner. */
  lemma RegistrationLinksBothWays(cars: seq<Car>, registrations: seq<Registration>, owner: Owner, today: int)
    requires RegisterCarByOwner(cars, registrations, owner, today).result.Ok?
    ensures var o := RegisterCarByOwner(cars, registrations, owner, today);
      exists i, j :: 0 <= i < |o.cars| && 0 <= j < |o.registrations|
        && o.cars[i].registrationId == Some(o.registrations[j].id)
        && o.registrations[j].carId == Some(o.cars[i].id)
        && o.cars[i].ownerId == Some(owner.id)
        && o.registrations[j].registrationDate == Some(today)
  {
    var o := RegisterCarByOwner(cars, registrations, owner, today);
    var car := LowestId(FreeCars(cars), CarId);
    var g := LowestId(FreeRegistrations(registrations), RegistrationId);
    var i :| 0 <= i < |cars| && cars[i] == car;
    var j :| 0 <= j < |registrations| && registrations[j] == g;
    assert o.cars[i] == car.(ownerId := Some(owner.id), registrationId := Some(g.id));
    assert o.registrations[j] == g.(registrationDate := Some(today), carId := Some(car.id));
  }
}

=== FILE: student_queries.dfy ===
/** The student queries of the query lab
    (Data_Operations_In_Django_With_Queries_Lab/caller.py): listing the
    students, rewriting every e-mail domain, emptying the table. */
module StudentQueries {
  import opened Wrappers
  import opened Text

  datatype Student = Student(studentId: string, firstName: string, lastName: string, birthDate: Option<int>, email: string)

  function StudentLine(s: Student): string {
    "Student №" + s.studentId + ": " + s.firstName + " " + s.lastName + "; Email: " + s.email
  }

  /** `get_students_info`: one line per student, in table order. */
  function GetStudentsInfo(students: seq<Student>): (info: string)
    ensures |students| == 0 ==> info == ""
    ensures |students| == 1 ==> info == StudentLine(students[0])
    ensures |students| > 0 ==> StartsWith(info, "Student №" + students[0].studentId + ": ")
  {
    var lines := seq(|students|, i requires 0 <= i < |students| => StudentLine(students[i]));
    var info := Join(lines, "\n");
    if |students| > 0 then
      var prefix := "Student №" + students[0].studentId + ": ";
      assert StartsWith(lines[0], prefix) by {
        assert lines[0][..|prefix|] == prefix;
      }
      JoinStartsWith(lines, "\n", prefix);
      info
    else info
  }

  const NewDomain: string := "uni-students.com"

  /** `email.replace(email.split('@')[1], 'uni-students.com')`: every
      occurrence of the text between the first and the second '@' is
      replaced, anywhere in the address; no '@' is an IndexError. */
  function RewriteEmail(email: string): (r: Result<string>)
    ensures r.Err? <==> '@' !in email
    ensures r.Err? ==> r.error.kind == IndexError
    ensures r.Ok? ==> |Split(email, '@')| > 1 && r.value == Replace(email, Split(email, '@')[1], NewDomain)
  {
    var domain :- SecondField(email, '@');
    Ok(Replace(email, domain, NewDomain))
  }

  /** An address `local@domain` whose local part does not contain the domain
      becomes `local@uni-students.com`. */
  lemma RewriteKeepsLocalPart(local: string, domain: string)
    requires '@' !in local && '@' !in domain && |domain| > 0
    requires !Contains(local, domain)
    ensures RewriteEmail(local + "@" + domain) == Ok(local + "@" + NewDomain)
  {
    var email := local + "@" + domain;
    assert email == local + ['@'] + domain;
    assert IndexOf(email, '@') == Some(|local|) by {
      assert email[|local|] == '@';
      assert email[..|local|] == local;
    }
    assert email[|local| + 1..] == domain;
    ReplaceLastField(local, '@', domain, NewDomain);
  }

  /** The domain is replaced everywhere, not only after the '@': an address
      whose local part is the domain itself loses both. */
  lemma RewriteReplacesLocalPartToo(domain: string)
    requires '@' !in domain && |domain| > 0
    ensures RewriteEmail(domain + "@" + domain) == Ok(NewDomain + "@" + NewDomain)
  {
    var n := |domain|;
    var email := domain + "@" + domain;
    assert email == domain + ['@'] + domain;
    assert IndexOf(email, '@') == Some(n) by {
      assert email[n] == '@';
      assert email[..n] == domain;
    }
    assert email[n + 1..] == domain;
    assert FirstField(domain, '@') == domain;
    var tail := ['@'] + domain;
    assert email[..n] == domain && email[n..] == tail;
    ReplaceHit(email, domain, NewDomain);
    assert tail[..n] != domain by {
      assert tail[..n][0] == '@';
    }
    ReplaceMiss(tail, domain, NewDomain);
    assert tail[1..] == domain;
    assert domain[..n] == domain && domain[n..] == [];
    ReplaceHit(domain, domain, NewDomain);
    assert ReplaceNonEmpty([], domain, NewDomain) == [];
    assert SecondField(email, '@') == Ok(domain);
    assert ReplaceNonEmpty(email, domain, NewDomain) == NewDomain + (['@'] + (NewDomain + []));
    assert Replace(email, domain, NewDomain) == NewDomain + "@" + NewDomain;
    assert RewriteEmail(email) == Ok(Replace(email, domain, NewDomain));
  }

  /** "ab@b" becomes "auni-students.com@uni-students.com": the 'b' of the
      local part is replaced as well. */
  lemma RewriteInsideLocalPart()
    ensures RewriteEmail("ab@b") == Ok("a" + NewDomain + "@" + NewDomain)
  {
    var email := "ab@b";
    assert SecondField(email, '@') == Ok("b") by {
      assert IndexOf(email, '@') == Some(2);
      assert email[3..] == "b";
      assert FirstField("b", '@') == "b";
    }
    ReplaceInsideLocalPart();
  }

  lemma ReplaceInsideLocalPart()
    ensures ReplaceNonEmpty("ab@b", "b", NewDomain) == "a" + NewDomain + "@" + NewDomain
  {
    var email := "ab@b";
    assert email[..1][0] == 'a';
    ReplaceMiss(email, "b", NewDomain);
    assert email[1..] == "b@b";
    ReplaceHit("b@b", "b", NewDomain);
    assert "b@b"[1..] == "@b";
    assert "@b"[..1][0] == '@';
    ReplaceMiss("@b", "b", NewDomain);
    assert "@b"[1..] == "b";
    ReplaceHit("b", "b", NewDomain);
    assert "b"[1..] == [];
    assert ReplaceNonEmpty([], "b", NewDomain) == [];
  }

  /** The domain of an address whose text after the '@' is empty is the
      empty string, and `replace` then puts the new domain between every two
      characters. */
  lemma EmptyDomainIsInsertedEverywhere(local: string)
    requires '@' !in local
    ensures RewriteEmail(local + "@") == Ok(ReplaceEmpty(local + "@", NewDomain))
  {
    var email := local + "@";
    assert IndexOf(email, '@') == Some(|local|) by {
      assert email[|local|] == '@';
      assert email[..|local|] == local;
    }
    assert email[|local| + 1..] == [];
  }

  /** A student whose address has an '@', with the domain rewritten. */
  function Rewritten(s: Student): Student
    requires '@' in s.email
  {
    s.(email := RewriteEmail(s.email).value)
  }

  /** `update_students_emails`: the students are saved one by one, so an
      address without '@' stops the loop with the earlier rows already
      rewritten. Returns the table and the error raised, if any. */
  function UpdateStudentsEmails(students: seq<Student>): (r: (seq<Student>, Option<Error>))
    ensures |r.0| == |students|
    ensures r.1.Some? ==> r.1.value.kind == IndexError
  {
    if |students| == 0 then ([], None)
    else
      var s := students[0];
      match RewriteEmail(s.email)
      case Err(e) => (students, Some(e))
      case Ok(_) =>
        var rest := UpdateStudentsEmails(students[1..]);
        ([Rewritten(s)] + rest.0, rest.1)
  }

  /** The update goes through exactly when every address has an '@'. */
  lemma {:induction false} UpdateSucceedsIff(students: seq<Student>)
    ensures UpdateStudentsEmails(students).1.None? <==> forall i :: 0 <= i < |students| ==> '@' in students[i].email
  {
    if |students| > 0 {
      var tail := students[1..];
      UpdateSucceedsIff(tail);
      assert forall i :: 1 <= i < |students| ==> students[i] == tail[i - 1];
      if '@' in students[0].email {
        assert UpdateStudentsEmails(students).1 == UpdateStudentsEmails(tail).1;
        assert (forall i :: 0 <= i < |students| ==> '@' in students[i].email)
          <==> (forall i :: 0 <= i < |tail| ==> '@' in tail[i].email);
      }
    }
  }

  /** The first address without '@' raises, and that row and every later
      one is left as it was. */
  lemma {:induction false} UpdateFailsAt(students: seq<Student>, k: nat)
    requires k < |students| && '@' !in students[k].email
    requires forall i :: 0 <= i < k ==> '@' in students[i].email
    ensures UpdateStudentsEmails(students).1 == Some(Error(IndexError, IndexOutOfRange))
    ensures UpdateStudentsEmails(students).0[k..] == students[k..]
  {
    if k > 0 {
      var tail := students[1..];
      assert '@' in students[0].email;
      assert forall i :: 0 <= i < k - 1 ==> tail[i] == students[i + 1];
      UpdateFailsAt(tail, k - 1);
      var r := UpdateStudentsEmails(students);
      var rest := UpdateStudentsEmails(tail);
      assert r.0[1..] == rest.0;
      assert r.0[k..] == rest.0[k - 1..];
      assert students[k..] == tail[k - 1..];
    }
  }

  /** Every row before the first address without '@' is rewritten. */
  lemma {:induction false} UpdateRewritesBefore(students: seq<Student>, k: nat)
    requires k <= |students|
    requires forall i :: 0 <= i < k ==> '@' in students[i].email
    ensures forall i :: 0 <= i < k ==>
      UpdateStudentsEmails(students).0[i] == Rewritten(students[i])
  {
    if k > 0 {
      var tail := students[1..];
      assert '@' in students[0].email;
      assert forall i :: 0 <= i < k - 1 ==> tail[i] == students[i + 1];
      UpdateRewritesBefore(tail, k - 1);
      var rest := UpdateStudentsEmails(tail).0;
      var table := UpdateStudentsEmails(students).0;
      assert table == [Rewritten(students[0])] + rest;
      forall i | 0 <= i < k ensures table[i] == Rewritten(students[i]) {
        if i > 0 {
          assert table[i] == rest[i - 1] && tail[i - 1] == students[i];
        }
      }
    }
  }

  /** `update_students_emails` stops at the first address without '@': the
      rows before it are rewritten, that row and every later one is left as
      it was, and the IndexError is raised. */
  lemma UpdateStopsAtFirstFailure(students: seq<Student>, k: nat)
    requires k < |students| && '@' !in students[k].email
    requires forall i :: 0 <= i < k ==> '@' in students[i].email
    ensures var r := UpdateStudentsEmails(students);
      && r.1 == Some(Error(IndexError, IndexOutOfRange))
      && (forall i :: 0 <= i < k ==> r.0[i] == Rewritten(students[i]))
      && r.0[k..] == students[k..]
  {
    UpdateFailsAt(students, k);
    UpdateRewritesBefore(students, k);
  }

  /** `truncate_students`. */
  function TruncateStudents(students: seq<Student>): (r: seq<Student>)
    ensures GetStudentsInfo(r) == ""
    ensures forall s :: s !in r
  {
    []
  }
}

=== FILE: tables.dfy ===
/** A table is a sequence of records. The query-set operations the exercises
    chain together become functions on sequences: `filter`/`exclude` keep the
    rows a predicate accepts, `filter(...).update(...)` rewrites exactly those
    rows, `order_by` is a stable sort under a strict order on the keys, and
    `first()` after `order_by` picks a row that nothing precedes. */
module Tables {

  /** No two rows share a primary key. */
  predicate UniqueIds<R>(t: seq<R>, id: R -> int) {
    forall i, j :: 0 <= i < j < |t| ==> id(t[i]) != id(t[j])
  }

  /** Under unique keys, equal keys mean the same position. */
  lemma UniqueIdsInjective<R>(t: seq<R>, id: R -> int)
    requires UniqueIds(t, id)
    ensures forall i, j :: 0 <= i < |t| && 0 <= j < |t| && id(t[i]) == id(t[j]) ==> i == j
  {
  }

  /** `queryset.filter(p)`: the rows `p` accepts, in table order. */
  function Filter<R(!new)>(t: seq<R>, p: R -> bool): (r: seq<R>)
    ensures |r| <= |t|
    ensures forall x :: x in r <==> x in t && p(x)
    ensures multiset(r) <= multiset(t)
  {
    if |t| == 0 then []
    else
      assert t == [t[0]] + t[1..];
      (if p(t[0]) then [t[0]] else []) + Filter(t[1..], p)
  }

  /** Filtering with a predicate every row satisfies keeps the table. */
  lemma {:induction false} FilterAll<R(!new)>(t: seq<R>, p: R -> bool)
    requires forall x :: x in t ==> p(x)
    ensures Filter(t, p) == t
  {
    if |t| > 0 {
      var rest := t[1..];
      assert t[0] in t;
      forall x | x in rest ensures p(x) {
        assert x in t;
      }
      FilterAll(rest, p);
    }
  }

  /** Filtering keeps any key a table has unique. */
  lemma {:induction false} FilterUniqueIds<R(!new)>(t: seq<R>, p: R -> bool, id: R -> int)
    requires UniqueIds(t, id)
    ensures UniqueIds(Filter(t, p), id)
  {
    if |t| > 0 {
      FilterUniqueIds(t[1..], p, id);
      var rest := Filter(t[1..], p);
      if p(t[0]) {
        forall k | 0 <= k < |rest|
          ensures id(rest[k]) != id(t[0])
        {
          assert rest[k] in t[1..];
          var m :| 0 <= m < |t[1..]| && t[1..][m] == rest[k];
          assert t[m + 1] == rest[k];
        }
        var r := [t[0]] + rest;
        assert Filter(t, p) == r;
        forall i, j | 0 <= i < j < |r|
          ensures id(r[i]) != id(r[j])
        {
          assert r[j] == rest[j - 1];
          if i > 0 {
            assert r[i] == rest[i - 1];
          }
        }
      } else {
        assert Filter(t, p) == rest;
      }
    }
  }

  /** Filtering out exactly one row shortens the table by one. */
  lemma {:induction false} FilterDropsOne<R(!new)>(t: seq<R>, p: R -> bool, j: nat)
    requires j < |t|
    requires forall i :: 0 <= i < |t| ==> (p(t[i]) <==> i != j)
    ensures |Filter(t, p)| == |t| - 1
  {
    assert t == [t[0]] + t[1..];
    if j == 0 {
      assert forall x :: x in t[1..] ==> p(x);
      FilterAll(t[1..], p);
    } else {
      FilterDropsOne(t[1..], p, j - 1);
    }
  }

  /** Two tables of the same length that a predicate selects at the same
      positions filter to the same number of rows. */
  lemma {:induction false} FilterSameSelection<R(!new)>(t: seq<R>, u: seq<R>, p: R -> bool)
    requires |t| == |u|
    requires forall i :: 0 <= i < |t| ==> (p(t[i]) <==> p(u[i]))
    ensures |Filter(t, p)| == |Filter(u, p)|
  {
    if |t| > 0 {
      assert forall i :: 0 <= i < |t| - 1 ==> t[1..][i] == t[i + 1] && u[1..][i] == u[i + 1];
      FilterSameSelection(t[1..], u[1..], p);
    }
  }

  /** `queryset.filter(p).update(f)`: rewrites the accepted rows in place. */
  function UpdateWhere<R>(t: seq<R>, p: R -> bool, f: R -> R): (r: seq<R>)
    ensures |r| == |t|
    ensures forall i :: 0 <= i < |t| ==> r[i] == (if p(t[i]) then f(t[i]) else t[i])
  {
    seq(|t|, i requires 0 <= i < |t| => if p(t[i]) then f(t[i]) else t[i])
  }

  /** A deletion and an update that leaves the deletion's condition alone
      can run in either order. */
  lemma {:induction false} FilterUpdateCommute<R(!new)>(t: seq<R>, keep: R -> bool, p: R -> bool, f: R -> R)
    requires forall x {:trigger p(x)} :: p(x) ==> (keep(f(x)) <==> keep(x))
    ensures Filter(UpdateWhere(t, p, f), keep) == UpdateWhere(Filter(t, keep), p, f)
  {
    if |t| > 0 {
      var u := UpdateWhere(t, p, f);
      var tail := UpdateWhere(t[1..], p, f);
      assert u[1..] == tail;
      FilterUpdateCommute(t[1..], keep, p, f);
      var rest := Filter(t[1..], keep);
      assert keep(u[0]) == keep(t[0]);
      assert Filter(u, keep) == (if keep(t[0]) then [u[0]] else []) + UpdateWhere(rest, p, f);
      if keep(t[0]) {
        var w := UpdateWhere([t[0]] + rest, p, f);
        assert w[0] == u[0];
        assert w[1..] == UpdateWhere(rest, p, f);
        assert w == [u[0]] + w[1..];
      }
    }
  }

  /** `Model.save()`: an UPDATE of the row with the same primary key when
      one is stored, an INSERT at the end otherwise. */
  function StoreById<R(!new)>(t: seq<R>, x: R, id: R -> int): (r: seq<R>)
    ensures x in r
    ensures forall y :: y in r ==> y == x || (y in t && id(y) != id(x))
    ensures forall y :: y in t && id(y) != id(x) ==> y in r
    ensures (exists i :: 0 <= i < |t| && id(t[i]) == id(x)) ==>
      |r| == |t| && forall i :: 0 <= i < |t| ==> r[i] == if id(t[i]) == id(x) then x else t[i]
    ensures (forall i :: 0 <= i < |t| ==> id(t[i]) != id(x)) ==> r == t + [x]
  {
    if exists i :: 0 <= i < |t| && id(t[i]) == id(x) then
      var r := UpdateWhere(t, (y: R) => id(y) == id(x), (_: R) => x);
      var i :| 0 <= i < |t| && id(t[i]) == id(x);
      assert r[i] == x;
      forall y | y in t && id(y) != id(x) ensures y in r {
        var j :| 0 <= j < |t| && t[j] == y;
        assert r[j] == y;
      }
      r
    else t + [x]
  }

  /** `queryset[:n]`. */
  function Take<R>(t: seq<R>, n: nat): (r: seq<R>)
    ensures |r| == if n < |t| then n else |t|
    ensures forall i :: 0 <= i < |r| ==> r[i] == t[i]
  {
    if n < |t| then t[..n] else t
  }

  // ---------------------------------------------------------------------
  // Orderings

  /** `before(a, b)`: `a` must be listed ahead of `b`. */
  ghost predicate StrictOrder<R(!new)>(before: (R, R) -> bool) {
    && (forall a :: !before(a, a))
    && (forall a, b, c :: before(a, b) && before(b, c) ==> before(a, c))
  }

  /** No row is listed after a row it must precede. */
  predicate SortedBy<R>(t: seq<R>, before: (R, R) -> bool) {
    forall i, j :: 0 <= i < j < |t| ==> !before(t[j], t[i])
  }

  /** Filtering a sorted table leaves it sorted. */
  lemma {:induction false} FilterKeepsOrder<R(!new)>(t: seq<R>, p: R -> bool, before: (R, R) -> bool)
    requires SortedBy(t, before)
    ensures SortedBy(Filter(t, p), before)
  {
    if |t| > 0 {
      var rest := t[1..];
      assert SortedBy(rest, before) by {
        forall i, j | 0 <= i < j < |rest| ensures !before(rest[j], rest[i]) {
          assert rest[i] == t[i + 1] && rest[j] == t[j + 1];
        }
      }
      FilterKeepsOrder(rest, p, before);
      var fr := Filter(rest, p);
      if p(t[0]) {
        forall k | 0 <= k < |fr| ensures !before(fr[k], t[0]) {
          assert fr[k] in rest;
          var m :| 0 <= m < |rest| && rest[m] == fr[k];
          assert t[m + 1] == fr[k];
        }
        ConsKeepsOrder(t[0], fr, before);
        assert Filter(t, p) == [t[0]] + fr;
      } else {
        assert Filter(t, p) == fr;
      }
    }
  }

  /** A row that no later row must precede can head a sorted table. */
  lemma ConsKeepsOrder<R>(x: R, s: seq<R>, before: (R, R) -> bool)
    requires SortedBy(s, before)
    requires forall k :: 0 <= k < |s| ==> !before(s[k], x)
    ensures SortedBy([x] + s, before)
  {
    var r := [x] + s;
    forall i, j | 0 <= i < j < |r| ensures !before(r[j], r[i]) {
      assert r[j] == s[j - 1];
      if i > 0 { assert r[i] == s[i - 1]; }
    }
  }

  /** Two tables holding the same rows with the same multiplicities hold
      the same rows. */
  lemma SameRows<R>(a: seq<R>, b: seq<R>)
    requires multiset(a) == multiset(b)
    ensures forall x :: x in a <==> x in b
  {
    forall x ensures x in a <==> x in b {
      assert x in a <==> x in multiset(a);
      assert x in b <==> x in multiset(b);
    }
  }

  /** Places `x` ahead of the first row it must precede. */
  function Insert<R(!new)>(x: R, t: seq<R>, before: (R, R) -> bool): (r: seq<R>)
    requires StrictOrder(before)
    requires SortedBy(t, before)
    ensures SortedBy(r, before)
    ensures multiset(r) == multiset(t) + multiset{x}
    ensures forall y :: y in r <==> y == x || y in t
  {
    if |t| == 0 then [x]
    else if before(x, t[0]) then
      AheadOfHead(x, t, before);
      ConsKeepsOrder(x, t, before);
      [x] + t
    else
      var rest := Insert(x, t[1..], before);
      assert t == [t[0]] + t[1..];
      forall k | 0 <= k < |rest|
        ensures !before(rest[k], t[0])
      {
        if rest[k] != x {
          assert rest[k] in t[1..];
          var m :| 0 <= m < |t[1..]| && t[1..][m] == rest[k];
          assert t[m + 1] == rest[k];
        }
      }
      ConsKeepsOrder(t[0], rest, before);
      [t[0]] + rest
  }

  /** A row that must precede the head of a sorted table is preceded by no
      row of it. */
  lemma AheadOfHead<R(!new)>(x: R, t: seq<R>, before: (R, R) -> bool)
    requires StrictOrder(before) && SortedBy(t, before)
    requires |t| > 0 && before(x, t[0])
    ensures forall k :: 0 <= k < |t| ==> !before(t[k], x)
  {
    forall k | 0 <= k < |t|
      ensures !before(t[k], x)
    {
      if k > 0 {
        assert !before(t[k], t[0]);
      }
    }
  }

  /** `order_by(...)`: a stable insertion sort under `before`. */
  function SortBy<R(!new)>(t: seq<R>, before: (R, R) -> bool): (r: seq<R>)
    requires StrictOrder(before)
    ensures SortedBy(r, before)
    ensures multiset(r) == multiset(t)
    ensures |r| == |t|
    ensures forall y :: y in r <==> y in t
  {
    if |t| == 0 then []
    else
      var init, last := t[..|t| - 1], t[|t| - 1];
      assert t == init + [last];
      var r := Insert(last, SortBy(init, before), before);
      assert multiset(t) == multiset(init) + multiset{last};
      r
  }

  /** Rows ordered by a relation that orders every two distinct rows. */
  ghost predicate Connected<R>(t: seq<R>, before: (R, R) -> bool) {
    forall i, j :: 0 <= i < |t| && 0 <= j < |t| && t[i] != t[j] ==> before(t[i], t[j]) || before(t[j], t[i])
  }

  /** `order_by(...).first()`: a row that no other row must precede. */
  method FirstBy<R(!new)>(t: seq<R>, before: (R, R) -> bool) returns (best: R)
    requires |t| > 0
    requires StrictOrder(before)
    ensures best in t
    ensures forall x :: x in t ==> !before(x, best)
  {
    best := t[0];
    var i := 1;
    while i < |t|
      invariant 1 <= i <= |t|
      invariant best in t[..i]
      invariant forall k :: 0 <= k < i ==> !before(t[k], best)
    {
      if before(t[i], best) {
        best := t[i];
      }
      i := i + 1;
    }
    assert t[..i] == t;
  }

  /** Under an order that compares every two distinct rows, the first row is
      unique: it precedes every other row. */
  lemma FirstIsUnique<R(!new)>(t: seq<R>, before: (R, R) -> bool, best: R)
    requires StrictOrder(before) && Connected(t, before)
    requires best in t && forall x :: x in t ==> !before(x, best)
    ensures forall x :: x in t && x != best ==> before(best, x)
  {
    forall x | x in t && x != best
      ensures before(best, x)
    {
      var i :| 0 <= i < |t| && t[i] == x;
      var j :| 0 <= j < |t| && t[j] == best;
    }
  }

  /** The head of a sorted non-empty table is a row nothing precedes. */
  lemma SortedHeadIsFirst<R(!new)>(t: seq<R>, before: (R, R) -> bool)
    requires |t| > 0 && StrictOrder(before) && SortedBy(t, before)
    ensures forall x :: x in t ==> !before(x, t[0])
  {
  }

  // ---------------------------------------------------------------------
  // Aggregates

  /** One integer column of a table, row by row (`values_list(..., flat=True)`). */
  function Column<R>(t: seq<R>, f: R -> int): (c: seq<int>)
    ensures |c| == |t|
    ensures forall i :: 0 <= i < |c| ==> c[i] == f(t[i])
  {
    seq(|t|, i requires 0 <= i < |t| => f(t[i]))
  }

  /** `Sum(...)` over a column. */
  function Sum(xs: seq<int>): int {
    if |xs| == 0 then 0 else Sum(xs[..|xs| - 1]) + xs[|xs| - 1]
  }

  /** Values between `lo` and `hi` sum to between |xs|·lo and |xs|·hi. */
  lemma {:induction false} SumBounds(xs: seq<int>, lo: int, hi: int)
    requires forall x :: x in xs ==> lo <= x <= hi
    ensures |xs| * lo <= Sum(xs) <= |xs| * hi
  {
    if |xs| > 0 {
      var n := |xs| - 1;
      var init, last := xs[..n], xs[n];
      assert forall x :: x in init ==> x in xs;
      assert last in xs;
      SumBounds(init, lo, hi);
      MultiplyStep(n, lo);
      MultiplyStep(n, hi);
    }
  }

  lemma MultiplyStep(n: int, k: int)
    ensures (n + 1) * k == n * k + k
  {
  }

  /** Python's true division of a sum by a positive count (`Avg(...)`). */
  function Mean(sum: int, n: int): (m: real)
    requires n > 0
    ensures m * n as real == sum as real
  {
    sum as real / n as real
  }

  /** A mean of `n` values whose sum lies between n·lo and n·hi lies
      between lo and hi. */
  lemma MeanBounds(sum: int, n: int, lo: int, hi: int)
    requires n > 0
    requires n * lo <= sum <= n * hi
    ensures lo as real <= Mean(sum, n) <= hi as real
  {
    var m := Mean(sum, n);
    var nr := n as real;
    assert (n * lo) as real == nr * lo as real;
    assert (n * hi) as real == nr * hi as real;
    assert nr * (m - lo as real) == sum as real - (n * lo) as real;
    assert nr * (hi as real - m) == (n * hi) as real - sum as real;
  }

  /** The first row under `before`: nothing precedes it. */
  function TopBy<R(!new)>(t: seq<R>, before: (R, R) -> bool): (r: R)
    requires |t| > 0 && StrictOrder(before)
    ensures r in t
    ensures forall x :: x in t ==> !before(x, r)
  {
    var sorted := SortBy(t, before);
    assert sorted[0] in sorted;
    SortedHeadIsFirst(sorted, before);
    sorted[0]
  }
}

=== FILE: text.dfy ===
/** Strings as the exercises use them: ASCII digits and `int()`/`str()` on
    integers, `str.isdigit`, `str.replace`, `str.split`, case-insensitive
    containment, fixed-point formatting and the code-point order that both
    Python's `sorted` and the database's binary collation apply. */
module Text {
  import opened Wrappers

  // ---------------------------------------------------------------------
  // Digits and decimal numerals

  predicate IsDigitChar(c: char) { '0' <= c <= '9' }

  function DigitValue(c: char): (d: nat)
    requires IsDigitChar(c)
    ensures d < 10
  {
    (c as int) - ('0' as int)
  }

  function DigitChar(d: nat): (c: char)
    requires d < 10
    ensures IsDigitChar(c) && DigitValue(c) == d
  {
    (('0' as int) + d) as char
  }

  /** `str.isdigit` restricted to ASCII: true only for a non-empty run of digits. */
  predicate IsDigits(s: string) {
    |s| > 0 && forall i :: 0 <= i < |s| ==> IsDigitChar(s[i])
  }

  /** Value of a run of ASCII digits, most significant first. */
  function DigitsValue(s: string): nat
    requires forall i :: 0 <= i < |s| ==> IsDigitChar(s[i])
  {
    if |s| == 0 then 0 else DigitsValue(s[..|s| - 1]) * 10 + DigitValue(s[|s| - 1])
  }

  /** `str(n)` for a non-negative integer. */
  function NatToString(n: nat): (s: string)
    ensures IsDigits(s)
    ensures n < 10 <==> |s| == 1
  {
    if n < 10 then [DigitChar(n)] else NatToString(n / 10) + [DigitChar(n % 10)]
  }

  /** Reading back a numeral recovers the number. */
  lemma {:induction false} NatToStringRoundTrip(n: nat)
    ensures DigitsValue(NatToString(n)) == n
  {
    var s := NatToString(n);
    if n >= 10 {
      NatToStringRoundTrip(n / 10);
      assert s[..|s| - 1] == NatToString(n / 10);
    }
  }

  /** `str(i)` for any integer. */
  function IntToString(i: int): (s: string)
    ensures |s| > 0
  {
    if i < 0 then "-" + NatToString(-i) else NatToString(i)
  }

  /** `int(s)` on text: an optional sign followed by ASCII digits; anything else
      is the `ValueError` case (None). */
  function ParseInt(s: string): (r: Option<int>)
    ensures r.Some? ==> |s| > 0
    ensures r.Some? && r.value < 0 ==> s[0] == '-'
  {
    if |s| > 0 && (s[0] == '-' || s[0] == '+') then
      if IsDigits(s[1..]) then
        Some(if s[0] == '-' then -(DigitsValue(s[1..]) as int) else DigitsValue(s[1..]))
      else None
    else if IsDigits(s) then Some(DigitsValue(s))
    else None
  }

  /** Parsing what `str` prints gives back the integer. */
  lemma ParseIntRoundTrip(i: int)
    ensures ParseInt(IntToString(i)) == Some(i)
  {
    var s := IntToString(i);
    if i < 0 {
      var digits := NatToString(-i);
      assert s[0] == '-' && s[1..] == digits;
      NatToStringRoundTrip(-i);
      assert ParseInt(s) == Some(-(DigitsValue(digits) as int));
    } else {
      assert IsDigitChar(s[0]);
      NatToStringRoundTrip(i);
      assert ParseInt(s) == Some(DigitsValue(s) as int);
    }
  }

  /** Sum of the digit values of a numeral, as `sum(int(d) for d in s)` computes it. */
  function SumOfDigitChars(s: string): nat
    requires forall i :: 0 <= i < |s| ==> IsDigitChar(s[i])
  {
    if |s| == 0 then 0 else SumOfDigitChars(s[..|s| - 1]) + DigitValue(s[|s| - 1])
  }

  /** The arithmetic digit sum. */
  function DigitSum(n: nat): nat {
    if n < 10 then n else DigitSum(n / 10) + n % 10
  }

  /** Summing the characters of `str(n)` is the arithmetic digit sum. */
  lemma {:induction false} SumOfDigitCharsIsDigitSum(n: nat)
    ensures SumOfDigitChars(NatToString(n)) == DigitSum(n)
  {
    if n >= 10 {
      var s := NatToString(n);
      assert s[..|s| - 1] == NatToString(n / 10);
      SumOfDigitCharsIsDigitSum(n / 10);
    }
  }

  /** A number below 10^k has a digit sum of at most 9k. */
  lemma {:induction false} DigitSumBound(n: nat, k: nat)
    requires n < Pow10(k)
    ensures DigitSum(n) <= 9 * k
  {
    if k >= 2 && n >= 10 {
      DigitSumBound(n / 10, k - 1);
    } else if k == 1 {
      assert Pow10(1) == 10;
    }
  }

  function Pow10(k: nat): (p: nat)
    ensures p >= 1
  {
    if k == 0 then 1 else 10 * Pow10(k - 1)
  }

  /** `"%0*d" % (width, n)`: at least `width` digits, padded with zeros on the left. */
  function ZeroPad(n: nat, width: nat): (s: string)
    ensures |s| >= width
    ensures IsDigits(s)
  {
    var digits := NatToString(n);
    if |digits| >= width then digits else seq(width - |digits|, _ => '0') + digits
  }

  /** `f"{x:.1f}"` for a non-negative amount held in tenths. */
  function FormatTenths(tenths: nat): string {
    NatToString(tenths / 10) + "." + [DigitChar(tenths % 10)]
  }

  /** `str(Decimal)` of a non-negative two-place decimal held in cents. */
  function FormatCents(cents: nat): string {
    NatToString(cents / 100) + "." + ZeroPad(cents % 100, 2)
  }

  // ---------------------------------------------------------------------
  // Joining, prefixes, containment

  /** `sep.join(parts)`. */
  function Join(parts: seq<string>, sep: string): (s: string)
    ensures |parts| == 0 ==> s == ""
    ensures |parts| == 1 ==> s == parts[0]
  {
    if |parts| == 0 then ""
    else if |parts| == 1 then parts[0]
    else parts[0] + sep + Join(parts[1..], sep)
  }

  /** A join starts with the first part's first character. */
  lemma JoinHead(parts: seq<string>, sep: string)
    requires |parts| > 0 && |parts[0]| > 0
    ensures |Join(parts, sep)| > 0 && Join(parts, sep)[0] == parts[0][0]
  {
    if |parts| > 1 {
      assert Join(parts, sep) == parts[0] + (sep + Join(parts[1..], sep));
    }
  }

  predicate StartsWith(s: string, prefix: string) {
    |prefix| <= |s| && s[..|prefix|] == prefix
  }

  predicate EndsWith(s: string, suffix: string) {
    |suffix| <= |s| && s[|s| - |suffix|..] == suffix
  }

  /** A join starts with whatever its first part starts with. */
  lemma JoinStartsWith(parts: seq<string>, sep: string, prefix: string)
    requires |parts| > 0 && StartsWith(parts[0], prefix)
    ensures StartsWith(Join(parts, sep), prefix)
  {
    if |parts| > 1 {
      var s := Join(parts, sep);
      assert s == parts[0] + (sep + Join(parts[1..], sep));
      assert s[..|prefix|] == parts[0][..|prefix|];
    }
  }

  /** `a + b + c` starts with `a` and ends with `c`. */
  lemma Affixes(a: string, b: string, c: string)
    ensures StartsWith(a + b + c, a) && EndsWith(a + b + c, c)
  {
    var s := a + b + c;
    assert s[..|a|] == a;
    assert s[|s| - |c|..] == c;
  }

  /** The middle of `a + b + c` is `b`. */
  lemma Middle(a: string, b: string, c: string)
    ensures (a + b + c)[|a|..|a + b + c| - |c|] == b
  {
    var s := a + b + c;
    assert s[|a|..|s| - |c|] == b;
  }

  /** `sub in s`. */
  predicate Contains(s: string, sub: string)
    decreases |s|
  {
    StartsWith(s, sub) || (|s| > 0 && Contains(s[1..], sub))
  }

  /** `sub` occurs in `s` starting at index `i`. */
  predicate OccursAt(s: string, sub: string, i: int) {
    0 <= i <= |s| - |sub| && s[i..i + |sub|] == sub
  }

  /** Containment means an occurrence at some position. */
  lemma {:induction false} ContainsAt(s: string, sub: string)
    ensures Contains(s, sub) <==> exists i :: OccursAt(s, sub, i)
    decreases |s|
  {
    if |s| > 0 {
      ContainsAt(s[1..], sub);
      if Contains(s[1..], sub) {
        var i :| OccursAt(s[1..], sub, i);
        assert OccursAt(s, sub, i + 1);
      }
      if exists i :: OccursAt(s, sub, i) {
        var i :| OccursAt(s, sub, i);
        if i > 0 {
          assert OccursAt(s[1..], sub, i - 1);
        } else {
          assert s[0..|sub|] == s[..|sub|];
        }
      }
      if StartsWith(s, sub) {
        assert OccursAt(s, sub, 0);
      }
    } else if |sub| == 0 {
      assert OccursAt(s, sub, 0);
    }
  }

  function LowerChar(c: char): char {
    if 'A' <= c <= 'Z' then ((c as int) + 32) as char else c
  }

  /** ASCII case folding. */
  function Lower(s: string): (r: string)
    ensures |r| == |s|
    ensures forall i :: 0 <= i < |s| ==> r[i] == LowerChar(s[i])
  {
    seq(|s|, i requires 0 <= i < |s| => LowerChar(s[i]))
  }

  /** The `__icontains` lookup: containment after case folding. */
  predicate IContains(s: string, sub: string) {
    Contains(Lower(s), Lower(sub))
  }

  // ---------------------------------------------------------------------
  // Code-point order

  /** Strict lexicographic order on code points. */
  predicate StrLt(a: string, b: string) {
    if |a| == 0 then |b| > 0
    else if |b| == 0 then false
    else a[0] < b[0] || (a[0] == b[0] && StrLt(a[1..], b[1..]))
  }

  lemma {:induction false} StrLtIrreflexive(a: string)
    ensures !StrLt(a, a)
  {
    if |a| > 0 { StrLtIrreflexive(a[1..]); }
  }

  lemma {:induction false} StrLtTransitive(a: string, b: string, c: string)
    requires StrLt(a, b) && StrLt(b, c)
    ensures StrLt(a, c)
  {
    if |a| > 0 && |b| > 0 && |c| > 0 && a[0] == b[0] == c[0] {
      StrLtTransitive(a[1..], b[1..], c[1..]);
    }
  }

  /** Two different strings are always ordered one way or the other. */
  lemma {:induction false} StrLtTotal(a: string, b: string)
    requires a != b
    ensures StrLt(a, b) || StrLt(b, a)
  {
    if |a| > 0 && |b| > 0 && a[0] == b[0] {
      assert a == [a[0]] + a[1..] && b == [b[0]] + b[1..];
      StrLtTotal(a[1..], b[1..]);
    }
  }

  // ---------------------------------------------------------------------
  // Splitting and replacing

  /** Index of the first occurrence of `c`, if any. */
  function IndexOf(s: string, c: char): (r: Option<nat>)
    ensures r.None? <==> c !in s
    ensures r.Some? ==> r.value < |s| && s[r.value] == c && c !in s[..r.value]
  {
    if |s| == 0 then None
    else if s[0] == c then Some(0)
    else match IndexOf(s[1..], c)
      case None => None
      case Some(k) =>
        assert s[..k + 1] == [s[0]] + s[1..][..k];
        Some(k + 1)
  }

  /** `s.split(c)`: the pieces between occurrences of `c`; there is always
      at least one, so `"".split(c)` is `[""]`. */
  function Split(s: string, c: char): (r: seq<string>)
    ensures |r| > 0
    ensures forall i :: 0 <= i < |r| ==> c !in r[i]
    decreases |s|
  {
    match IndexOf(s, c)
    case None => [s]
    case Some(k) => [s[..k]] + Split(s[k + 1..], c)
  }

  lemma CharNotInConcat(c: char, a: string, b: string)
    requires c !in a && c !in b
    ensures c !in a + b
  {
  }

  /** Joining pieces free of `c` with `c` and splitting on `c` gives the
      pieces back. */
  lemma {:induction false} SplitJoin(parts: seq<string>, c: char)
    requires |parts| > 0
    requires forall i :: 0 <= i < |parts| ==> c !in parts[i]
    ensures Split(Join(parts, [c]), c) == parts
  {
    if |parts| > 1 {
      var rest := parts[1..];
      var s := Join(parts, [c]);
      assert s == parts[0] + ([c] + Join(rest, [c]));
      assert s[|parts[0]|] == c;
      assert s[..|parts[0]|] == parts[0];
      assert IndexOf(s, c) == Some(|parts[0]|);
      assert s[|parts[0]| + 1..] == Join(rest, [c]);
      SplitJoin(rest, c);
    }
  }

  const IndexOutOfRange: string := "list index out of range"

  /** `s.split(c)[1]`: the field after the first separator, up to the next one;
      an IndexError when `c` does not occur in `s`. */
  function SecondField(s: string, c: char): (r: Result<string>)
    ensures r.Err? <==> c !in s
    ensures r.Ok? ==> c !in r.value
    ensures r.Ok? ==> |Split(s, c)| > 1 && r.value == Split(s, c)[1]
    ensures r.Ok? ==> exists k :: 0 <= k < |s| && s[k] == c && c !in s[..k]
                        && k + 1 + |r.value| <= |s| && s[k + 1..k + 1 + |r.value|] == r.value
                        && (k + 1 + |r.value| == |s| || s[k + 1 + |r.value|] == c)
  {
    match IndexOf(s, c)
    case None => Err(Error(IndexError, IndexOutOfRange))
    case Some(k) =>
      SecondFieldAt(s, c, k);
      Ok(FirstField(s[k + 1..], c))
  }

  /** `s.split(c)[0]`: the text up to the first `c`, or all of `s`. */
  function FirstField(s: string, c: char): (r: string)
    ensures c !in r
    ensures |r| <= |s| && s[..|r|] == r
    ensures |r| == |s| || s[|r|] == c
  {
    match IndexOf(s, c)
    case None => s
    case Some(j) => s[..j]
  }

  /** The field after the first `c` is the second piece of the split, and it
      sits right after that `c`. */
  lemma SecondFieldAt(s: string, c: char, k: nat)
    requires IndexOf(s, c) == Some(k)
    ensures var f := FirstField(s[k + 1..], c);
      |Split(s, c)| > 1 && f == Split(s, c)[1] &&
      k + 1 + |f| <= |s| && s[k + 1..k + 1 + |f|] == f &&
      (k + 1 + |f| == |s| || s[k + 1 + |f|] == c)
  {
    var rest := s[k + 1..];
    var f := FirstField(rest, c);
    assert Split(s, c) == [s[..k]] + Split(rest, c);
    assert Split(rest, c)[0] == f;
    assert s[k + 1..k + 1 + |f|] == rest[..|f|];
    if k + 1 + |f| < |s| {
      assert s[k + 1 + |f|] == rest[|f|];
    }
  }

  /** `s.replace(pattern, repl)` for a non-empty `pattern`: every occurrence, scanned
      left to right without overlap, is replaced. */
  function ReplaceNonEmpty(s: string, pattern: string, repl: string): string
    requires |pattern| > 0
    decreases |s|
  {
    if |s| < |pattern| then s
    else if s[..|pattern|] == pattern then repl + ReplaceNonEmpty(s[|pattern|..], pattern, repl)
    else [s[0]] + ReplaceNonEmpty(s[1..], pattern, repl)
  }

  /** `s.replace("", repl)`: `repl` before every character and once at the end. */
  function ReplaceEmpty(s: string, repl: string): (r: string)
    ensures |r| == |s| + (|s| + 1) * |repl|
  {
    if |s| == 0 then repl else repl + [s[0]] + ReplaceEmpty(s[1..], repl)
  }

  /** Python's `str.replace` with both of its cases. */
  function Replace(s: string, pattern: string, repl: string): string {
    if |pattern| == 0 then ReplaceEmpty(s, repl) else ReplaceNonEmpty(s, pattern, repl)
  }

  /** One step of the left-to-right scan, when the window matches. */
  lemma ReplaceHit(s: string, pattern: string, repl: string)
    requires 0 < |pattern| <= |s| && s[..|pattern|] == pattern
    ensures ReplaceNonEmpty(s, pattern, repl) == repl + ReplaceNonEmpty(s[|pattern|..], pattern, repl)
  {
  }

  /** One step of the left-to-right scan, when the window does not match. */
  lemma ReplaceMiss(s: string, pattern: string, repl: string)
    requires 0 < |pattern| <= |s| && s[..|pattern|] != pattern
    ensures ReplaceNonEmpty(s, pattern, repl) == [s[0]] + ReplaceNonEmpty(s[1..], pattern, repl)
  {
  }

  /** Text with no occurrence of `pattern` is returned unchanged. */
  lemma {:induction false} ReplaceAbsent(s: string, pattern: string, repl: string)
    requires |pattern| > 0 && !Contains(s, pattern)
    ensures ReplaceNonEmpty(s, pattern, repl) == s
    decreases |s|
  {
    if |s| >= |pattern| {
      assert !StartsWith(s, pattern);
      ReplaceAbsent(s[1..], pattern, repl);
    }
  }

  /** The window at the start of `prefix + [sep] + pattern` is not `pattern`
      when `pattern` has no separator and does not occur in `prefix`. */
  lemma FirstWindowDiffers(prefix: string, sep: char, pattern: string)
    requires |pattern| > 0 && sep !in pattern
    requires !StartsWith(prefix, pattern)
    ensures (prefix + [sep] + pattern)[..|pattern|] != pattern
  {
    var s := prefix + [sep] + pattern;
    if |pattern| <= |prefix| {
      assert s[..|pattern|] == prefix[..|pattern|];
    } else {
      assert s[..|pattern|][|prefix|] == sep && pattern[|prefix|] != sep;
    }
  }

  /** Replacing a separator-free `pattern` in `prefix + [sep] + pattern`, where
      `pattern` does not occur in `prefix`, touches only the final field. */
  lemma {:induction false} ReplaceLastField(prefix: string, sep: char, pattern: string, repl: string)
    requires |pattern| > 0 && sep !in pattern
    requires !Contains(prefix, pattern)
    ensures ReplaceNonEmpty(prefix + [sep] + pattern, pattern, repl) == prefix + [sep] + repl
    decreases |prefix|
  {
    var s := prefix + [sep] + pattern;
    assert !StartsWith(prefix, pattern);
    FirstWindowDiffers(prefix, sep, pattern);
    var tail := ReplaceNonEmpty(s[1..], pattern, repl);
    assert ReplaceNonEmpty(s, pattern, repl) == [s[0]] + tail;
    if |prefix| == 0 {
      assert s[1..] == pattern;
      assert pattern[..|pattern|] == pattern && pattern[|pattern|..] == [];
      assert tail == repl + ReplaceNonEmpty([], pattern, repl);
    } else {
      var rest := prefix[1..];
      assert s[1..] == rest + [sep] + pattern;
      assert !Contains(rest, pattern);
      ReplaceLastField(rest, sep, pattern, repl);
      assert tail == rest + [sep] + repl;
      assert [s[0]] + tail == [prefix[0]] + rest + [sep] + repl;
      assert [prefix[0]] + rest == prefix;
    }
  }
}

=== FILE: wrappers.dfy ===
/** Failure-carrying results shared by every model in the project.
    The exercises signal failure by raising Python or Django exceptions;
    each exception class the source can raise becomes one ErrorKind. */
module Wrappers {

  datatype Option<+T> = None | Some(value: T)

  /** The exception classes raised by the modelled code. */
  datatype ErrorKind =
    | ValidationError      // django.core.exceptions.ValidationError
    | ValueError           // Python ValueError (failed int(), chr() out of range)
    | TypeError            // Python TypeError (int() of an unsupported type)
    | OverflowError        // a date moved outside the years 1..9999
    | IndexError           // indexing past the end of a list
    | AttributeError       // attribute access on None (an empty `first()`/`last()`)
    | ZeroDivisionError    // division by a zero-length sequence
    | DoesNotExist         // `objects.get` matched no row
    | MultipleObjectsReturned  // `objects.get` matched several rows
    | IntegrityError       // the database refused a row breaking a unique or check constraint
    | DataError            // the database refused a value its column type cannot hold

  datatype Error = Error(kind: ErrorKind, message: string)

  datatype Result<+T> = Ok(value: T) | Err(error: Error) {
    predicate IsFailure() { Err? }

    function PropagateFailure<U>(): Result<U>
      requires Err?
    {
      Err(error)
    }

    function Extract(): T
      requires Ok?
    {
      value
    }
  }
}

=== FILE: zoo_models.dfy ===
/** The zoo lab (Models_Inheritance_And_Customization_Lab/main_app/models.py):
    an animal's age in whole years, the keeper's specialty check run on every
    save, and the display proxy's two messages. `today` is a parameter. */
module ZooModels {
  import opened Wrappers
  import opened Text
  import opened Tables
  import Dates

  datatype Animal = Animal(id: int, name: string, species: string, birthDate: int, sound: string)

  /** `(date.today() - birth_date).days // 365`: floor division, so a birth
      date in the future gives a negative age. */
  function Age(a: Animal, today: int): (years: int)
    ensures 365 * years <= today - a.birthDate < 365 * (years + 1)
  {
    (today - a.birthDate) / 365
  }

  /** Age never decreases as time passes. */
  lemma AgeMonotone(a: Animal, today: int, later: int)
    requires today <= later
    ensures Age(a, today) <= Age(a, later)
  {
  }

  /** One year's worth of days later the animal is exactly a year older. */
  lemma AgeAfterAYear(a: Animal, today: int)
    ensures Age(a, today + 365) == Age(a, today) + 1
  {
  }

  // ---------------------------------------------------------------------
  // Zoo keepers

  datatype Specialty = Mammals | Birds | Reptiles | Others

  function SpecialtyLabel(s: Specialty): (value: string)
    ensures 0 < |value| <= 10
  {
    match s
    case Mammals => "Mammals"
    case Birds => "Birds"
    case Reptiles => "Reptiles"
    case Others => "Others"
  }

  /** `value in ZooKeeper.Specialities`. */
  predicate IsSpecialty(value: string) {
    value == "Mammals" || value == "Birds" || value == "Reptiles" || value == "Others"
  }

  /** The accepted values are exactly the choices' stored values. */
  lemma IsSpecialtyIsChoice(value: string)
    ensures IsSpecialty(value) <==> exists s: Specialty :: SpecialtyLabel(s) == value
  {
    if value == "Mammals" { assert SpecialtyLabel(Mammals) == value; }
    if value == "Birds" { assert SpecialtyLabel(Birds) == value; }
    if value == "Reptiles" { assert SpecialtyLabel(Reptiles) == value; }
    if value == "Others" { assert SpecialtyLabel(Others) == value; }
  }

  datatype ZooKeeper = ZooKeeper(id: int, firstName: string, lastName: string, phoneNumber: string, specialty: string, managedAnimals: set<int>)

  const SpecialtyMessage: string := "Specialty must be a valid choice."

  /** `ZooKeeper.clean`. */
  function CleanKeeper(k: ZooKeeper): (r: Result<ZooKeeper>)
    ensures r.Ok? <==> IsSpecialty(k.specialty)
    ensures r.Ok? ==> r.value == k
    ensures r.Err? ==> r.error == Error(ValidationError, SpecialtyMessage)
  {
    if IsSpecialty(k.specialty) then Ok(k)
    else Err(Error(ValidationError, SpecialtyMessage))
  }

  /** A required `CharField(max_length=n)`: not blank and at most n long. */
  predicate CharFieldValid(value: string, maxLength: nat) {
    0 < |value| <= maxLength
  }

  /** What `full_clean` checks: the field bounds and choices, then `clean`. */
  predicate KeeperValid(k: ZooKeeper) {
    && CharFieldValid(k.firstName, 50)
    && CharFieldValid(k.lastName, 50)
    && CharFieldValid(k.phoneNumber, 10)
    && IsSpecialty(k.specialty)
  }

  const FieldMessage: string := "Ensure the name and phone fields are filled in and not too long."

  function FullCleanKeeper(k: ZooKeeper): (r: Result<ZooKeeper>)
    ensures r.Ok? <==> KeeperValid(k)
    ensures r.Ok? ==> r.value == k
    ensures !IsSpecialty(k.specialty) ==> r.Err?
  {
    if !(CharFieldValid(k.firstName, 50) && CharFieldValid(k.lastName, 50) && CharFieldValid(k.phoneNumber, 10)) then
      Err(Error(ValidationError, FieldMessage))
    else CleanKeeper(k)
  }

  function KeeperId(k: ZooKeeper): int { k.id }

  /** `ZooKeeper.save`: `full_clean` first, then the row replaces the one
      with its id or is appended. */
  function SaveKeeper(keepers: seq<ZooKeeper>, k: ZooKeeper): (r: Result<seq<ZooKeeper>>)
    ensures r.Ok? <==> KeeperValid(k)
    ensures r.Ok? ==> r.value == StoreById(keepers, k, KeeperId)
    ensures r.Ok? ==> k in r.value
    ensures r.Ok? ==> forall x :: x in r.value ==> x == k || x in keepers
  {
    var checked :- FullCleanKeeper(k);
    Ok(StoreById(keepers, checked, KeeperId))
  }

  /** Saving keeps the table free of invalid specialties. */
  lemma SavedKeepersHaveSpecialties(keepers: seq<ZooKeeper>, k: ZooKeeper)
    requires forall x :: x in keepers ==> IsSpecialty(x.specialty)
    requires SaveKeeper(keepers, k).Ok?
    ensures forall x :: x in SaveKeeper(keepers, k).value ==> IsSpecialty(x.specialty)
  {
  }

  // ---------------------------------------------------------------------
  // ZooDisplayAnimal

  /** `display_info`: the birth date is printed as `str(date)` does. */
  function DisplayInfo(a: Animal): (s: string)
    requires Dates.InRange(a.birthDate)
    ensures StartsWith(s, "Meet " + a.name + "! Species: " + a.species + ", born ")
    ensures EndsWith(s, ". It makes a noise like '" + a.sound + "'.")
    ensures s == "Meet " + a.name + "! Species: " + a.species + ", born " + Dates.IsoFormat(a.birthDate)
                 + ". It makes a noise like '" + a.sound + "'."
  {
    var head := "Meet " + a.name + "! Species: " + a.species + ", born ";
    var tail := ". It makes a noise like '" + a.sound + "'.";
    Affixes(head, Dates.IsoFormat(a.birthDate), tail);
    head + Dates.IsoFormat(a.birthDate) + tail
  }

  /** The text between the fixed head and tail is the ISO birth date, so the
      date can be read back from the display. */
  lemma DisplayInfoShowsBirthDate(a: Animal)
    requires Dates.InRange(a.birthDate)
    ensures var s := DisplayInfo(a);
      var head := "Meet " + a.name + "! Species: " + a.species + ", born ";
      var tail := ". It makes a noise like '" + a.sound + "'.";
      |head| + 10 + |tail| <= |s| && s[|head|..|s| - |tail|] == Dates.IsoFormat(a.birthDate)
  {
    var head := "Meet " + a.name + "! Species: " + a.species + ", born ";
    var tail := ". It makes a noise like '" + a.sound + "'.";
    Middle(head, Dates.IsoFormat(a.birthDate), tail);
  }

  const EndangeredSpecies: set<string> := {"Cross River Gorilla", "Orangutan", "Green Turtle"}

  /** `is_endangered`. */
  function IsEndangered(a: Animal): (s: string)
    ensures a.species in EndangeredSpecies ==> s == a.species + " is at risk!"
    ensures a.species !in EndangeredSpecies ==> s == a.species + " is not at risk."
  {
    if a.species in EndangeredSpecies then a.species + " is at risk!" else a.species + " is not at risk."
  }

  /** The two answers are told apart by their last character. */
  lemma EndangeredAnswersDiffer(a: Animal)
    ensures EndsWith(IsEndangered(a), "!") <==> a.species in EndangeredSpecies
  {
    var s := IsEndangered(a);
    assert s[|s| - 1..] == [s[|s| - 1]];
  }
}
